=== FILE: README.md ===
# TowerDefenseTK core, modelled in Dafny

This project models the logic core of TowerDefenseTK, a Unity tower-defence toolkit written in C#:

- **The pathfinding arena.** This is the coordinate-keyed graph of `PathNode`s built from the `GridManager` cells or the array grid, plus the spawn/exit registry of `NodeGetter`.
- **The A\* search and its (start, goal) route cache** in `Astar`.
- **The "would this block" probes.** These are `Astar.WouldBlockAllPaths` and the placement preview of `TowerPlacementController`.
- **Obstacles** (`PathObstacle`), which toggle walkability and trigger a recalculation of every cached route. Each registered follower is then notified.
- **Route cursors and route choice.** This covers `UnitPathFollower` (rejoin, nearest walkable node, stepping, progress), `MovementComponent` (restart from spawn onto the nearest node of the cached route) and `EnemySpawner` (start and end node, closest end by path length, waves).
- **The tile map** (`MapData`), its application to the scene (`MapLoader`) and the brush and resize rules of the grid map editor.
- **The small state machines.** These are the currency, player lives, time speed, tower upgrades and kill/damage tracking, the damage-type table, the enemy registry with its target selection, and the object pools.

The model uses these conventions:

- **Node references.** A node reference is a grid coordinate `(int, int)`. The scene's nodes form an arena `map<Coord, Node>`, where `Node` holds `walkable` and the ordered neighbour list. A reference is null, or its object destroyed, exactly when its coordinate is not a key of the arena.
- **A\* costs.** A\* runs on scaled integers: each step costs 1000, and the heuristic is `1000·(|dx|+|dy|) + ||dx|-|dy||`, the source's `Manhattan + 0.001·|dx-dy|` times 1000. Its open-set choice takes the first entry with the lexicographically smallest (f, h) pair, as the stable `OrderBy(f).ThenBy(h)` does.
- **Engine facts become inputs.** Physics overlaps and raycasts, world distances, `Time.timeScale` and whether a singleton instance exists are all parameters: `Option<Coord>` hits, `Coord -> real` distance functions and `bool` presence flags.
- **Exceptions.** A C# exception is a `Failure` of the `Result` type (or `None` for an `Option`). In the pathfinding core that is the `KeyNotFoundException` on `nodeValue[...]`. Null dereferences of a missing singleton are not modelled; "Left out" lists them.
- **Enemy identity.** The registry holds enemy references. The model gives each enemy an `id` standing for its reference, so an enemy that moves or takes damage is still the same registered enemy.
- **`int` arithmetic.** The balance and the lives are C# `int`s, whose `+` and `-` wrap around modulo 2^32. The model applies `Int32.Wrap` to exactly those sums and differences (`Currency.TrySpend`, `Currency.Add`, `PlayerHealth.TakeDamage`, `PlayerHealth.Heal`). Other counters are unbounded integers, and "Left out" says so.
- **Coroutines.** Their effects are explicit results, for example "one wave routine started" or the list of followers notified. Their timing is not modelled.

The main proved properties are:

- **FindPath is sound and complete.** Any route it returns is a neighbour-linked, all-walkable route from start to goal. It returns nothing exactly when no such route exists.
- **The route cache is safe.** Every cached route stays a neighbour-linked route between its key's ends for as long as only walkability changes. `GetPath` answers exactly when a route exists.
- **Each probe is stated exactly.** `WouldBlockAllPaths` answers "no (spawn, exit) pair survives". `CheckAllPathsValid` answers "every pair survives". The model proves how the two relate.
- **Blocking round-trips.** Temporary blocking in the preview, and an obstacle's block/unblock cycle, restore the graph.
- **Route choices are first minima.** Followers, spawners and towers choose their targets by "first strict minimum" or "first strict maximum" scans. The model states each choice against that reference definition.
- **Small invariants.** Lives stay within `[0, max]` as long as no heal overflows an `int` (one that does makes them negative), the balance stays non-negative under non-negative spends, the time-speed index stays in range, and pools are FIFO.

## Model

| member | source | states |
|---|---|---|
| Coords.Rect | Assets/TowerDefenseTK/Scripts/Pathfinding/GridManager.cs:32-41 | the cell set of a width × height grid is exactly the coordinates with 0 ≤ x < width and 0 ≤ y < height |
| Coords.XMajor | Assets/TowerDefenseTK/Scripts/Pathfinding/GridGenerator.cs:30-50 | the nested x-then-y generation order visits every cell of the rectangle exactly once (width·height entries, no repeats) |
| Coords.Around | Assets/TowerDefenseTK/Scripts/Pathfinding/PathNodeGenerator.cs:84-87 | the four probed neighbours are distinct and are exactly the 4-adjacent coordinates |
| Coords.AdjacentSymmetric | Assets/TowerDefenseTK/Scripts/Pathfinding/PathNodeGenerator.cs:84-87 | 4-adjacency is symmetric and irreflexive |
| PathGraph.SetWalkable | Assets/TowerDefenseTK/Scripts/Pathfinding/PathNode.cs:7 | writing one node's walkable flag changes that flag only; keys, links and every other node stay as they were |
| PathGraph.MakeWalkable | Assets/TowerDefenseTK/Scripts/Pathfinding/PathObstacle.cs:87-96 | after re-opening a list of nodes, a node is walkable iff it was walkable before or is in the list; links are untouched |
| PathGraph.RouteStaysInClosedSet | Assets/TowerDefenseTK/Scripts/Pathfinding/Astar.cs:228-260 | a node set closed under walkable neighbour steps contains the end of every route that starts in it (the basis of A\*'s completeness) |
| PathGraph.LinkedSurvivesWalkability | Assets/TowerDefenseTK/Scripts/Pathfinding/PathNode.cs:7-8 | a neighbour-linked node sequence stays linked when only walkable flags change |
| Grid.GridToWorld | Assets/TowerDefenseTK/Scripts/Pathfinding/GridManager.cs:44-47 | a cell's world corner lies on the ground plane at (x·cellSize, 0, y·cellSize) |
| Grid.WorldToGrid | Assets/TowerDefenseTK/Scripts/Pathfinding/GridManager.cs:51-56 | the resulting cell index brackets the scaled position: x ≤ wx/cellSize < x+1, likewise for z |
| Grid.WorldToGridInvertsGridToWorld | Assets/TowerDefenseTK/Scripts/Pathfinding/GridManager.cs:44-56 | mapping a cell to its world corner and back gives the same cell |
| Grid.WorldToGridOfCellCentre | Assets/TowerDefenseTK/Scripts/Pathfinding/TowerPlacementController.cs:113 | the centre of a cell (corner + half a cell) maps back to that cell |
| Grid.GenerateGrid | Assets/TowerDefenseTK/Scripts/Pathfinding/GridManager.cs:30-42 | exactly one cell per in-bounds coordinate, stored under its own coords, unoccupied, at its world corner |
| Grid.TryGetNode | Assets/TowerDefenseTK/Scripts/Pathfinding/GridManager.cs:49 | succeeds iff the coordinate is a key and then yields that key's cell; out-of-range input just fails |
| Grid.SetCellOccupied | Assets/TowerDefenseTK/Scripts/Pathfinding/GridManager.cs:60-64 | only the targeted in-grid cell changes; an outside coordinate is a no-op |
| Grid.OccupiedReadsBackWrite | Assets/TowerDefenseTK/Scripts/Pathfinding/GridManager.cs:58-64 | occupancy reads back the written value inside the grid, is false outside, and other cells keep theirs |
| Grid.GeneratedGridIsEmpty | Assets/TowerDefenseTK/Scripts/Pathfinding/GridNode.cs:13 | no cell of a freshly generated grid is occupied |
| NodeGeneration.Keep | Assets/TowerDefenseTK/Scripts/Pathfinding/PathNodeGenerator.cs:91-97 | TryAddNeighbor keeps exactly the candidates that exist, in probe order, without introducing duplicates |
| NodeGeneration.Missing | Assets/TowerDefenseTK/Scripts/Pathfinding/PathNodeGenerator.cs:42-65 | the nodes appended to the all-nodes list are exactly the cells that had no node yet |
| NodeGeneration.GenerateFrom | Assets/TowerDefenseTK/Scripts/Pathfinding/PathNodeGenerator.cs:37-66 | every visited cell ends up with a walkable node; an existing node is reset to walkable (links kept) rather than duplicated; new nodes are fresh; other nodes untouched |
| NodeGeneration.GenerateNodes | Assets/TowerDefenseTK/Scripts/Pathfinding/PathNodeGenerator.cs:28-67 | without a GridManager nothing changes; otherwise one walkable node per cell and the all-nodes list grows by the number of cells that had no node |
| NodeGeneration.LinkNeighbors | Assets/TowerDefenseTK/Scripts/Pathfinding/PathNodeGenerator.cs:75-89 | each node's neighbours are exactly the existing nodes among W, E, S, N, in that order; walkability unchanged |
| NodeGeneration.LinkedGraphShape | Assets/TowerDefenseTK/Scripts/Pathfinding/PathNodeGenerator.cs:75-97 | after linking, links point to existing nodes, relate exactly the adjacent pairs, hold no duplicates, at most 4 entries and no self-link |
| NodeGeneration.LinksAreSymmetric | Assets/TowerDefenseTK/Scripts/Pathfinding/PathNodeGenerator.cs:84-87 | if d is a neighbour of c then c is a neighbour of d |
| NodeGeneration.LinkIdempotent | Assets/TowerDefenseTK/Scripts/Pathfinding/PathNodeGenerator.cs:82 | linking twice gives the same neighbour lists as linking once (lists are cleared first) |
| NodeGeneration.BuildArena | Assets/TowerDefenseTK/Scripts/Pathfinding/PathNodeGenerator.cs:28-89 | generating then linking from an empty arena yields one node per cell, all walkable, well-formed, adjacent links only, all-nodes list in generation order |
| NodeGeneration.GetNodeAt | Assets/TowerDefenseTK/Scripts/Pathfinding/PathNodeGenerator.cs:18 | the node look-up by cell succeeds iff a generator exists and has a node at that cell, and returns that node |
| ArrayGrid.GenerateGrid | Assets/TowerDefenseTK/Scripts/Pathfinding/GridGenerator.cs:24-51 | a negative dimension throws (array allocation); otherwise slot [x,y] holds a fresh walkable node for exactly the in-bounds cells, and allNodes lists each once, in the nested x-then-y loop order |
| ArrayGrid.LinkNeighbors | Assets/TowerDefenseTK/Scripts/Pathfinding/GridGenerator.cs:53-69 | every link points to an in-bounds 4-adjacent cell; keys and walkability unchanged |
| ArrayGrid.SameLinksAsDictionaryGenerator | Assets/TowerDefenseTK/Scripts/Pathfinding/GridGenerator.cs:63-66 | on a full rectangle the bounds-checked W, E, S, N linking equals the dictionary generator's linking |
| ArrayGrid.NeighbourCount | Assets/TowerDefenseTK/Scripts/Pathfinding/GridGenerator.cs:63-66 | with width, height ≥ 2: interior nodes have 4 neighbours, edge nodes 3, corners 2 |
| ArrayGrid.LinkedArrayIsSymmetric | Assets/TowerDefenseTK/Scripts/Pathfinding/GridGenerator.cs:53-69 | the linked array graph is well-formed and its neighbour relation is symmetric |
| ArrayGrid.GetNodeAt | Assets/TowerDefenseTK/Scripts/Pathfinding/GridGenerator.cs:71-77 | null outside [0,width)×[0,height), otherwise the node at (x, y) |
| SpawnPoints.GetNodeBelow | Assets/TowerDefenseTK/Scripts/Pathfinding/NodeGetter.cs:45-62 | a ray hit decides; without one, the first overlap that carries a node is chosen, and none iff no overlap carries one |
| SpawnPoints.FirstNode | Assets/TowerDefenseTK/Scripts/Pathfinding/NodeGetter.cs:53-59 | the first hit that carries a PathNode, and none iff no hit carries one |
| SpawnPoints.Init | Assets/TowerDefenseTK/Scripts/Pathfinding/NodeGetter.cs:27-43 | no node below leaves the registry unchanged; otherwise the key exists afterwards and the node is appended at the end of its type's list; other types untouched |
| SpawnPoints.InitKeepsDuplicates | Assets/TowerDefenseTK/Scripts/Pathfinding/NodeGetter.cs:41 | registering the same node twice stores it twice (no de-duplication) |
| AStar.Heuristic | Assets/TowerDefenseTK/Scripts/Pathfinding/Astar.cs:263-274 | never below step cost × Manhattan distance, equal to it iff |dx| = |dy|, zero iff the nodes coincide |
| AStar.HeuristicOverestimatesOneStep | Assets/TowerDefenseTK/Scripts/Pathfinding/Astar.cs:263-281 | the tie-breaker makes the heuristic exceed the true one-step cost, so it is not admissible |
| AStar.BestIndex | Assets/TowerDefenseTK/Scripts/Pathfinding/Astar.cs:231 | the chosen open node is the first one with the lexicographically least (f, h) (stable ordering) |
| AStar.ReconstructIsPath | Assets/TowerDefenseTK/Scripts/Pathfinding/Astar.cs:283-297 | following parent links back from any reached node yields a linked walkable route from start to that node |
| AStar.Relax | Assets/TowerDefenseTK/Scripts/Pathfinding/Astar.cs:241-256 | relaxing the neighbours keeps the search invariant, never forgets a reached node, and reaches every walkable neighbour |
| AStar.Loop | Assets/TowerDefenseTK/Scripts/Pathfinding/Astar.cs:228-260 | the main loop terminates (each round closes one node for good); a result is a route start→goal and no result means goal unreachable |
| AStar.NoRouteWhenExhausted | Assets/TowerDefenseTK/Scripts/Pathfinding/Astar.cs:260 | once the open list is empty the goal is unreachable |
| AStar.FindPath | Assets/TowerDefenseTK/Scripts/Pathfinding/Astar.cs:209-261 | null for missing or unwalkable ends; otherwise returns a route iff one exists, and every route returned begins at start, ends at goal, is all-walkable and neighbour-linked |
| PathCache.CacheInvSurvivesWalkability | Assets/TowerDefenseTK/Scripts/Pathfinding/Astar.cs:194-204 | cached entries stay linked routes between their key's ends under any walkability change, which is why only walkability needs revalidating |
| PathCache.IsPathValid | Assets/TowerDefenseTK/Scripts/Pathfinding/Astar.cs:194-204 | a cached route is valid iff non-empty and every node is live and walkable |
| PathCache.ValidCachedRouteIsPath | Assets/TowerDefenseTK/Scripts/Pathfinding/Astar.cs:131-138 | a cache hit that passes validation is a genuine route between its key's ends |
| PathCache.GetPath | Assets/TowerDefenseTK/Scripts/Pathfinding/Astar.cs:123-151 | a cached route that is still valid is returned as it is, with the cache unchanged; on a miss or a stale hit the answer is the A\* search result; it answers iff a route exists, and every answer is a route; a miss is not stored; a stale hit is overwritten only by a fresh route and kept otherwise; no other key changes |
| PathCache.GetPathWithoutCacheIsSearch | Assets/TowerDefenseTK/Scripts/Pathfinding/Astar.cs:123-151 | with an empty cache, GetPath answers exactly as FindPath does and stores nothing |
| PathCache.GetPathIsStable | Assets/TowerDefenseTK/Scripts/Pathfinding/Astar.cs:129-138 | asking again after a successful cached answer returns the same route and leaves the cache as it is |
| PathCache.AnyPairConnected | Assets/TowerDefenseTK/Scripts/Pathfinding/Astar.cs:165-188 | the double loop finds some live (spawn, exit) pair with a route iff one exists |
| PathCache.AnyEndReachable | Assets/TowerDefenseTK/Scripts/Pathfinding/Astar.cs:170-181 | the inner loop succeeds iff some listed exit is reachable from the spawn |
| PathCache.WouldBlockAllPaths | Assets/TowerDefenseTK/Scripts/Pathfinding/Astar.cs:156-189 | false for an unknown cell or missing generator; throws iff Start or End was never registered (leaving the node blocked); otherwise true iff no spawn→exit pair survives the block, and the graph is restored |
| PathCache.StoreRoutes | Assets/TowerDefenseTK/Scripts/Pathfinding/Astar.cs:320-338 | adds key (s, e) exactly for listed pairs with a route, holding FindPath's route; other keys untouched |
| PathCache.StoreRoutesFrom | Assets/TowerDefenseTK/Scripts/Pathfinding/Astar.cs:322-337 | the inner loop for one spawn stores exactly its reachable exits |
| PathCache.StoredRoutesAreRoutes | Assets/TowerDefenseTK/Scripts/Pathfinding/Astar.cs:326-330 | a cache built from scratch satisfies the cache invariant |
| PathCache.PrecomputeAllPaths | Assets/TowerDefenseTK/Scripts/Pathfinding/Astar.cs:70-118 | without both Start and End keys nothing is cached; otherwise exactly the reachable registered pairs are cached with genuine routes, and spawners are notified iff present |
| PathCache.RecalculateAndCacheAllPaths | Assets/TowerDefenseTK/Scripts/Pathfinding/Astar.cs:310-364 | the cache is cleared first; the call throws iff the Start list is unregistered, or the End list is unregistered while a start exists, and the cache is then left empty; otherwise the cache holds key (s, e) iff FindPath(s, e) succeeds, with that route, and every active follower is notified exactly once |
| PathCache.RegisterFollower | Assets/TowerDefenseTK/Scripts/Pathfinding/Astar.cs:54-57 | the follower is in the set afterwards and membership of everyone else is unchanged |
| PathCache.UnregisterFollower | Assets/TowerDefenseTK/Scripts/Pathfinding/Astar.cs:62-65 | the follower is absent afterwards and membership of everyone else is unchanged |
| PathCache.RegisterThenUnregister | Assets/TowerDefenseTK/Scripts/Pathfinding/Astar.cs:54-65 | unregistering a newly registered follower restores the set |
| Placement.AllEndsReachable | Assets/TowerDefenseTK/Scripts/Pathfinding/TowerPlacementController.cs:223-234 | the inner loop passes iff every live exit is reachable from the spawn |
| Placement.AllPairsConnected | Assets/TowerDefenseTK/Scripts/Pathfinding/TowerPlacementController.cs:221-237 | the double loop passes iff every live (start, end) pair is connected |
| Placement.CheckAllPathsValid | Assets/TowerDefenseTK/Scripts/Pathfinding/TowerPlacementController.cs:199-238 | true without Astar or with no start or no end nodes; otherwise true iff EVERY live pair still has a route |
| Placement.ClearTemporaryBlocks | Assets/TowerDefenseTK/Scripts/Pathfinding/TowerPlacementController.cs:240-250 | every recorded node becomes walkable, others keep their flag, and links are untouched |
| Placement.BlockFound | Assets/TowerDefenseTK/Scripts/Pathfinding/TowerPlacementController.cs:177-185 | only walkable found nodes are blocked and recorded, each once; everything else is unchanged |
| Placement.ClearUndoesBlock | Assets/TowerDefenseTK/Scripts/Pathfinding/TowerPlacementController.cs:177-196 | blocking the found nodes and then clearing the record restores the graph exactly |
| Placement.ValidatePathsAtPosition | Assets/TowerDefenseTK/Scripts/Pathfinding/TowerPlacementController.cs:165-197 | afterwards the record is empty and the graph equals the pre-cleared one; valid when nothing, or nothing walkable, is found; otherwise valid iff all paths survive the temporary block |
| Placement.PreviewImpliesProbeAccepts | Assets/TowerDefenseTK/Scripts/Pathfinding/Astar.cs:156-189 | when the preview's every-pair check passes on the blocked cell and some live pair exists, the any-pair probe reports "does not block" |
| Placement.HandlePreview | Assets/TowerDefenseTK/Scripts/Pathfinding/TowerPlacementController.cs:91-157 | paths are checked iff the cell exists, the tile is Empty or Buildable, the cell is free, no enemy is there and the tower is affordable; the placement is valid iff that check passes |
| Placement.PreviewRejectsHybrid | Assets/TowerDefenseTK/Scripts/Pathfinding/TowerPlacementController.cs:116-128 | a Hybrid tile is refused by the preview |
| Placement.HandlePlacement | Assets/TowerDefenseTK/Scripts/Pathfinding/TowerPlacementController.cs:260-305 | any failed check leaves controller and world unchanged; success spends the cost once, marks only the target cell occupied and exits placement mode; no node ever becomes unwalkable |
| Placement.CancelPlacement | Assets/TowerDefenseTK/Scripts/Pathfinding/TowerPlacementController.cs:59-68 | cancelling leaves placement mode and releases every temporary block |
| Obstacles.NewObstacle | Assets/TowerDefenseTK/Scripts/Pathfinding/PathObstacle.cs:16-17 | a new obstacle blocks nothing and is consistent (not blocking, nothing recorded) |
| Obstacles.BlockEach | Assets/TowerDefenseTK/Scripts/Pathfinding/PathObstacle.cs:44-53 | every live found node not yet recorded becomes unwalkable and is recorded once, appended after the existing record; an already recorded node keeps its flag |
| Obstacles.BlockPath | Assets/TowerDefenseTK/Scripts/Pathfinding/PathObstacle.cs:31-72 | no-op while blocking; otherwise the found nodes not yet recorded close (all found nodes, for a consistent obstacle), blocking starts iff the record is non-empty, and a recalculation is triggered iff blocking started and Astar exists, with no connectivity check; consistency is kept |
| Obstacles.UnblockPath | Assets/TowerDefenseTK/Scripts/Pathfinding/PathObstacle.cs:77-104 | no-op while not blocking; otherwise every recorded node is set walkable (not restored), the record is emptied and a recalculation follows iff Astar exists; consistency is kept |
| Obstacles.OnDestroy | Assets/TowerDefenseTK/Scripts/Pathfinding/PathObstacle.cs:106-112 | a blocking obstacle unblocks: it ends with an empty record and not blocking, exactly its recorded nodes reopen, and a recalculation follows iff Astar exists; a non-blocking one goes without effect |
| Obstacles.BlockThenDestroyRestores | Assets/TowerDefenseTK/Scripts/Pathfinding/PathObstacle.cs:31-112 | creating, blocking and destroying an obstacle whose nodes were all walkable restores the graph exactly |
| Obstacles.BlockThenUnblockRestores | Assets/TowerDefenseTK/Scripts/Pathfinding/PathObstacle.cs:31-104 | blocking nodes that were all walkable and then unblocking restores the graph exactly |
| Obstacles.BlockPathIsIdempotent | Assets/TowerDefenseTK/Scripts/Pathfinding/PathObstacle.cs:33-37 | a second BlockPath on a blocking obstacle changes nothing and triggers no recalculation |
| Obstacles.BlockingAnExitCutsItOff | Assets/TowerDefenseTK/Scripts/Pathfinding/PathObstacle.cs:44-66 | blocking an exit node succeeds even though it makes that exit unreachable from everywhere |
| Obstacles.OverlapIsLostOnUnblock | Assets/TowerDefenseTK/Scripts/Pathfinding/PathObstacle.cs:87-96 | unblocking one of two obstacles that share a node reopens it although the other still blocks it |
| Selection.FirstMinIsUnique | Assets/TowerDefenseTK/Scripts/Unit/Components/MovementComponent.cs:88-106 | the first strict-minimum position of a score list is unique |
| Selection.ArgMaxAbove | Assets/TowerDefenseTK/Scripts/Managers/EnemyManager.cs:68-82 | the strict-greater scan from a floor finds nothing iff no score exceeds the floor, and otherwise the first position of the greatest score |
| Selection.FirstMaxAboveIsUnique | Assets/TowerDefenseTK/Scripts/Managers/EnemyManager.cs:68-82 | the first strict-maximum position above a floor is unique |
| Selection.ArgMin | Assets/TowerDefenseTK/Scripts/Unit/EnemySpawner.cs:112-135 | the strict-less scan finds nothing iff no score exists, and otherwise the first position of the least score |
| Followers.NewFollower | Assets/TowerDefenseTK/Scripts/Pathfinding/UnitPathFollower.cs:18-20 | a new follower has no path and is idle |
| Followers.SetPath | Assets/TowerDefenseTK/Scripts/Pathfinding/UnitPathFollower.cs:35-51 | a null or empty path changes nothing; otherwise the path is installed at index 0 and following restarts |
| Followers.StopMovement | Assets/TowerDefenseTK/Scripts/Pathfinding/UnitPathFollower.cs:235-242 | only the following flag drops; path and index are kept |
| Followers.WalkableDistances | Assets/TowerDefenseTK/Scripts/Pathfinding/UnitPathFollower.cs:146-160 | a candidate gets a score iff it is a live walkable node, and the score is its distance |
| Followers.ScanNearest | Assets/TowerDefenseTK/Scripts/Pathfinding/UnitPathFollower.cs:146-182 | the scan returns a walkable node, none iff no candidate is walkable, and the first nearest walkable candidate |
| Followers.GetNearestWalkableNode | Assets/TowerDefenseTK/Scripts/Pathfinding/UnitPathFollower.cs:129-185 | only walkable nodes are returned; the direct look-up wins, then the layer scan, then the full scan; none iff all three fail |
| Followers.RouteLengths | Assets/TowerDefenseTK/Scripts/Pathfinding/UnitPathFollower.cs:94-104 | an exit has a length iff it is live and reachable, and the length is FindPath's node count |
| Followers.TryRejoin | Assets/TowerDefenseTK/Scripts/Pathfinding/UnitPathFollower.cs:80-123 | succeeds iff Astar and the End key exist, a nearest walkable node exists and some exit is reachable from it; failure changes nothing; success installs at index 0 the route to the first exit with the fewest nodes |
| Followers.FollowStep | Assets/TowerDefenseTK/Scripts/Pathfinding/UnitPathFollower.cs:196-230 | finishes iff the index reached the end; advances by exactly one iff the target is live and walkable; otherwise stops and tries to rejoin; index stays ≤ path length |
| Followers.Walk | Assets/TowerDefenseTK/Scripts/Pathfinding/UnitPathFollower.cs:187-233 | after n successful steps the index moved by n, stays within the path, and every node passed was walkable when it was reached; the walk stops only when the graphs run out, the route ends, or the next node is missing or unwalkable in its step's graph |
| Followers.GetPathProgress | Assets/TowerDefenseTK/Scripts/Pathfinding/UnitPathFollower.cs:244-248 | 0 without a path; within [0, 1]; equal to 1 iff the cursor is at the end |
| Followers.AdvancingRaisesProgress | Assets/TowerDefenseTK/Scripts/Pathfinding/UnitPathFollower.cs:227 | an advancing step strictly raises progress |
| Followers.PathDistances | Assets/TowerDefenseTK/Scripts/Unit/Components/MovementComponent.cs:95-103 | each route node is scored by its distance to the unit |
| Followers.FindNearestNodeOnPath | Assets/TowerDefenseTK/Scripts/Unit/Components/MovementComponent.cs:88-106 | null iff the route is empty; otherwise the first node at minimal distance (strict <) |
| Selection.IndexOf | Assets/TowerDefenseTK/Scripts/Unit/Components/MovementComponent.cs:71 | -1 iff the element is absent; otherwise its first position (the same List.IndexOf serves DamageTable.cs:24-25) |
| Followers.NearestIndexIsItsPosition | Assets/TowerDefenseTK/Scripts/Unit/Components/MovementComponent.cs:70-74 | the first occurrence of the nearest node is the nearest position itself, so the sub-route starts there |
| Followers.OnTriggerMove | Assets/TowerDefenseTK/Scripts/Unit/Components/MovementComponent.cs:41-83 | without Astar, start or goal nothing happens; the cache-aware GetPath is consulted; no route leaves the follower alone; a route is installed from its first nearest node to the goal |
| Followers.SuffixIsPath | Assets/TowerDefenseTK/Scripts/Unit/Components/MovementComponent.cs:74 | any suffix of a route is a route from its first node to the goal |
| Followers.RequestPathUpdate | Assets/TowerDefenseTK/Scripts/Pathfinding/UnitPathFollower.cs:57-75 | rejoin is tried first; restart from spawn happens only when rejoin fails and a movement component exists; a following unit is at index 0 of a genuine route |
| Followers.NotifyAll | Assets/TowerDefenseTK/Scripts/Pathfinding/Astar.cs:350-364 | notified followers are updated in order, others untouched, and each following one sits at index 0 of a genuine route |
| Spawners.NewSpawner | Assets/TowerDefenseTK/Scripts/Unit/EnemySpawner.cs:28-33 | a new spawner is at wave 1, idle, uninitialised, with no nodes |
| Spawners.Resolve | Assets/TowerDefenseTK/Scripts/Unit/EnemySpawner.cs:171-178 | a marker's own PathNode wins; otherwise the generator's node at the marker's cell, if any |
| Spawners.PathDistance | Assets/TowerDefenseTK/Scripts/Unit/EnemySpawner.cs:159-169 | 0 for fewer than two nodes; non-negative when every step is |
| Spawners.PathDistanceAppend | Assets/TowerDefenseTK/Scripts/Unit/EnemySpawner.cs:163-166 | extending a route by one node adds exactly that last step's length |
| Spawners.EndDistances | Assets/TowerDefenseTK/Scripts/Unit/EnemySpawner.cs:115-135 | an end gets a distance iff it is live and reachable, and that distance is the length of a genuine route to it |
| Spawners.EndDistance | Assets/TowerDefenseTK/Scripts/Unit/EnemySpawner.cs:117-125 | one exit is scored iff it is live and reachable from the spawn, and its score is the length of a genuine route; the cache invariant is kept |
| Spawners.FindClosestEndNode | Assets/TowerDefenseTK/Scripts/Unit/EnemySpawner.cs:96-149 | fails without Astar or registered ends; succeeds iff some live end is reachable, and then yields the first end of least route length |
| Spawners.HasRoute | Assets/TowerDefenseTK/Scripts/Unit/EnemySpawner.cs:151-157 | true iff Astar exists and a route connects the two nodes |
| Spawners.TryAssignedEnd | Assets/TowerDefenseTK/Scripts/Unit/EnemySpawner.cs:74-89 | the assigned end is always resolved into `end`, and used as the target iff a route to it exists |
| Spawners.SetupEndNode | Assets/TowerDefenseTK/Scripts/Unit/EnemySpawner.cs:71-94 | succeeds iff the assigned end is usable or some registered exit is reachable; the assigned end wins; on success the end is reachable and becomes the target |
| Spawners.Init | Assets/TowerDefenseTK/Scripts/Unit/EnemySpawner.cs:40-69 | a no-op once initialised; stays uninitialised without a start node or an end; on success the end is reachable and one wave routine starts iff spawnOnStart |
| Spawners.TriggerSpawn | Assets/TowerDefenseTK/Scripts/Unit/EnemySpawner.cs:242-250 | starts at most one routine, and one iff not yet spawning and initialised (after a lazy Init) |
| Spawners.StopSpawning | Assets/TowerDefenseTK/Scripts/Unit/EnemySpawner.cs:252-256 | spawning stops; wave and initialisation are kept |
| Spawners.RecalculatePath | Assets/TowerDefenseTK/Scripts/Unit/EnemySpawner.cs:270-274 | uninitialised spawners are untouched; otherwise the end node is re-chosen and the start and wave kept |
| Spawners.SetEndNode | Assets/TowerDefenseTK/Scripts/Unit/EnemySpawner.cs:261-265 | the assignment is replaced; an uninitialised spawner is otherwise untouched; an initialised one re-chooses its end, and takes the new assignment as end and target when a route to it exists |
| Spawners.SpawnWave | Assets/TowerDefenseTK/Scripts/Unit/EnemySpawner.cs:200-209 | one wave spawns max(enemiesToSpawn, 0) enemies and raises the wave counter by exactly one |
| Spawners.RunWaves | Assets/TowerDefenseTK/Scripts/Unit/EnemySpawner.cs:182-198 | n waves raise the counter by n and spawn n·max(enemiesToSpawn, 0) enemies |
| Maps.FindTile | Assets/TowerDefenseTK/Scripts/Map/MapData.cs:33 | the index of the first tile at the coordinate, or none when no tile is there |
| Maps.GetTile | Assets/TowerDefenseTK/Scripts/Map/MapData.cs:31-34 | a tile of the list with those coords, none iff no tile has them |
| Maps.RemoveFirst | Assets/TowerDefenseTK/Scripts/Map/MapData.cs:59-60 | removes one occurrence; other points unchanged; a duplicate-free list loses the point entirely |
| Maps.UpdateSpecialPoints | Assets/TowerDefenseTK/Scripts/Map/MapData.cs:56-71 | other points are untouched; on duplicate-free lists the cell is a spawn point iff the type is Spawn and an exit iff Exit |
| Maps.SetTile | Assets/TowerDefenseTK/Scripts/Map/MapData.cs:39-54 | the cell reads back the new tile, other cells read the same, at most one tile per coords is kept, spawn/exit membership follows the type |
| Maps.IsWalkable | Assets/TowerDefenseTK/Scripts/Map/MapData.cs:76-87 | true for a missing tile; otherwise iff the type is neither Blocked nor Buildable |
| Maps.IsBuildable | Assets/TowerDefenseTK/Scripts/Map/MapData.cs:92-100 | true for a missing tile; otherwise iff the type is Buildable, Empty or Hybrid |
| Maps.IsHybrid | Assets/TowerDefenseTK/Scripts/Map/MapData.cs:76-109 | only an existing tile can be Hybrid; a cell is Hybrid iff it has a tile that is not Empty and is both walkable and buildable |
| Maps.HybridIsWalkableAndBuildable | Assets/TowerDefenseTK/Scripts/Map/MapData.cs:76-109 | Hybrid is both walkable and buildable, and only Empty and Hybrid tiles are both |
| Maps.ClearAll | Assets/TowerDefenseTK/Scripts/Map/MapData.cs:114-119 | no tile, spawn point or exit point remains |
| Maps.InitializeEmpty | Assets/TowerDefenseTK/Scripts/Map/MapData.cs:124-135 | exactly one Empty tile per in-bounds cell (width·height tiles), none outside, no spawn or exit points |
| Maps.Validate | Assets/TowerDefenseTK/Scripts/Map/MapData.cs:140-156 | valid iff there is a spawn and an exit; the spawn error is reported first |
| Maps.SpawnTileMakesMapValid | Assets/TowerDefenseTK/Scripts/Map/MapData.cs:39-71 | painting a Spawn tile on a map that has an exit elsewhere makes it valid |
| MapLoading.LoadMap | Assets/TowerDefenseTK/Scripts/Map/MapLoader.cs:40-97 | no change for a missing or invalid map; otherwise width, height and cellSize go to the grid and startingCurrency to the balance, while lives and cells are untouched |
| MapLoading.ApplyWalkability | Assets/TowerDefenseTK/Scripts/Map/MapLoader.cs:156-166 | a node with a tile becomes walkable iff its tile does not block paths; a node without a tile is unchanged; links untouched |
| MapLoading.AppliedWalkabilityIsMapWalkability | Assets/TowerDefenseTK/Scripts/Map/MapLoader.cs:156-166 | the applied flag equals the map's own IsWalkable for that cell |
| MapLoading.MarkBlocked | Assets/TowerDefenseTK/Scripts/Map/MapLoader.cs:169-178 | a cell ends up occupied iff it was occupied or some Blocked tile lies on it; nothing else about cells changes |
| MapLoading.ApplyTileStates | Assets/TowerDefenseTK/Scripts/Map/MapLoader.cs:151-181 | walkability follows the tiles, and exactly the Blocked tiles' cells are added to the occupied ones |
| MapLoading.OccupiedExactlyWhereBlocked | Assets/TowerDefenseTK/Scripts/Map/MapLoader.cs:169-178 | with one tile per cell, a cell is newly occupied iff its tile is Blocked |
| MapLoading.GetWorldPosition | Assets/TowerDefenseTK/Scripts/Map/MapLoader.cs:133-146 | the centre of the cell at ground level, using the grid's cell size or the map's without a grid |
| MapLoading.WorldPositionMapsBack | Assets/TowerDefenseTK/Scripts/Map/MapLoader.cs:133-146 | the world position of a cell maps back to that cell |
| MapLoading.GetTileTypeAtPosition | Assets/TowerDefenseTK/Scripts/Map/MapLoader.cs:201-209 | Empty without a grid, a map or a tile; otherwise the type of the tile under the position |
| MapLoading.IsBuildableAtPosition | Assets/TowerDefenseTK/Scripts/Map/MapLoader.cs:214-220 | true without a grid or map; otherwise the map's IsBuildable at the cell under the position |
| MapLoading.BuildableAgreesWithTileType | Assets/TowerDefenseTK/Scripts/Map/MapLoader.cs:201-220 | buildable at a position iff the tile type there is Empty, Buildable or Hybrid |
| MapEditor.ClampBrush | Assets/TowerDefenseTK/Scripts/Editor/W_GridMapEditor.cs:155 | the brush size is confined to 1..5 |
| MapEditor.Brush | Assets/TowerDefenseTK/Scripts/Editor/W_GridMapEditor.cs:332-344 | after the nested dx/dy loop every in-bounds cell of the square holds the brush type and every other cell, spawn point and exit point is as before |
| MapEditor.BrushColumn | Assets/TowerDefenseTK/Scripts/Editor/W_GridMapEditor.cs:334-343 | after the inner dy loop for one column, that column's in-bounds cells of the square hold the brush type as well, and nothing outside the covered cells has changed |
| MapEditor.PaintTile | Assets/TowerDefenseTK/Scripts/Editor/W_GridMapEditor.cs:328-348 | every in-bounds cell of the (2·size−1)² square reads back the brush type, and is a spawn point iff the brush is Spawn and an exit point iff it is Exit; all other cells keep their tile and their spawn and exit membership; the spawn and exit lists stay free of repeats |
| MapEditor.EraseTile | Assets/TowerDefenseTK/Scripts/Editor/W_GridMapEditor.cs:350-370 | every in-bounds cell of the square reads back Empty and is no longer a spawn or exit point; all other cells keep their tile and their spawn and exit membership |
| MapEditor.SquareExtent | Assets/TowerDefenseTK/Scripts/Editor/W_GridMapEditor.cs:332-336 | the brush square is the set of cells within size−1 of the centre on both axes |
| MapEditor.KeepTilesIn | Assets/TowerDefenseTK/Scripts/Editor/W_GridMapEditor.cs:219-222 | the kept tiles are in bounds and come from the original list |
| MapEditor.KeepTilesFinds | Assets/TowerDefenseTK/Scripts/Editor/W_GridMapEditor.cs:219-222 | an in-bounds look-up finds the same tile before and after removal |
| MapEditor.KeepTilesUnique | Assets/TowerDefenseTK/Scripts/Editor/W_GridMapEditor.cs:219-222 | removal keeps at most one tile per coords |
| MapEditor.KeepPointsIn | Assets/TowerDefenseTK/Scripts/Editor/W_GridMapEditor.cs:223-229 | exactly the in-bounds points survive, without new duplicates |
| MapEditor.CleanupOutOfBoundsTiles | Assets/TowerDefenseTK/Scripts/Editor/W_GridMapEditor.cs:217-230 | exactly the out-of-bounds tiles, spawn points and exit points disappear; everything in bounds reads the same |
| MapEditor.CleanupLookups | Assets/TowerDefenseTK/Scripts/Editor/W_GridMapEditor.cs:217-222 | after tile cleanup the look-up inside the bounds is unchanged and empty outside |
| MapEditor.ApplyGridSettings | Assets/TowerDefenseTK/Scripts/Editor/W_GridMapEditor.cs:176-209 | cell size is at least 0.1; a confirmed resize clamps width and height to ≥ 1 and drops out-of-bounds content; otherwise dimensions and content are unchanged |
| Currency.TrySpend | Assets/TowerDefenseTK/Scripts/Managers/CurrencyManager.cs:32-39 | succeeds iff affordable; success lowers the balance by the amount modulo 2^32, and by exactly the amount when the difference fits an `int`; failure leaves it alone |
| Currency.Add | Assets/TowerDefenseTK/Scripts/Managers/CurrencyManager.cs:41-45 | the balance grows by the amount modulo 2^32, and by exactly the amount when the sum fits an `int` |
| Currency.AddPastMaxWraps | Assets/TowerDefenseTK/Scripts/Managers/CurrencyManager.cs:43 | adding 1 to int.MaxValue leaves int.MinValue |
| Currency.SpendMinValueWraps | Assets/TowerDefenseTK/Scripts/Managers/CurrencyManager.cs:32-36 | spending int.MinValue from 0 is affordable and leaves int.MinValue |
| Currency.Set | Assets/TowerDefenseTK/Scripts/Managers/CurrencyManager.cs:47-51 | the balance becomes the amount, whatever it was |
| Currency.SpendKeepsBalanceNonNegative | Assets/TowerDefenseTK/Scripts/Managers/CurrencyManager.cs:27-45 | from a non-negative `int` balance, spending a non-negative amount lowers it by exactly the amount, never below 0, and a refund restores it |
| PlayerHealth.Initialize | Assets/TowerDefenseTK/Scripts/Managers/PlayerHealthManager.cs:47-56 | both counters take the starting lives and the manager is initialised |
| PlayerHealth.TakeDamage | Assets/TowerDefenseTK/Scripts/Managers/PlayerHealthManager.cs:61-83 | ignored when dead (checked before auto-initialising); otherwise lives = max(0, lives − amount) when the difference fits an `int`, and a difference past int.MaxValue wraps negative and kills; defeat iff lives reach 0 |
| PlayerHealth.Heal | Assets/TowerDefenseTK/Scripts/Managers/PlayerHealthManager.cs:88-100 | no-op when dead; otherwise lives = min(max, lives + amount) when the sum fits an `int`, and min(max, lives + amount − 2^32) < 0 when it overflows |
| PlayerHealth.HealPastMaxGoesNegative | Assets/TowerDefenseTK/Scripts/Managers/PlayerHealthManager.cs:88-100 | healing int.MaxValue at 1 of 5 lives leaves int.MinValue lives, outside [0, max] |
| PlayerHealth.SetHealth | Assets/TowerDefenseTK/Scripts/Managers/PlayerHealthManager.cs:105-114 | lives are clamped into [0, max]; defeat iff they end at 0 |
| PlayerHealth.SetMaxHealth | Assets/TowerDefenseTK/Scripts/Managers/PlayerHealthManager.cs:119-133 | max stays ≥ 1 and lives ≤ max; healToFull makes lives = max |
| PlayerHealth.Reset | Assets/TowerDefenseTK/Scripts/Managers/PlayerHealthManager.cs:150-156 | lives return to max |
| PlayerHealth.ValidForever | Assets/TowerDefenseTK/Scripts/Managers/PlayerHealthManager.cs:47-156 | 0 ≤ lives ≤ max ≤ int.MaxValue survives any sequence of calls with `int` arguments, non-negative amounts and no heal whose sum passes int.MaxValue |
| TimeControl.ApplyTimeScale | Assets/TowerDefenseTK/Scripts/Managers/TimeController.cs:272-278 | while unpaused the time scale equals the selected option; paused nothing changes |
| TimeControl.Start | Assets/TowerDefenseTK/Scripts/Managers/TimeController.cs:47-51 | the default index is selected; unpaused, the time scale becomes that option, and a default index outside the options throws, leaving the index assigned and the time scale unchanged; paused, nothing is read and the time scale is kept |
| TimeControl.DefaultStartIsNormalSpeed | Assets/TowerDefenseTK/Scripts/Managers/TimeController.cs:14-15 | with the shipped options 0, 1, 2, 3 and default index 1 the game starts at 1x |
| TimeControl.Pause | Assets/TowerDefenseTK/Scripts/Managers/TimeController.cs:101-108 | paused with time scale 0, index and options kept, whatever the index; coherent when the indices are in range |
| TimeControl.Resume | Assets/TowerDefenseTK/Scripts/Managers/TimeController.cs:113-120 | unpaused at the selected option, index kept |
| TimeControl.TogglePause | Assets/TowerDefenseTK/Scripts/Managers/TimeController.cs:90-96 | flips the paused flag and keeps the index |
| TimeControl.TogglePauseTwice | Assets/TowerDefenseTK/Scripts/Managers/TimeController.cs:90-120 | two toggles restore paused flag and index (and the whole clock when it was consistent) |
| TimeControl.SpeedUp | Assets/TowerDefenseTK/Scripts/Managers/TimeController.cs:125-145 | paused: only resumes; otherwise the index rises by one only while in bounds |
| TimeControl.SlowDown | Assets/TowerDefenseTK/Scripts/Managers/TimeController.cs:150-166 | no-op when paused; never moves the index below 1 |
| TimeControl.SetNormalSpeed | Assets/TowerDefenseTK/Scripts/Managers/TimeController.cs:171-180 | unpaused at the default index |
| TimeControl.SetSpeedIndex | Assets/TowerDefenseTK/Scripts/Managers/TimeController.cs:185-202 | out-of-range indices are ignored; a zero-speed option pauses |
| TimeControl.ClosestIndex | Assets/TowerDefenseTK/Scripts/Managers/TimeController.cs:210-221 | the first option closest to the requested speed |
| TimeControl.SetSpeed | Assets/TowerDefenseTK/Scripts/Managers/TimeController.cs:207-224 | selects an option at minimal distance from the requested speed; pauses iff it is zero |
| TimeControl.CycleSpeed | Assets/TowerDefenseTK/Scripts/Managers/TimeController.cs:229-251 | paused: resumes; otherwise the next index, wrapping past the end to 1, never 0; throws when wrapping with fewer than 2 options, leaving index 1 assigned and the time scale unchanged |
| Upgrades.CheckRequirementsMeansAllMet | Assets/TowerDefenseTK/Scripts/Upgrade/TowerUpgradeData.cs:63-77 | the early-exit requirement loop passes iff every requirement is met |
| Upgrades.IsUpgradeAvailable | Assets/TowerDefenseTK/Scripts/Upgrade/TowerUpgradeData.cs:56-80 | available iff gold covers the cost and every requirement is met |
| Upgrades.AvailabilityIgnoresOrder | Assets/TowerDefenseTK/Scripts/Upgrade/TowerUpgradeData.cs:56-80 | reordering the requirements does not change availability |
| Upgrades.RoundHalfEven | Assets/TowerDefenseTK/Scripts/Upgrade/TowerUpgradeData.cs:88 | the nearest integer, halves going to the even neighbour (banker's rounding) |
| Upgrades.GetSellValue | Assets/TowerDefenseTK/Scripts/Upgrade/TowerUpgradeData.cs:85-89 | 0 when selling is disallowed; otherwise the rounded percentage of the build cost |
| Upgrades.SellValueBounded | Assets/TowerDefenseTK/Scripts/Upgrade/TowerUpgradeData.cs:85-89 | for 0..100 percent and a non-negative cost the sell value lies in [0, cost] |
| Upgrades.SellAmountBounded | Assets/TowerDefenseTK/Scripts/Upgrade/TowerUpgradeData.cs:88 | before rounding, a 0..100 percentage of a non-negative cost lies between 0 and the cost |
| Upgrades.Available | Assets/TowerDefenseTK/Scripts/Unit/Components/TowerUpgradeComponent.cs:52-63 | an option is listed iff it passes the availability test, and the list is no longer than the options |
| Upgrades.AvailableKeepsOrder | Assets/TowerDefenseTK/Scripts/Unit/Components/TowerUpgradeComponent.cs:52-63 | the list is the options filtered by the availability test: each passing option once, at increasing positions of the original list, and no other |
| Upgrades.GetAvailableUpgrades | Assets/TowerDefenseTK/Scripts/Unit/Components/TowerUpgradeComponent.cs:47-64 | empty without data or options; otherwise the options available with player level 0, the tower's kills and round 0 |
| Upgrades.GetAvailableUpgradesKeepsOrder | Assets/TowerDefenseTK/Scripts/Unit/Components/TowerUpgradeComponent.cs:47-64 | with data, the offered list is the data's options filtered by the test at level 0, the tower's kills and round 0, in the data's order |
| Upgrades.PositiveLevelOrRoundExcludes | Assets/TowerDefenseTK/Scripts/Unit/Components/TowerUpgradeComponent.cs:52-63 | any positive PlayerLevel or RoundNumber requirement excludes an option |
| Upgrades.UpgradeTo | Assets/TowerDefenseTK/Scripts/Unit/Components/TowerUpgradeComponent.cs:69-123 | fails without change for a null option or target or an unaffordable cost; success spends the cost once, keeps the cell occupied and carries kills and damage over |
| Upgrades.SellTower | Assets/TowerDefenseTK/Scripts/Unit/Components/TowerUpgradeComponent.cs:128-153 | succeeds iff data exists and allows selling; success credits the sell value and frees only the tower's cell |
| Upgrades.OnEnemyKilled | Assets/TowerDefenseTK/Scripts/Unit/Components/TowerUpgradeComponent.cs:158-162 | kills rise by one and damage by the amount dealt |
| Upgrades.TrackKill | Assets/TowerDefenseTK/Scripts/Unit/Components/TowerDamageTracker.cs:26-35 | with a linked tower, kills +1 and damage + amount; without one nothing happens |
| Upgrades.TrackDamage | Assets/TowerDefenseTK/Scripts/Unit/Components/TowerDamageTracker.cs:40-46 | with a linked tower, damage + amount and kills unchanged; without one nothing happens |
| Upgrades.TrackCountsKills | Assets/TowerDefenseTK/Scripts/Unit/Components/TowerDamageTracker.cs:26-46 | over any event sequence the kill count grows by exactly the number of kill events and never decreases |
| DamageTable.GetMultiplier | Assets/TowerDefenseTK/Scripts/Unit/DamageTable/DamageTable.cs:22-29 | 1 when either type is unknown; otherwise the entry at the first indices, and an index exception iff the table is too short |
| DamageTable.InitializeTable | Assets/TowerDefenseTK/Scripts/Unit/DamageTable/DamageTable.cs:31-44 | one row per type in order, each with one multiplier 1 per type |
| DamageTable.SquareTableNeverThrows | Assets/TowerDefenseTK/Scripts/Unit/DamageTable/DamageTable.cs:22-29 | a square table never makes the look-up throw |
| DamageTable.InitializedTableIsNeutral | Assets/TowerDefenseTK/Scripts/Unit/DamageTable/DamageTable.cs:22-44 | after initialisation every multiplier look-up yields 1 |
| Pools.CreatePool | Assets/TowerDefenseTK/Scripts/ObjPooling/PoolManager.cs:38-53 | the queue is created if missing and exactly max(count, 0) new objects of that name are enqueued behind the existing ones |
| Pools.FindPrefab | Assets/TowerDefenseTK/Scripts/ObjPooling/PoolManager.cs:72 | a prefab is found iff one has that name |
| Pools.Spawn | Assets/TowerDefenseTK/Scripts/ObjPooling/PoolManager.cs:55-87 | unknown pool: null, no change; non-empty: dequeues the front; empty: pools unchanged and a new object iff a prefab matches |
| Pools.Despawn | Assets/TowerDefenseTK/Scripts/ObjPooling/PoolManager.cs:89-106 | an object of a known pool is enqueued at the back; otherwise no pool changes |
| Pools.DespawnThenSpawnIsFifo | Assets/TowerDefenseTK/Scripts/ObjPooling/PoolManager.cs:55-106 | after returning an object, spawning yields the old front, or that object when the pool was empty |
| Pools.CreateThenSpawnGivesFirst | Assets/TowerDefenseTK/Scripts/ObjPooling/PoolManager.cs:38-68 | the first object spawned from a fresh pool is the first one created |
| Enemies.RegisterEnemy | Assets/TowerDefenseTK/Scripts/Managers/EnemyManager.cs:23-27 | an enemy already registered (same id, whatever its current state) leaves the registry unchanged; a new one is appended at the end; the registry stays free of repeated enemies |
| Enemies.UnregisterEnemy | Assets/TowerDefenseTK/Scripts/Managers/EnemyManager.cs:29-32 | removes the first entry with the enemy's id, the others keeping their order; none when it is absent; every other enemy stays and nothing is added; in a registry without repeats the enemy is gone afterwards |
| Enemies.UnregisterChangedEnemy | Assets/TowerDefenseTK/Scripts/Managers/EnemyManager.cs:29-32 | an enemy that moved or took damage since registering is still removed, because identity is the reference, not the enemy's state |
| Enemies.RegisterThenUnregister | Assets/TowerDefenseTK/Scripts/Managers/EnemyManager.cs:23-32 | registering a new enemy and unregistering it restores the registry |
| Enemies.InRange | Assets/TowerDefenseTK/Scripts/Managers/EnemyManager.cs:52-66 | exactly the active enemies of the targeted group within range; a targetable first entry is the first candidate |
| Enemies.InRangeKeepsOrder | Assets/TowerDefenseTK/Scripts/Managers/EnemyManager.cs:52-66 | the candidate list is the registry filtered by the activity, group and range test: each passing entry once, at increasing registry positions, and no other |
| Enemies.ScanMax | Assets/TowerDefenseTK/Scripts/Managers/EnemyManager.cs:68-82 | none iff no score beats the floor, otherwise the first strict maximum above it |
| Enemies.ScanMin | Assets/TowerDefenseTK/Scripts/Managers/EnemyManager.cs:84-98 | none iff there is no score, otherwise the first strict minimum |
| Enemies.GetFirst | Assets/TowerDefenseTK/Scripts/Managers/EnemyManager.cs:68-82 | null iff no candidate's progress exceeds −1; otherwise the candidate the reference scan ArgMaxAbove picks, the first of greatest progress |
| Enemies.GetLast | Assets/TowerDefenseTK/Scripts/Managers/EnemyManager.cs:84-98 | the first enemy of least progress, the one the reference scan ArgMin picks |
| Enemies.GetClosest | Assets/TowerDefenseTK/Scripts/Managers/EnemyManager.cs:100-114 | the first enemy of least squared distance, the one ArgMin picks |
| Enemies.GetStrongest | Assets/TowerDefenseTK/Scripts/Managers/EnemyManager.cs:116-130 | null iff no candidate has health above −1; otherwise the candidate ArgMaxAbove picks, the first of greatest health |
| Enemies.GetWeakest | Assets/TowerDefenseTK/Scripts/Managers/EnemyManager.cs:132-146 | falls back to the first candidate when none has health; otherwise the first of least health, the one ArgMin picks |
| Enemies.GetTarget | Assets/TowerDefenseTK/Scripts/Managers/EnemyManager.cs:34-50 | null without candidates; any target is a candidate; otherwise, per target type, exactly the candidate the reference scans pick from the in-range list: First: ArgMaxAbove of progress over −1; Last: ArgMin of progress; Closest: ArgMin of squared distance; Strongest: ArgMaxAbove of health over −1; Weakest: ArgMin of health, or the first candidate when none has health |
| Enemies.SquaredDistanceOrdersLikeDistance | Assets/TowerDefenseTK/Scripts/Managers/EnemyManager.cs:100-114 | comparing squared distances orders enemies exactly as comparing distances |

## Code and design notes

Where the code and its design disagree, the model follows the code:

- **Two block probes.** `WouldBlockAllPaths` accepts a block as soon as ANY spawn→exit pair survives, while the placement preview requires EVERY pair to survive (`PathCache.WouldBlockAllPaths`, `Placement.CheckAllPathsValid`, related by `Placement.PreviewImpliesProbeAccepts`).
- **Placement leaves walkability alone.** A placed tower only marks its `GridManager` cell occupied and never changes `PathNode.isWalkable`. Enemies therefore walk through towers (`Placement.HandlePlacement`).
- **The preview refuses Hybrid tiles,** although `MapData.IsBuildable` accepts them (`Placement.PreviewRejectsHybrid`, `MapLoading.BuildableAgreesWithTileType`).
- **Obstacles block without a connectivity check** (`Obstacles.BlockingAnExitCutsItOff`).
- **Unblocking does not restore prior flags.** It sets every recorded node walkable, so a node shared by two obstacles reopens when either one is removed (`Obstacles.OverlapIsLostOnUnblock`).
- **Registry access can throw.** `RecalculateAndCacheAllPaths` and `WouldBlockAllPaths` index `nodeValue[Start]` and `nodeValue[End]` without a key check. The model returns a `Failure` exactly then. `RecalculateAndCacheAllPaths` has already cleared the cache, and the throw comes before any route is stored, so the cache is left empty. In `WouldBlockAllPaths` the node stays blocked, because the restore is skipped.
- **Missing node look-up.** `PathNodeGenerator.GetNodeAt` / `GetNodeAtWorldPosition` are called but their bodies are not part of this model. They are modelled as the partial look-up into the generator's node dictionary (`NodeGeneration.GetNodeAt`).
- **Rejoin bypasses the cache.** Rejoin and `FollowPath` query `FindPath` directly. Only the restart path (`OnTriggerMove`) goes through the cache.
- **SetupEndNode overwrites `endNode`.** It stores the assigned end's node in `endNode` even when no route to it exists. Only the target stays unchanged, until the fallback overwrites both (`Spawners.TryAssignedEnd`).
- **Lives are not set by the loader.** `LoadMap` sets the currency but not the lives, because that call is commented out (`MapLoading.LoadMap`).
- **Uninitialised damage.** `TakeDamage` on an uninitialised manager first refills lives to max, but only if the manager counts as alive (`PlayerHealth.TakeDamage`).
- **CycleSpeed can throw.** It wraps to index 1, which does not exist when there is only one option; the model returns a `Failure` then, carrying the clock with index 1 assigned, as the throw leaves it (`TimeControl.CycleSpeed`).
- **A\* optimality is not proved.** Its tie-breaking heuristic is not admissible (`AStar.HeuristicOverestimatesOneStep`), so the usual argument for shortest results does not apply, and none is claimed.

## Left out

- **Rendering.** Gizmos, line renderers, preview colours, debug logs, UI and C# events.
- **Real-time behaviour.** Float kinematics (`MoveTowards`, `Time.deltaTime`), coroutine timing (`waveCooldown`, `spawnInterval`, frame waits) and the pool instantiation inside `SpawnEnemy`. These are engine effects; the model keeps only the index and state logic and the count of enemies per wave.
- **Float arithmetic.** World positions and distances are exact reals, or abstract functions of a coordinate. The float A\* costs are replaced by scaled integers, and the `float.MaxValue` sentinels by option scores.
- **A\* optimality.** Optimality is not proved: the heuristic is not admissible (see above), so the standard proof does not apply. Only soundness, completeness and termination are proved.
- **`Astar.ClearCache` and the enemy's `nodesPassed` / `totalPathNodes` updates inside `FollowPath`.** These are plain field assignments with no rule to state.
- **Physics queries.** `Physics.OverlapSphere` / `Raycast` are inputs: the ordered hits they would return.
- **Rejoin's distance helpers.** `UnitPathFollower`'s Vector3 distance helpers are an input function.
- **Editor code.** Undo and asset-saving in the map editor.
- **Missing singletons.** Some calls dereference a singleton without a null check: `Astar.Instance.allNodes.Add` in `PathNodeGenerator` (PathNodeGenerator.cs:65) and `GridGenerator` (GridGenerator.cs:48), and `CurrencyManager.Instance` in `TowerPlacementController` (TowerPlacementController.cs:147, 270, 298). The model assumes those instances exist and does not model the `NullReferenceException`.
- Grid.WorldToGrid: requires a non-zero cell size, because the source divides by it and the float result of a zero division is not modelled.
- MapLoading.GetTileTypeAtPosition: requires a non-zero cell size when a grid exists, for the same reason.
- MapLoading.IsBuildableAtPosition: requires a non-zero cell size when a grid exists, for the same reason.
- Spawners.SetupEndNode: requires a start node. Its callers are `Init`, which has already returned without one, and `SetEndNode` and `RecalculatePath`, which call it only on an initialised spawner, and initialised spawners have a start node.
- Spawners.TryAssignedEnd: requires a start node, for the same reason.
- Spawners.RecalculatePath: requires the spawner invariant (initialised spawners have a start node), which every reachable spawner state satisfies.
- Spawners.SetEndNode: requires the same spawner invariant, for the same reason.
- PlayerHealth.TakeDamage: its monotonicity ("lives never rise") is stated only for an initialised manager, since the uninitialised path refills first.
- Enemies.GetLast: requires a non-empty candidate list, as `GetTarget` calls it only after its own emptiness check.
- Enemies.GetClosest: requires a non-empty candidate list, for the same reason.
- Enemies.GetWeakest: requires a non-empty candidate list, for the same reason.
- AStar.Heuristic: scaled integer version of the float heuristic (factor 1000); float rounding is not modelled.
- Upgrades.RoundHalfEven: exact-real banker's rounding in place of float `Mathf.RoundToInt`.
- Upgrades.GetSellValue: the refund is computed exactly, where the source multiplies in single-precision floats before rounding (TowerUpgradeData.cs:88). The two can differ by one: for a cost of 50 at 59% the float product is 29.499998 and rounds to 29, while the exact 29.5 rounds to 30.
- PlayerHealth.ValidForever: excludes heals whose sum with the current lives passes int.MaxValue, because there the program's lives wrap negative (`PlayerHealth.HealPastMaxGoesNegative`).
- TimeControl.TogglePause: requires indices in range, because its resume branch reads the selected option; an unpaused controller with an out-of-range index could still pause in the source.
- **Other `int` counters.** Kill counts, total damage, wave numbers and spawn counts are unbounded integers; their wrap-around after 2^31 events is not modelled.

=== FILE: astar_cache.dfy ===
/** The path cache and the whole-map operations of Astar.cs: cached look-up
    with revalidation, the speculative "would this block every route" probe,
    precomputation and recomputation of every spawn-to-exit route, and the
    follower registry that is told to re-path after a recomputation.

    A cached route is keyed by its (start, goal) nodes. The invariant kept for
    every entry is that it is a neighbour-linked walk between its key's ends;
    walkability may have changed since it was stored, which is why GetPath
    revalidates before handing a cached route out. */
module PathCache {
  import opened Wrappers
  import opened Coords
  import opened PathGraph
  import opened SpawnPoints
  import AStar

  /** generatedPathCache: (start, goal) to route. */
  type Cache = map<(Coord, Coord), seq<Coord>>

  /** A UnitPathFollower, identified by an opaque number. */
  type FollowerId = nat

  /** The exception `nodeValue[key]` throws when the key is absent. */
  datatype Thrown = KeyNotFound

  /** Every cached route still follows neighbour links from its start to its goal. */
  ghost predicate CacheInv(g: Graph, cache: Cache) {
    forall k | k in cache :: Linked(g, cache[k], k.0, k.1)
  }

  /** Blocking or unblocking nodes never breaks the cache invariant, since it
      speaks only of links and links never change. */
  lemma CacheInvSurvivesWalkability(g: Graph, h: Graph, cache: Cache)
    requires SameTopology(g, h)
    requires CacheInv(g, cache)
    ensures CacheInv(h, cache)
  {
    forall k | k in cache ensures Linked(h, cache[k], k.0, k.1) {
      LinkedSurvivesWalkability(g, h, cache[k], k.0, k.1);
    }
  }

  /** IsPathValid: a route is usable when it is non-empty and each of its
      nodes is live and walkable. */
  function IsPathValid(g: Graph, path: seq<Coord>): (r: bool)
    ensures r <==> |path| > 0 && AllWalkable(g, path)
  {
    |path| > 0 && AllLiveAndWalkable(g, path)
  }

  /** The `foreach` of IsPathValid, stopping at the first dead or blocked node. */
  function AllLiveAndWalkable(g: Graph, path: seq<Coord>): (r: bool)
    ensures r <==> AllWalkable(g, path)
  {
    if path == [] then true
    else if path[0] !in g || !g[path[0]].walkable then false
    else
      var rest := AllLiveAndWalkable(g, path[1..]);
      assert forall i | 0 < i < |path| :: path[i] == path[1..][i - 1];
      rest
  }

  /** A cached route that passes revalidation is a real route between its key's ends. */
  lemma ValidCachedRouteIsPath(g: Graph, cache: Cache, k: (Coord, Coord))
    requires CacheInv(g, cache)
    requires k in cache && IsPathValid(g, cache[k])
    ensures IsPath(g, cache[k], k.0, k.1)
  {
  }

  /** GetPath: null ends give null; a cached route that is still valid is
      returned (as a copy); a stale one is recomputed and replaced only when
      the search succeeds; an uncached pair is searched but not stored.
      Whatever the branch, the answer is a route exactly when one exists. */
  function GetPath(g: Graph, cache: Cache, start: Coord, goal: Coord): (r: (Option<seq<Coord>>, Cache))
    requires WellFormed(g) && CacheInv(g, cache)
    ensures r.0.Some? ==> IsPath(g, r.0.value, start, goal)
    ensures r.0.Some? <==> Reachable(g, start, goal)
    ensures CacheInv(g, r.1)
    ensures r.1.Keys == cache.Keys
    ensures forall k | k in cache && k != (start, goal) :: r.1[k] == cache[k]
    ensures (start, goal) in cache && r.0.Some? ==> r.1[(start, goal)] == r.0.value
    ensures (start, goal) in cache && r.0.None? ==> r.1[(start, goal)] == cache[(start, goal)]
    ensures (start, goal) in cache && IsPathValid(g, cache[(start, goal)]) ==> r == (Some(cache[(start, goal)]), cache)
    ensures start in g && goal in g && ((start, goal) !in cache || !IsPathValid(g, cache[(start, goal)])) ==>
              r.0 == AStar.FindPath(g, start, goal)
    ensures (start, goal) !in cache ==> r.1 == cache
  {
    if start !in g || goal !in g then
      (None, cache)
    else if (start, goal) in cache then
      var cached := cache[(start, goal)];
      if IsPathValid(g, cached) then
        ValidCachedRouteIsPath(g, cache, (start, goal));
        (Some(cached), cache)
      else
        var found := AStar.FindPath(g, start, goal);
        if found.Some? then (found, cache[(start, goal) := found.value]) else (found, cache)
    else
      (AStar.FindPath(g, start, goal), cache)
  }

  /** Asking again for a pair the cache knows returns the same route, until
      walkability changes. */
  lemma GetPathIsStable(g: Graph, cache: Cache, start: Coord, goal: Coord)
    requires WellFormed(g) && CacheInv(g, cache)
    requires (start, goal) in cache
    ensures var first := GetPath(g, cache, start, goal);
            first.0.Some? ==> GetPath(g, first.1, start, goal) == first
  {
  }

  /** With nothing cached, GetPath is plain A* search and stores nothing, so
      the cache only ever changes what is returned for pairs it already holds. */
  lemma GetPathWithoutCacheIsSearch(g: Graph, start: Coord, goal: Coord)
    requires WellFormed(g)
    ensures GetPath(g, map[], start, goal) == (AStar.FindPath(g, start, goal), map[])
  {
  }

  /** Some (spawn, exit) pair of the registered lists is connected. */
  ghost predicate SomePairConnected(g: Graph, starts: seq<Coord>, ends: seq<Coord>) {
    exists i, j | 0 <= i < |starts| && 0 <= j < |ends| :: Reachable(g, starts[i], ends[j])
  }

  /** The nested loops of WouldBlockAllPaths, breaking out at the first pair
      with a route. */
  function AnyPairConnected(g: Graph, starts: seq<Coord>, ends: seq<Coord>): (r: bool)
    requires WellFormed(g)
    ensures r <==> SomePairConnected(g, starts, ends)
    decreases |starts|
  {
    if starts == [] then false
    else if AnyEndReachable(g, starts[0], ends) then
      assert exists j | 0 <= j < |ends| :: Reachable(g, starts[0], ends[j]);
      true
    else
      var rest := AnyPairConnected(g, starts[1..], ends);
      assert forall i | 0 < i < |starts| :: starts[i] == starts[1..][i - 1];
      rest
  }

  /** The inner loop: does `s` (when live) reach some live exit of `ends`? */
  function AnyEndReachable(g: Graph, s: Coord, ends: seq<Coord>): (r: bool)
    requires WellFormed(g)
    ensures r <==> exists j | 0 <= j < |ends| :: Reachable(g, s, ends[j])
    decreases |ends|
  {
    if ends == [] then false
    else if s in g && ends[0] in g && AStar.FindPath(g, s, ends[0]).Some? then true
    else
      var rest := AnyEndReachable(g, s, ends[1..]);
      assert forall j | 0 < j < |ends| :: ends[j] == ends[1..][j - 1];
      rest
  }

  /** Whether iterating the registry throws: the spawn list is read first, and
      the exit list is read only inside the loop over spawns. */
  predicate RegistryThrows(reg: Registry) {
    Start !in reg || (End !in reg && |reg[Start]| > 0)
  }

  /** WouldBlockAllPaths. `generatorPresent` is whether
      PathNodeGenerator.Instance exists; the node to block is the arena node at
      `coords`. With no such node the answer is false. Otherwise the node is
      marked unwalkable, every pair is searched, and the flag is restored: the
      answer is true exactly when no (spawn, exit) pair keeps a route. If the
      registry lookup throws, the node is left unwalkable. */
  function WouldBlockAllPaths(g: Graph, generatorPresent: bool, reg: Registry, coords: Coord): (r: (Result<bool, Thrown>, Graph))
    requires WellFormed(g)
    ensures !generatorPresent || coords !in g ==> r == (Success(false), g)
    ensures r.0.Failure? <==> generatorPresent && coords in g && RegistryThrows(reg)
    ensures r.0.Success? ==> r.1 == g
    ensures r.0.Failure? ==> r.1 == SetWalkable(g, coords, false)
    ensures r.0.Success? && generatorPresent && coords in g ==>
              (r.0.value <==> !SomePairConnected(SetWalkable(g, coords, false), Registered(reg, Start), Registered(reg, End)))
  {
    if !generatorPresent || coords !in g then
      (Success(false), g)
    else
      var original := g[coords].walkable;
      var blocked := SetWalkable(g, coords, false);
      if RegistryThrows(reg) then
        (Failure(KeyNotFound), blocked)
      else
        var anyPathExists := AnyPairConnected(blocked, Registered(reg, Start), Registered(reg, End));
        var restored := SetWalkable(blocked, coords, original);
        GraphExtensionality(restored, g);
        (Success(!anyPathExists), restored)
  }

  /** The nested loops that fill the cache: each live (spawn, exit) pair whose
      search succeeds is stored under its key, overwriting an earlier entry. */
  function StoreRoutes(g: Graph, starts: seq<Coord>, ends: seq<Coord>, cache: Cache): (r: Cache)
    requires WellFormed(g)
    ensures forall k :: k in r <==> k in cache || (k.0 in starts && k.1 in ends && Reachable(g, k.0, k.1))
    ensures forall k | k in r && k.0 in starts && k.1 in ends && Reachable(g, k.0, k.1) ::
              r[k] == AStar.FindPath(g, k.0, k.1).value
    ensures forall k | k in cache && !(k.0 in starts && k.1 in ends && Reachable(g, k.0, k.1)) :: r[k] == cache[k]
    decreases |starts|
  {
    if starts == [] then cache
    else
      var c1 := StoreRoutesFrom(g, starts[0], ends, cache);
      var r := StoreRoutes(g, starts[1..], ends, c1);
      assert forall s :: s in starts <==> s == starts[0] || s in starts[1..];
      r
  }

  /** The inner loop for one spawn. */
  function StoreRoutesFrom(g: Graph, s: Coord, ends: seq<Coord>, cache: Cache): (r: Cache)
    requires WellFormed(g)
    ensures forall k :: k in r <==> k in cache || (k.0 == s && k.1 in ends && Reachable(g, k.0, k.1))
    ensures forall k | k in r && k.0 == s && k.1 in ends && Reachable(g, k.0, k.1) :: r[k] == AStar.FindPath(g, k.0, k.1).value
    ensures forall k | k in cache && !(k.0 == s && k.1 in ends && Reachable(g, k.0, k.1)) :: r[k] == cache[k]
    decreases |ends|
  {
    if ends == [] then cache
    else
      var e := ends[0];
      var path := if s in g && e in g then AStar.FindPath(g, s, e) else None;
      var c1 := if path.Some? && |path.value| > 0 then cache[(s, e) := path.value] else cache;
      assert forall t :: t in ends <==> t == e || t in ends[1..];
      StoreRoutesFrom(g, s, ends[1..], c1)
  }

  /** A cache built only from search results satisfies the cache invariant. */
  lemma StoredRoutesAreRoutes(g: Graph, starts: seq<Coord>, ends: seq<Coord>)
    requires WellFormed(g)
    ensures CacheInv(g, StoreRoutes(g, starts, ends, map[]))
    ensures forall k | k in StoreRoutes(g, starts, ends, map[]) :: IsPath(g, StoreRoutes(g, starts, ends, map[])[k], k.0, k.1)
  {
  }

  /** PrecomputeAllPaths: clear the cache; with either registry list missing,
      stop there (and do not initialise the spawner); otherwise store a route
      for every connected (spawn, exit) pair and initialise the spawner if one
      is attached. The second component is whether the spawner is initialised. */
  function PrecomputeAllPaths(g: Graph, reg: Registry, spawnerPresent: bool): (r: (Cache, bool))
    requires WellFormed(g)
    ensures Start !in reg || End !in reg ==> r == (map[], false)
    ensures Start in reg && End in reg ==> r.1 == spawnerPresent
    ensures forall k :: k in r.0 <==> Start in reg && End in reg && k.0 in reg[Start] && k.1 in reg[End] && Reachable(g, k.0, k.1)
    ensures forall k | k in r.0 :: IsPath(g, r.0[k], k.0, k.1)
  {
    if Start !in reg || End !in reg then (map[], false)
    else (StoreRoutes(g, reg[Start], reg[End], map[]), spawnerPresent)
  }

  /** The outcome of RecalculateAndCacheAllPaths: the cache it leaves behind,
      and either the followers asked to re-path, in the order they were asked,
      or the exception the registry look-up threw. The OnPathsRecalculated
      event is raised exactly when this succeeds. */
  datatype Recalculation = Recalculation(cache: Cache, outcome: Result<seq<FollowerId>, Thrown>)

  /** RecalculateAndCacheAllPaths. The cache is cleared first; if the registry
      look-up throws, the cache stays empty and nothing else happens (the
      exit list is read inside the loop over spawns, before anything is
      stored). Otherwise every connected (spawn, exit) pair gets its current
      route, and every active follower is asked to re-path exactly once, in
      the order of `snapshot` (the copy of the follower set the loop walks). */
  function RecalculateAndCacheAllPaths(g: Graph, reg: Registry, active: set<FollowerId>, snapshot: seq<FollowerId>): (r: Recalculation)
    requires WellFormed(g)
    requires NoDupIds(snapshot) && forall f :: f in snapshot <==> f in active
    ensures r.outcome.Failure? <==> RegistryThrows(reg)
    ensures r.outcome.Failure? ==> r.cache == map[]
    ensures r.outcome.Success? ==> forall k :: k in r.cache <==>
              k.0 in Registered(reg, Start) && k.1 in Registered(reg, End) && Reachable(g, k.0, k.1)
    ensures r.outcome.Success? ==> forall k | k in r.cache :: r.cache[k] == AStar.FindPath(g, k.0, k.1).value
    ensures CacheInv(g, r.cache)
    ensures r.outcome.Success? ==> NoDupIds(r.outcome.value) && forall f :: f in r.outcome.value <==> f in active
  {
    if RegistryThrows(reg) then Recalculation(map[], Failure(KeyNotFound))
    else
      var cache := StoreRoutes(g, Registered(reg, Start), Registered(reg, End), map[]);
      StoredRoutesAreRoutes(g, Registered(reg, Start), Registered(reg, End));
      Recalculation(cache, Success(snapshot))
  }

  /** No follower appears twice. */
  predicate NoDupIds(s: seq<FollowerId>) {
    forall i, j | 0 <= i < j < |s| :: s[i] != s[j]
  }

  /** RegisterFollower / UnregisterFollower on the active set. */
  function RegisterFollower(active: set<FollowerId>, f: FollowerId): (r: set<FollowerId>)
    ensures f in r && forall h | h != f :: h in r <==> h in active
  {
    active + {f}
  }

  function UnregisterFollower(active: set<FollowerId>, f: FollowerId): (r: set<FollowerId>)
    ensures f !in r && forall h | h != f :: h in r <==> h in active
  {
    active - {f}
  }

  /** Registering and then unregistering a follower that was not active leaves the set as it was. */
  lemma RegisterThenUnregister(active: set<FollowerId>, f: FollowerId)
    requires f !in active
    ensures UnregisterFollower(RegisterFollower(active, f), f) == active
  {
  }
}

=== FILE: astar_search.dfy ===
/** A* search (Astar.FindPath, Heuristic, GetMovementCost, ReconstructPath).

    Costs are scaled integers instead of floats: one step costs 1000 and the
    heuristic is 1000 * (dx + dy) + |dx - dy|, i.e. the source's Manhattan
    distance plus a 0.001 * |dx - dy| straight-line tie-breaker, multiplied by
    1000. The scratch fields gCost/parent live in a search state local to one
    call, so no search can see another's costs. */
module AStar {
  import opened Wrappers
  import opened Coords
  import opened PathGraph

  /** GetMovementCost: every step between adjacent cells costs the same. */
  const StepCost: nat := 1000

  function Abs(x: int): nat {
    if x < 0 then -x else x
  }

  /** Manhattan distance plus the straight-line tie-breaker, scaled by 1000.
      It is zero only at the goal and never below the Manhattan step cost; the
      tie-breaker makes it exceed the true cost whenever dx != dy. */
  function Heuristic(a: Coord, b: Coord): (h: nat)
    ensures h >= StepCost * (Abs(a.0 - b.0) + Abs(a.1 - b.1))
    ensures h == StepCost * (Abs(a.0 - b.0) + Abs(a.1 - b.1)) <==> Abs(a.0 - b.0) == Abs(a.1 - b.1)
    ensures h == 0 <==> a == b
  {
    var dx := Abs(a.0 - b.0);
    var dy := Abs(a.1 - b.1);
    StepCost * (dx + dy) + Abs(dx - dy)
  }

  /** One step east costs StepCost, yet the heuristic estimates more: it is not admissible. */
  lemma HeuristicOverestimatesOneStep()
    ensures Heuristic((0, 0), (1, 0)) == StepCost + 1
  {
  }

  /** The state of one search: open list (in insertion order), closed set,
      best known cost from the start (absent = infinity) and back-links. */
  datatype Search = Search(open: seq<Coord>, closed: set<Coord>, g: map<Coord, nat>, parent: map<Coord, Coord>)

  /** The open-list ordering key (fCost, hCost); fCost = gCost + hCost. */
  function Key(g: map<Coord, nat>, goal: Coord, n: Coord): (nat, nat)
    requires n in g
  {
    (g[n] + Heuristic(n, goal), Heuristic(n, goal))
  }

  /** Strict lexicographic order on keys: lower f first, ties by lower h. */
  predicate Less(a: (nat, nat), b: (nat, nat)) {
    a.0 < b.0 || (a.0 == b.0 && a.1 < b.1)
  }

  /** The element `OrderBy(f).ThenBy(h).First()` picks: both sorts are stable,
      so it is the FIRST open node whose key is minimal. */
  function BestIndex(open: seq<Coord>, g: map<Coord, nat>, goal: Coord): (i: nat)
    requires |open| > 0
    requires forall n | n in open :: n in g
    ensures i < |open|
    ensures forall j | 0 <= j < i :: Less(Key(g, goal, open[i]), Key(g, goal, open[j]))
    ensures forall j | i < j < |open| :: !Less(Key(g, goal, open[j]), Key(g, goal, open[i]))
  {
    if |open| == 1 then 0
    else
      var k := BestIndex(open[1..], g, goal);
      if Less(Key(g, goal, open[1..][k]), Key(g, goal, open[0])) then k + 1 else 0
  }


  /** Every node with a known cost is open or closed, and open and closed are disjoint. */
  ghost predicate Bookkeeping(graph: Graph, start: Coord, goal: Coord, s: Search) {
    && (forall n | n in s.open :: n in s.g && n !in s.closed)
    && (forall n | n in s.closed :: n in s.g)
    && (forall n | n in s.g :: n in s.open || n in s.closed)
    && (forall n | n in s.g :: n in graph && graph[n].walkable)
    && NoDup(s.open)
    && start in s.g
    && goal !in s.closed
  }

  /** Every reached node other than the start has a closed parent it is a
      neighbour of, and a strictly larger cost than that parent. */
  ghost predicate ParentsOk(graph: Graph, start: Coord, s: Search) {
    forall n | n in s.g && n != start ::
      && n in s.parent
      && s.parent[n] in s.closed
      && s.parent[n] in s.g
      && s.parent[n] in graph
      && n in graph[s.parent[n]].neighbours
      && s.g[s.parent[n]] < s.g[n]
  }

  /** Every walkable neighbour of a node in `C` has been reached. */
  ghost predicate Expanded(graph: Graph, s: Search, C: set<Coord>) {
    forall c, n | c in C && c in graph && n in graph[c].neighbours && n in graph && graph[n].walkable :: n in s.g
  }

  ghost predicate Inv(graph: Graph, start: Coord, goal: Coord, s: Search) {
    && WellFormed(graph)
    && Bookkeeping(graph, start, goal, s)
    && ParentsOk(graph, start, s)
  }

  /** ReconstructPath: follow back-links from `n` to the start; the source
      collects goal-to-start and reverses, which is this start-to-goal list. */
  function Reconstruct(graph: Graph, start: Coord, s: Search, n: Coord): seq<Coord>
    requires ParentsOk(graph, start, s)
    requires n in s.g
    decreases s.g[n]
  {
    if n == start then [n] else Reconstruct(graph, start, s, s.parent[n]) + [n]
  }

  /** Back-links always describe a walkable route from the start. */
  lemma {:induction false} ReconstructIsPath(graph: Graph, start: Coord, goal: Coord, s: Search, n: Coord)
    requires Inv(graph, start, goal, s)
    requires n in s.g
    ensures IsPath(graph, Reconstruct(graph, start, s, n), start, n)
    decreases s.g[n]
  {
    if n != start {
      var m := s.parent[n];
      ReconstructIsPath(graph, start, goal, s, m);
      var q := Reconstruct(graph, start, s, m);
      assert Reconstruct(graph, start, s, n) == q + [n];
      assert q[|q| - 1] == m;
    }
  }

  /** The inner `foreach (var neighbor in current.neighbors)` loop: relax each
      walkable, unclosed neighbour whose cost through `cur` is strictly lower. */
  function Relax(graph: Graph, start: Coord, goal: Coord, cur: Coord, nbrs: seq<Coord>, s: Search): (r: Search)
    requires Inv(graph, start, goal, s)
    requires cur in s.closed && cur in graph
    requires forall n | n in nbrs :: n in graph[cur].neighbours
    ensures Inv(graph, start, goal, r)
    ensures r.closed == s.closed
    ensures forall n | n in s.g :: n in r.g
    ensures forall n | n in nbrs && n in graph && graph[n].walkable :: n in r.g
    decreases |nbrs|
  {
    if |nbrs| == 0 then s
    else
      var n := nbrs[0];
      assert n in graph[cur].neighbours;
      if n in s.closed || !graph[n].walkable then
        Relax(graph, start, goal, cur, nbrs[1..], s)
      else
        var tentative := s.g[cur] + StepCost;
        if n !in s.g || tentative < s.g[n] then
          var s' := Search(if n in s.open then s.open else s.open + [n],
                           s.closed, s.g[n := tentative], s.parent[n := cur]);
          RelaxStepKeepsInv(graph, start, goal, cur, n, s, s');
          Relax(graph, start, goal, cur, nbrs[1..], s')
        else
          Relax(graph, start, goal, cur, nbrs[1..], s)
  }

  lemma RelaxStepKeepsInv(graph: Graph, start: Coord, goal: Coord, cur: Coord, n: Coord, s: Search, s': Search)
    requires Inv(graph, start, goal, s)
    requires cur in s.closed && cur in graph
    requires n in graph[cur].neighbours && n !in s.closed && graph[n].walkable
    requires n !in s.g || s.g[cur] + StepCost < s.g[n]
    requires s' == Search(if n in s.open then s.open else s.open + [n],
                          s.closed, s.g[n := s.g[cur] + StepCost], s.parent[n := cur])
    ensures Inv(graph, start, goal, s')
  {
    assert n in graph;
    forall m | m in s'.g && m != start
      ensures m in s'.parent && s'.parent[m] in s'.closed && s'.parent[m] in s'.g
      ensures s'.parent[m] in graph && m in graph[s'.parent[m]].neighbours
      ensures s'.g[s'.parent[m]] < s'.g[m]
    {
      if m != n {
        assert s'.parent[m] == s.parent[m];
        assert s.parent[m] != n;
      }
    }
  }

  /** Closing `open[i]` removes it from the open list (List.Remove of the
      first occurrence; with no duplicates that is position `i`). */
  lemma CloseKeepsInv(graph: Graph, start: Coord, goal: Coord, s: Search, i: nat, s1: Search)
    requires Inv(graph, start, goal, s)
    requires i < |s.open| && s.open[i] != goal
    requires s1 == Search(s.open[..i] + s.open[i + 1..], s.closed + {s.open[i]}, s.g, s.parent)
    ensures Inv(graph, start, goal, s1)
    ensures s.open[i] in s1.closed && s.open[i] in graph
  {
    RemoveAtKeeps(s.open, i);
  }

  /** Removing position `i` from a list without repeats removes exactly that
      element and keeps the list free of repeats. */
  lemma RemoveAtKeeps(open: seq<Coord>, i: nat)
    requires i < |open| && NoDup(open)
    ensures var rest := open[..i] + open[i + 1..];
            && NoDup(rest)
            && forall n :: n in rest <==> n in open && n != open[i]
  {
    var rest := open[..i] + open[i + 1..];
    forall n | n in rest ensures n in open && n != open[i] {
      var k :| 0 <= k < |rest| && rest[k] == n;
      if k < i {
        assert open[k] == n;
      } else {
        assert open[k + 1] == n;
      }
    }
    forall n | n in open && n != open[i] ensures n in rest {
      var k :| 0 <= k < |open| && open[k] == n;
      if k < i {
        assert rest[k] == n;
      } else {
        assert rest[k - 1] == n;
      }
    }
    forall a, b | 0 <= a < b < |rest| ensures rest[a] != rest[b] {
      var a' := if a < i then a else a + 1;
      var b' := if b < i then b else b + 1;
      assert rest[a] == open[a'] && rest[b] == open[b'];
    }
  }

  /** One iteration of the `while (openSet.Count > 0)` loop per call: every
      call closes one node that is never reopened, so it terminates. */
  function Loop(graph: Graph, start: Coord, goal: Coord, s: Search): (r: Option<seq<Coord>>)
    requires Inv(graph, start, goal, s)
    requires Expanded(graph, s, s.closed)
    ensures r.Some? ==> IsPath(graph, r.value, start, goal)
    ensures r.None? ==> !Reachable(graph, start, goal)
    decreases |graph.Keys - s.closed|
  {
    if |s.open| == 0 then
      NoRouteWhenExhausted(graph, start, goal, s);
      None
    else
      var i := BestIndex(s.open, s.g, goal);
      var cur := s.open[i];
      if cur == goal then
        ReconstructIsPath(graph, start, goal, s, goal);
        Some(Reconstruct(graph, start, s, goal))
      else
        var s1 := Search(s.open[..i] + s.open[i + 1..], s.closed + {cur}, s.g, s.parent);
        CloseKeepsInv(graph, start, goal, s, i, s1);
        var s2 := Relax(graph, start, goal, cur, graph[cur].neighbours, s1);
        ExpandedAfterClose(graph, s, s2, cur);
        ClosingShrinksFrontier(graph.Keys, s.closed, cur);
        Loop(graph, start, goal, s2)
  }

  /** Closing `cur` after relaxing all its neighbours keeps every closed
      node expanded. */
  lemma ExpandedAfterClose(graph: Graph, s: Search, s2: Search, cur: Coord)
    requires Expanded(graph, s, s.closed)
    requires s2.closed == s.closed + {cur}
    requires forall n | n in s.g :: n in s2.g
    requires cur in graph
    requires forall n | n in graph[cur].neighbours && n in graph && graph[n].walkable :: n in s2.g
    ensures Expanded(graph, s2, s2.closed)
  {
  }

  lemma ClosingShrinksFrontier(keys: set<Coord>, closed: set<Coord>, cur: Coord)
    requires cur in keys && cur !in closed
    ensures |keys - (closed + {cur})| < |keys - closed|
  {
    assert keys - closed == (keys - (closed + {cur})) + {cur};
  }

  /** When the open list is empty, the reached set is closed under walkable
      steps and holds the start but not the goal, so no route exists. */
  lemma NoRouteWhenExhausted(graph: Graph, start: Coord, goal: Coord, s: Search)
    requires Inv(graph, start, goal, s)
    requires Expanded(graph, s, s.closed)
    requires |s.open| == 0
    ensures !Reachable(graph, start, goal)
  {
    assert ClosedUnderSteps(graph, s.closed);
    if Reachable(graph, start, goal) {
      var p :| IsPath(graph, p, start, goal);
      RouteStaysInClosedSet(graph, s.closed, p, start, goal);
      assert false;
    }
  }

  /** Astar.FindPath: null when either end is null or unwalkable, otherwise a
      route from `start` to `goal` exactly when one exists. */
  function FindPath(graph: Graph, start: Coord, goal: Coord): (r: Option<seq<Coord>>)
    requires WellFormed(graph)
    ensures r.Some? ==> IsPath(graph, r.value, start, goal)
    ensures r.Some? <==> Reachable(graph, start, goal)
    ensures (start !in graph || goal !in graph) ==> r.None?
  {
    if start !in graph || goal !in graph then
      None
    else if !graph[start].walkable || !graph[goal].walkable then
      None
    else
      var s0 := Search([start], {}, map[start := 0], map[]);
      var r := Loop(graph, start, goal, s0);
      if r.Some? then assert IsPath(graph, r.value, start, goal); r else r
  }
}

=== FILE: coords.dfy ===
/** Integer grid coordinates (Unity's Vector2Int) and the enumeration orders
    the generators use. */
module Coords {

  type Coord = (int, int)

  /** `c` lies in the `width` x `height` rectangle anchored at the origin. */
  predicate InBounds(width: int, height: int, c: Coord) {
    0 <= c.0 < width && 0 <= c.1 < height
  }

  /** All coordinates of the rectangle, as a set. */
  function Rect(width: int, height: int): (r: set<Coord>)
    ensures forall c :: c in r <==> InBounds(width, height, c)
  {
    set x, y | 0 <= x < width && 0 <= y < height :: (x, y)
  }

  /** No coordinate occurs twice. */
  predicate NoDup(s: seq<Coord>) {
    forall i, j | 0 <= i < j < |s| :: s[i] != s[j]
  }

  /** The tail of a list without repeats has none, and lacks the head. */
  lemma NoDupTail(s: seq<Coord>)
    requires s != [] && NoDup(s)
    ensures NoDup(s[1..]) && s[0] !in s[1..]
  {
    forall j | 0 <= j < |s[1..]| ensures s[1..][j] != s[0] {
      assert s[1..][j] == s[j + 1];
    }
  }

  /** Appending a new coordinate keeps a list without repeats. */
  lemma NoDupSnoc(s: seq<Coord>, x: Coord)
    requires NoDup(s) && x !in s
    ensures NoDup(s + [x])
  {
    forall i, j | 0 <= i < j < |s + [x]| ensures (s + [x])[i] != (s + [x])[j] {
      assert (s + [x])[i] == s[i];
    }
  }

  /** A prefix of a prefix is a prefix. */
  lemma PrefixOfPrefix(a: seq<Coord>, b: seq<Coord>, c: seq<Coord>)
    requires |a| <= |b| && b[..|a|] == a
    requires |b| <= |c| && c[..|b|] == b
    ensures c[..|a|] == a
  {
    assert c[..|a|] == c[..|b|][..|a|];
  }

  /** Putting a new coordinate in front keeps a list without repeats. */
  lemma NoDupCons(x: Coord, t: seq<Coord>)
    requires NoDup(t) && x !in t
    ensures NoDup([x] + t)
  {
    forall i, j | 0 <= i < j < |[x] + t| ensures ([x] + t)[i] != ([x] + t)[j] {
      assert ([x] + t)[j] == t[j - 1];
      if i > 0 {
        assert ([x] + t)[i] == t[i - 1];
      }
    }
  }

  /** The cells of column `x` from `y = 0` up to `y = height - 1`. */
  function Column(x: int, height: int): (r: seq<Coord>)
    requires height >= 0
    ensures |r| == height
    ensures forall y | 0 <= y < height :: r[y] == (x, y)
    decreases height
  {
    if height == 0 then [] else Column(x, height - 1) + [(x, height - 1)]
  }

  /** The nested `for x { for y { ... } }` order of the generators: x-major.
      It lists every cell of the rectangle exactly once. */
  function XMajor(width: int, height: int): (r: seq<Coord>)
    requires width >= 0 && height >= 0
    ensures |r| == width * height
    ensures NoDup(r)
    ensures forall c :: c in r <==> InBounds(width, height, c)
    decreases width
  {
    if width == 0 then []
    else
      var prefix := XMajor(width - 1, height);
      var col := Column(width - 1, height);
      var r := prefix + col;
      assert |r| == width * height by {
        assert (width - 1) * height + height == width * height;
      }
      assert forall c | c in col :: c.0 == width - 1;
      assert forall c | c in prefix :: c.0 < width - 1;
      forall c | InBounds(width, height, c) ensures c in r {
        if c.0 == width - 1 {
          assert col[c.1] == c;
        }
      }
      r
  }

  /** `c` and `d` are 4-neighbours: they differ by one step along exactly one axis. */
  predicate Adjacent(c: Coord, d: Coord) {
    (c.0 == d.0 && (c.1 - d.1 == 1 || d.1 - c.1 == 1))
    || (c.1 == d.1 && (c.0 - d.0 == 1 || d.0 - c.0 == 1))
  }

  /** The four candidate neighbours of `c` in the order the generators probe
      them: west (x - 1), east (x + 1), south (y - 1), north (y + 1). */
  function Around(c: Coord): (r: seq<Coord>)
    ensures |r| == 4 && NoDup(r)
    ensures forall d :: d in r <==> Adjacent(c, d)
  {
    [(c.0 - 1, c.1), (c.0 + 1, c.1), (c.0, c.1 - 1), (c.0, c.1 + 1)]
  }

  /** 4-adjacency is symmetric and irreflexive. */
  lemma AdjacentSymmetric(c: Coord, d: Coord)
    ensures Adjacent(c, d) <==> Adjacent(d, c)
    ensures !Adjacent(c, c)
  {
  }
}

=== FILE: currency.dfy ===
/** The player's currency balance (CurrencyManager.cs). The change event is
    not modelled; every operation returns the new balance. The balance and
    the amounts are C# `int`s, so `+=` and `-=` wrap around (Int32.Wrap). */
module Currency {
  import opened Int32

  /** CanAfford: the balance covers the amount. */
  predicate CanAfford(balance: int, amount: int) {
    balance >= amount
  }

  /** TrySpend: on success the balance drops by the amount, modulo 2^32;
      otherwise nothing changes. */
  function TrySpend(balance: int, amount: int): (r: (bool, int))
    ensures r.0 <==> balance >= amount
    ensures r.0 ==> InInt32(r.1) && (r.1 + amount - balance) % Modulus == 0
    ensures r.0 && InInt32(balance - amount) ==> r.1 + amount == balance
    ensures !r.0 ==> r.1 == balance
  {
    if !CanAfford(balance, amount) then (false, balance) else (true, Wrap(balance - amount))
  }

  /** Add: the balance grows by the amount, modulo 2^32. */
  function Add(balance: int, amount: int): (r: int)
    ensures InInt32(r) && (r - amount - balance) % Modulus == 0
    ensures InInt32(balance + amount) ==> r - amount == balance
  {
    Wrap(balance + amount)
  }

  /** Set: the balance becomes the amount, whatever it was. */
  function Set(balance: int, amount: int): (r: int)
    ensures r == amount
  {
    amount
  }

  /** Spending a non-negative amount from a non-negative balance never goes
      negative and never wraps, and a refund of the same amount undoes a
      successful spend. */
  lemma SpendKeepsBalanceNonNegative(balance: int, amount: int)
    requires 0 <= balance <= MaxValue && amount >= 0
    ensures TrySpend(balance, amount).1 >= 0
    ensures TrySpend(balance, amount).0 ==> TrySpend(balance, amount).1 == balance - amount
    ensures TrySpend(balance, amount).0 ==> Add(TrySpend(balance, amount).1, amount) == balance
    ensures TrySpend(balance, amount).1 <= balance
  {
  }

  /** Adding past int.MaxValue wraps to a negative balance: a reward of 1
      at the largest balance leaves int.MinValue. */
  lemma AddPastMaxWraps()
    ensures Add(MaxValue, 1) == MinValue
  {
    WrapPastMax(MaxValue + 1);
  }

  /** Spending a negative amount is always affordable from a non-negative
      balance, and spending int.MinValue from 0 wraps back to int.MinValue. */
  lemma SpendMinValueWraps()
    ensures TrySpend(0, MinValue) == (true, MinValue)
  {
    assert Wrap(0 - MinValue) == MinValue by { WrapPastMax(0 - MinValue); }
  }
}

=== FILE: damage_table.dfy ===
/** The attack-type x defence-type multiplier grid (DamageTable.cs). Damage
    types are opaque identifiers compared by equality. */
module DamageTable {
  import opened Wrappers
  import opened Selection

  type DamageType = nat

  datatype Row = Row(damageRow: DamageType, multipliers: seq<real>)
  datatype Table = Table(types: seq<DamageType>, rows: seq<Row>)

  /** Indexing past the end of `rows` or of a row's multipliers throws. */
  datatype Thrown = ArgumentOutOfRange

  /** GetMultiplier: 1 when either type is unknown, else the cell at the two
      first positions; a table with too few rows or columns throws. */
  function GetMultiplier(tb: Table, attack: DamageType, defence: DamageType): (r: Result<real, Thrown>)
    ensures attack !in tb.types || defence !in tb.types ==> r == Success(1.0)
    ensures attack in tb.types && defence in tb.types ==>
              var i, j := IndexOf(tb.types, attack), IndexOf(tb.types, defence);
              (r.Success? <==> i < |tb.rows| && j < |tb.rows[i].multipliers|)
              && (r.Success? ==> r.value == tb.rows[i].multipliers[j])
  {
    var row := IndexOf(tb.types, attack);
    var col := IndexOf(tb.types, defence);
    if row < 0 || col < 0 then Success(1.0)
    else if row >= |tb.rows| || col >= |tb.rows[row].multipliers| then Failure(ArgumentOutOfRange)
    else Success(tb.rows[row].multipliers[col])
  }

  /** InitializeTable: one row per type, in order, every multiplier 1. */
  function InitializeTable(tb: Table): (r: Table)
    ensures r.types == tb.types
    ensures |r.rows| == |tb.types|
    ensures forall i | 0 <= i < |r.rows| :: r.rows[i].damageRow == tb.types[i]
    ensures forall i | 0 <= i < |r.rows| ::
              (|r.rows[i].multipliers| == |tb.types|
               && forall j | 0 <= j < |tb.types| :: r.rows[i].multipliers[j] == 1.0)
  {
    var ones := seq(|tb.types|, _ => 1.0);
    tb.(rows := seq(|tb.types|, i requires 0 <= i < |tb.types| => Row(tb.types[i], ones)))
  }

  /** A table as InitializeTable leaves it: square over the types. */
  predicate Square(tb: Table) {
    |tb.rows| == |tb.types| && forall i | 0 <= i < |tb.rows| :: |tb.rows[i].multipliers| == |tb.types|
  }

  /** On a square table GetMultiplier never throws. */
  lemma SquareTableNeverThrows(tb: Table, attack: DamageType, defence: DamageType)
    requires Square(tb)
    ensures GetMultiplier(tb, attack, defence).Success?
  {
  }

  /** After InitializeTable every pair of types is neutral. */
  lemma InitializedTableIsNeutral(tb: Table, attack: DamageType, defence: DamageType)
    ensures Square(InitializeTable(tb))
    ensures GetMultiplier(InitializeTable(tb), attack, defence) == Success(1.0)
  {
  }
}

=== FILE: enemy_manager.dfy ===
/** The registry of live enemies and the tower target-selection rules
    (EnemyManager.cs). World positions are abstract: the caller supplies each
    enemy's distance from the tower. Every selection scan keeps the first
    best candidate, because later candidates must be strictly better. */
module Enemies {
  import opened Wrappers
  import opened Selection

  /** One enemy as the selection rules see it. `health` is None when the
      enemy has no health component. */
  datatype Enemy = Enemy(id: nat, active: bool, flying: bool, nodesPassed: int, totalPathNodes: int, health: Option<real>)

  /** The target groups; the enum is not part of this model, so any group
      other than Ground and Air is represented by `AnyGroup`. */
  datatype TargetGroup = Ground | Air | AnyGroup
  datatype TargetType = First | Last | Closest | Strongest | Weakest

  /** Whether the registry holds an entry for the enemy with this id. The
      registry holds references, and an enemy's id stands for its reference:
      the same enemy keeps its id while it moves and takes damage. */
  predicate HasId(s: seq<Enemy>, id: nat) {
    exists i | 0 <= i < |s| :: s[i].id == id
  }

  /** The registry never holds the same enemy twice. */
  predicate Distinct(s: seq<Enemy>) {
    forall i, j | 0 <= i < j < |s| :: s[i].id != s[j].id
  }

  /** RegisterEnemy: add at the end unless that enemy is already present. */
  function RegisterEnemy(s: seq<Enemy>, e: Enemy): (r: seq<Enemy>)
    ensures HasId(r, e.id)
    ensures HasId(s, e.id) ==> r == s
    ensures !HasId(s, e.id) ==> |r| == |s| + 1 && r[..|s|] == s && r[|s|] == e
    ensures Distinct(s) ==> Distinct(r)
  {
    if HasId(s, e.id) then s
    else
      assert (s + [e])[|s|] == e;
      s + [e]
  }

  /** The position of the first entry with this id, or |s| when there is none. */
  function FirstIdAt(s: seq<Enemy>, id: nat): (k: nat)
    ensures k <= |s|
    ensures k < |s| ==> s[k].id == id
    ensures forall j | 0 <= j < k :: s[j].id != id
    decreases |s|
  {
    if s == [] || s[0].id == id then 0 else 1 + FirstIdAt(s[1..], id)
  }

  /** List.Remove: drop the first entry for the enemy, if any; the others
      keep their order. */
  function UnregisterEnemy(s: seq<Enemy>, e: Enemy): (r: seq<Enemy>)
    ensures var k := FirstIdAt(s, e.id); k < |s| ==> r == s[..k] + s[k + 1..]
    ensures forall x: Enemy | x.id != e.id :: x in r <==> x in s
    ensures forall x | x in r :: x in s
    ensures HasId(s, e.id) ==> |r| == |s| - 1
    ensures Distinct(s) ==> Distinct(r) && !HasId(r, e.id)
    ensures !HasId(s, e.id) ==> r == s
    decreases |s|
  {
    if s == [] then []
    else if s[0].id == e.id then
      RemoveHead(s);
      s[1..]
    else
      var rest := UnregisterEnemy(s[1..], e);
      HasIdPastHead(s, e.id);
      var k := FirstIdAt(s[1..], e.id);
      assert k + 1 < |s| ==> [s[0]] + (s[1..][..k] + s[1..][k + 1..]) == s[..k + 1] + s[k + 2..] by {
        if k + 1 < |s| { DropAfterHead(s, k); }
      }
      KeepHead(s, rest, e.id);
      [s[0]] + rest
  }

  /** Dropping position k + 1 of s keeps the head in front of the tail with position k dropped. */
  lemma DropAfterHead(s: seq<Enemy>, k: nat)
    requires k + 1 < |s|
    ensures [s[0]] + (s[1..][..k] + s[1..][k + 1..]) == s[..k + 1] + s[k + 2..]
  {
  }

  /** An id is in a non-empty registry when it is the head's or in the tail. */
  lemma HasIdPastHead(s: seq<Enemy>, id: nat)
    requires s != []
    ensures HasId(s, id) <==> s[0].id == id || HasId(s[1..], id)
  {
    if HasId(s, id) && s[0].id != id {
      var i :| 0 <= i < |s| && s[i].id == id;
      assert s[1..][i - 1] == s[i];
    }
    if HasId(s[1..], id) {
      var i :| 0 <= i < |s[1..]| && s[1..][i].id == id;
      assert s[i + 1] == s[1..][i];
    }
  }

  /** Dropping the head of a registry without repeats drops its id. */
  lemma RemoveHead(s: seq<Enemy>)
    requires s != []
    ensures forall x | x in s[1..] :: x in s
    ensures forall x: Enemy | x.id != s[0].id :: x in s[1..] <==> x in s
    ensures Distinct(s) ==> Distinct(s[1..]) && !HasId(s[1..], s[0].id)
  {
    if Distinct(s) {
      DistinctTail(s);
    }
  }

  /** Keeping a head whose id is not removed, in front of the tail with the
      enemy removed, keeps the registry without repeats and without the id. */
  lemma KeepHead(s: seq<Enemy>, rest: seq<Enemy>, id: nat)
    requires s != [] && s[0].id != id
    requires forall x | x in rest :: x in s[1..]
    requires Distinct(s[1..]) ==> Distinct(rest) && !HasId(rest, id)
    ensures forall x | x in [s[0]] + rest :: x in s
    ensures Distinct(s) ==> Distinct([s[0]] + rest) && !HasId([s[0]] + rest, id)
  {
    if Distinct(s) {
      DistinctTail(s);
      NoIdAfterHead(s[0], rest, id);
      DrawnKeepsIdAbsent(rest, s[1..], s[0].id);
      DistinctCons(s[0], rest);
    }
  }

  /** The tail of a registry without repeats has none, and lacks the head's id. */
  lemma DistinctTail(s: seq<Enemy>)
    requires s != [] && Distinct(s)
    ensures Distinct(s[1..]) && !HasId(s[1..], s[0].id)
  {
  }

  /** A head whose id differs from `id`, in front of a list without `id`,
      leaves the list without `id`. */
  lemma NoIdAfterHead(x: Enemy, t: seq<Enemy>, id: nat)
    ensures x.id != id && !HasId(t, id) ==> !HasId([x] + t, id)
  {
    if x.id != id && HasId([x] + t, id) {
      var i :| 0 <= i < |[x] + t| && ([x] + t)[i].id == id;
      assert i > 0 && ([x] + t)[i] == t[i - 1];
    }
  }

  /** A list drawn from one without `id` is without `id`. */
  lemma DrawnKeepsIdAbsent(t: seq<Enemy>, u: seq<Enemy>, id: nat)
    requires forall x | x in t :: x in u
    requires !HasId(u, id)
    ensures !HasId(t, id)
  {
    forall i | 0 <= i < |t| ensures t[i].id != id {
      assert t[i] in u;
      var k :| 0 <= k < |u| && u[k] == t[i];
    }
  }

  /** Putting an enemy with a fresh id in front keeps a registry without repeats. */
  lemma DistinctCons(x: Enemy, t: seq<Enemy>)
    requires Distinct(t) && !HasId(t, x.id)
    ensures Distinct([x] + t)
  {
    forall i, j | 0 <= i < j < |[x] + t| ensures ([x] + t)[i].id != ([x] + t)[j].id {
      assert ([x] + t)[j] == t[j - 1];
      if i > 0 {
        assert ([x] + t)[i] == t[i - 1];
      }
    }
  }

  /** Registering then unregistering a new enemy gives back the registry. */
  lemma {:induction false} RegisterThenUnregister(s: seq<Enemy>, e: Enemy)
    requires !HasId(s, e.id)
    ensures UnregisterEnemy(RegisterEnemy(s, e), e) == s
    decreases |s|
  {
    if s != [] {
      assert (s + [e])[1..] == s[1..] + [e];
      RegisterThenUnregister(s[1..], e);
    }
  }

  /** An enemy that has moved on or taken damage since it registered is still
      the same enemy: unregistering it removes its entry. */
  lemma UnregisterChangedEnemy(s: seq<Enemy>, e: Enemy, now: Enemy)
    requires Distinct(s) && e in s && now.id == e.id
    ensures e !in UnregisterEnemy(s, now) && |UnregisterEnemy(s, now)| == |s| - 1
  {
    var r := UnregisterEnemy(s, now);
    var k :| 0 <= k < |s| && s[k] == e;
    assert HasId(s, now.id);
  }

  /** Whether an enemy belongs to the group a tower targets. */
  predicate InGroup(e: Enemy, group: TargetGroup) {
    !(group == Ground && e.flying) && !(group == Air && !e.flying)
  }

  /** GetEnemiesInRange: active enemies of the group no farther than `range`, in registry order. */
  function InRange(s: seq<Enemy>, dist: nat -> real, range: real, group: TargetGroup): (r: seq<Enemy>)
    ensures |r| <= |s|
    ensures forall e :: e in r <==> e in s && e.active && InGroup(e, group) && dist(e.id) <= range
    ensures s != [] && s[0].active && InGroup(s[0], group) && dist(s[0].id) <= range ==> r != [] && r[0] == s[0]
    decreases |s|
  {
    if s == [] then []
    else
      var rest := InRange(s[1..], dist, range, group);
      assert forall e :: e in s <==> e == s[0] || e in s[1..];
      if s[0].active && InGroup(s[0], group) && dist(s[0].id) <= range then [s[0]] + rest else rest
  }

  /** The test a registered enemy must pass to be a candidate. */
  function Targetable(dist: nat -> real, range: real, group: TargetGroup): Enemy -> bool {
    (e: Enemy) => e.active && InGroup(e, group) && dist(e.id) <= range
  }

  /** The candidates are the registry's targetable entries, each kept once and
      in registry order. */
  lemma {:induction false} InRangeKeepsOrder(s: seq<Enemy>, dist: nat -> real, range: real, group: TargetGroup)
    ensures exists idx :: OrderedFilter(InRange(s, dist, range, group), s, Targetable(dist, range, group), idx)
    decreases |s|
  {
    var keep := Targetable(dist, range, group);
    if s == [] {
      assert InRange(s, dist, range, group) == [];
      assert OrderedFilter([], s, keep, []);
    } else {
      var rest := InRange(s[1..], dist, range, group);
      InRangeKeepsOrder(s[1..], dist, range, group);
      var idx :| OrderedFilter(rest, s[1..], keep, idx);
      var idx' := FilterStep(s, keep, rest, idx);
      assert keep(s[0]) <==> s[0].active && InGroup(s[0], group) && dist(s[0].id) <= range;
      assert OrderedFilter(InRange(s, dist, range, group), s, keep, idx');
    }
  }

  /** An enemy's progress along its route; 0 without a route. */
  function Progress(e: Enemy): real {
    if e.totalPathNodes > 0 then e.nodesPassed as real / e.totalPathNodes as real else 0.0
  }

  /** The "best = null; bestValue = floor; if (v > bestValue)" scan. */
  method ScanMax(scores: seq<Option<real>>, floor: real) returns (best: Option<nat>)
    ensures best.None? <==> forall i | 0 <= i < |scores| && scores[i].Some? :: scores[i].value <= floor
    ensures best.Some? ==> FirstMaxAbove(scores, floor, best.value)
  {
    best := None;
    var bestValue := floor;
    var i := 0;
    while i < |scores|
      invariant 0 <= i <= |scores|
      invariant best.None? ==> bestValue == floor
      invariant best.None? <==> forall j | 0 <= j < i && scores[j].Some? :: scores[j].value <= floor
      invariant best.Some? ==> FirstMaxAbove(scores[..i], floor, best.value) && bestValue == scores[best.value].value
      invariant forall j | 0 <= j < i && scores[j].Some? :: scores[j].value <= bestValue
    {
      if scores[i].Some? && scores[i].value > bestValue {
        best, bestValue := Some(i), scores[i].value;
      }
      i := i + 1;
    }
    assert scores[..i] == scores;
  }

  /** The "best = null; bestValue = float.MaxValue; if (v < bestValue)" scan;
      over exact reals every present score beats the initial maximum. */
  method ScanMin(scores: seq<Option<real>>) returns (best: Option<nat>)
    ensures best.None? <==> forall i | 0 <= i < |scores| :: scores[i].None?
    ensures best.Some? ==> FirstMin(scores, best.value)
  {
    best := None;
    var bestValue := 0.0;
    var i := 0;
    while i < |scores|
      invariant 0 <= i <= |scores|
      invariant best.None? <==> forall j | 0 <= j < i :: scores[j].None?
      invariant best.Some? ==> FirstMin(scores[..i], best.value) && bestValue == scores[best.value].value
    {
      if scores[i].Some? && (best.None? || scores[i].value < bestValue) {
        best, bestValue := Some(i), scores[i].value;
      }
      i := i + 1;
    }
    assert scores[..i] == scores;
  }

  function ProgressScores(c: seq<Enemy>): (r: seq<Option<real>>)
    ensures |r| == |c| && forall i | 0 <= i < |c| :: r[i] == Some(Progress(c[i]))
  {
    seq(|c|, i requires 0 <= i < |c| => Some(Progress(c[i])))
  }

  function Sq(x: real): real { x * x }

  function SquaredDistances(c: seq<Enemy>, dist: nat -> real): (r: seq<Option<real>>)
    ensures |r| == |c| && forall i | 0 <= i < |c| :: r[i] == Some(Sq(dist(c[i].id)))
  {
    seq(|c|, i requires 0 <= i < |c| => Some(Sq(dist(c[i].id))))
  }

  function HealthScores(c: seq<Enemy>): (r: seq<Option<real>>)
    ensures |r| == |c| && forall i | 0 <= i < |c| :: r[i] == c[i].health
  {
    seq(|c|, i requires 0 <= i < |c| => c[i].health)
  }

  /** The candidate at a chosen position, if any. */
  function At(c: seq<Enemy>, k: Option<nat>): (r: Option<Enemy>)
    ensures r.Some? <==> k.Some? && k.value < |c|
    ensures r.Some? ==> r.value == c[k.value]
  {
    if k.Some? && k.value < |c| then Some(c[k.value]) else None
  }

  /** GetFirst: the first candidate of greatest progress; null when no
      progress exceeds the initial -1. */
  method GetFirst(c: seq<Enemy>) returns (target: Option<Enemy>)
    ensures target.Some? <==> exists i | 0 <= i < |c| :: Progress(c[i]) > -1.0
    ensures target == At(c, ArgMaxAbove(ProgressScores(c), -1.0))
  {
    var k := ScanMax(ProgressScores(c), -1.0);
    if k.Some? {
      FirstMaxAboveIsUnique(ProgressScores(c), -1.0, k.value, ArgMaxAbove(ProgressScores(c), -1.0).value);
    }
    target := if k.Some? then Some(c[k.value]) else None;
  }

  /** GetLast: the first candidate of least progress (the fallback to the
      first candidate is never needed, since every candidate has a progress). */
  method GetLast(c: seq<Enemy>) returns (target: Option<Enemy>)
    requires c != []
    ensures target.Some? && exists k: nat :: FirstMin(ProgressScores(c), k) && target.value == c[k]
    ensures target == At(c, ArgMin(ProgressScores(c)))
  {
    var k := ScanMin(ProgressScores(c));
    assert ProgressScores(c)[0].Some?;
    FirstMinIsUnique(ProgressScores(c), k.value, ArgMin(ProgressScores(c)).value);
    target := Some(c[k.value]);
  }

  /** GetClosest: the first candidate of least squared distance. */
  method GetClosest(c: seq<Enemy>, dist: nat -> real) returns (target: Option<Enemy>)
    requires c != []
    ensures target.Some? && exists k: nat :: FirstMin(SquaredDistances(c, dist), k) && target.value == c[k]
    ensures target == At(c, ArgMin(SquaredDistances(c, dist)))
  {
    var k := ScanMin(SquaredDistances(c, dist));
    assert SquaredDistances(c, dist)[0].Some?;
    FirstMinIsUnique(SquaredDistances(c, dist), k.value, ArgMin(SquaredDistances(c, dist)).value);
    target := Some(c[k.value]);
  }

  /** GetStrongest: the first candidate of greatest health above -1; null
      when no candidate has a health component. */
  method GetStrongest(c: seq<Enemy>) returns (target: Option<Enemy>)
    ensures target.Some? <==> exists i | 0 <= i < |c| :: c[i].health.Some? && c[i].health.value > -1.0
    ensures target == At(c, ArgMaxAbove(HealthScores(c), -1.0))
  {
    var k := ScanMax(HealthScores(c), -1.0);
    if k.Some? {
      FirstMaxAboveIsUnique(HealthScores(c), -1.0, k.value, ArgMaxAbove(HealthScores(c), -1.0).value);
    }
    if k.None? {
      forall i | 0 <= i < |c| && c[i].health.Some? ensures c[i].health.value <= -1.0 {
        assert HealthScores(c)[i] == c[i].health;
      }
    }
    target := if k.Some? then Some(c[k.value]) else None;
  }

  /** GetWeakest: the first candidate of least health, falling back to the
      first candidate when none has a health component. */
  method GetWeakest(c: seq<Enemy>) returns (target: Option<Enemy>)
    requires c != []
    ensures target.Some?
    ensures (forall i | 0 <= i < |c| :: c[i].health.None?) ==> target.value == c[0]
    ensures (exists i | 0 <= i < |c| :: c[i].health.Some?) ==>
              exists k: nat :: FirstMin(HealthScores(c), k) && target.value == c[k]
    ensures target == if ArgMin(HealthScores(c)).None? then Some(c[0]) else At(c, ArgMin(HealthScores(c)))
  {
    var k := ScanMin(HealthScores(c));
    if k.Some? {
      FirstMinIsUnique(HealthScores(c), k.value, ArgMin(HealthScores(c)).value);
    }
    if k.None? {
      forall i | 0 <= i < |c| ensures c[i].health.None? {
        assert HealthScores(c)[i] == c[i].health;
      }
    }
    target := if k.Some? then Some(c[k.value]) else Some(c[0]);
  }

  /** GetTarget: null without candidates; otherwise the rule of the target
      type applied to the candidates in range. */
  method GetTarget(s: seq<Enemy>, dist: nat -> real, range: real, t: TargetType, group: TargetGroup)
    returns (target: Option<Enemy>)
    ensures InRange(s, dist, range, group) == [] ==> target.None?
    ensures target.Some? ==> target.value in InRange(s, dist, range, group)
    ensures InRange(s, dist, range, group) != [] && (t == Last || t == Closest || t == Weakest) ==> target.Some?
    ensures var c := InRange(s, dist, range, group);
            c != [] && t == First ==> target == At(c, ArgMaxAbove(ProgressScores(c), -1.0))
    ensures var c := InRange(s, dist, range, group);
            c != [] && t == Last ==> target == At(c, ArgMin(ProgressScores(c)))
    ensures var c := InRange(s, dist, range, group);
            c != [] && t == Closest ==> target == At(c, ArgMin(SquaredDistances(c, dist)))
    ensures var c := InRange(s, dist, range, group);
            c != [] && t == Strongest ==> target == At(c, ArgMaxAbove(HealthScores(c), -1.0))
    ensures var c := InRange(s, dist, range, group);
            c != [] && t == Weakest ==>
              target == if ArgMin(HealthScores(c)).None? then Some(c[0]) else At(c, ArgMin(HealthScores(c)))
  {
    var c := InRange(s, dist, range, group);
    if c == [] {
      return None;
    }
    match t {
      case First => target := GetFirst(c);
      case Last => target := GetLast(c);
      case Closest => target := GetClosest(c, dist);
      case Strongest => target := GetStrongest(c);
      case Weakest => target := GetWeakest(c);
    }
  }

  /** With non-negative distances, the least squared distance is the least
      distance, so Closest is the nearest candidate. */
  lemma SquaredDistanceOrdersLikeDistance(a: real, b: real)
    requires 0.0 <= a && 0.0 <= b
    ensures Sq(a) < Sq(b) <==> a < b
  {
    if a < b {
      var p, q := ScaleMonotone(a, a, b);
      var q', r := ScaleStrict(b, a, b);
      assert q == q';
    } else {
      var p, q := ScaleMonotone(b, b, a);
      var q', r := ScaleMonotone(a, b, a);
      assert q == q';
    }
  }

  /** Scaling by a non-negative factor keeps a non-strict order; the two
      products are returned so callers can chain them. */
  lemma ScaleMonotone(k: real, x: real, y: real) returns (p: real, q: real)
    requires 0.0 <= k && x <= y
    ensures p == k * x && q == k * y && p <= q
  {
    p, q := k * x, k * y;
    assert q - p == k * (y - x);
  }

  /** Scaling by a positive factor keeps a strict order. */
  lemma ScaleStrict(k: real, x: real, y: real) returns (p: real, q: real)
    requires 0.0 < k && x < y
    ensures p == x * k && q == y * k && p < q
  {
    p, q := x * k, y * k;
    assert q - p == (y - x) * k;
  }
}

=== FILE: enemy_spawner.dfy ===
/** The enemy spawner (EnemySpawner.cs): choosing the start node and the
    target exit, and the wave counter. Timers, pooling and the spawned
    enemies' own start are not modelled here: a wave is the ordered list of
    spawn indices it issues. Distances between neighbouring nodes come from
    a caller-supplied step length. */
module Spawners {
  import opened Wrappers
  import opened Coords
  import opened PathGraph
  import opened SpawnPoints
  import opened Selection
  import PathCache
  import NodeGeneration

  /** The spawner's runtime state: its start node, its end node, the node
      its target transform stands for, the wave number (starting at 1), and
      the spawning and initialized flags. */
  datatype Spawner = Spawner(start: Option<Coord>, end: Option<Coord>, target: Option<Coord>, wave: int, spawning: bool, initialized: bool)

  /** A freshly created spawner. */
  function NewSpawner(): (r: Spawner)
    ensures r.wave == 1 && !r.spawning && !r.initialized && r.start.None? && r.end.None? && r.target.None?
  {
    Spawner(None, None, None, 1, false, false)
  }

  /** Waves only run on an initialized spawner, which knows its start node. */
  predicate Valid(s: Spawner) {
    (s.spawning ==> s.initialized) && (s.initialized ==> s.start.Some?)
  }

  /** A scene object the spawner resolves to a path node: its own PathNode
      component if it has one, else the generator's node at its cell. */
  datatype Located = Located(own: Option<Coord>, cell: Coord)

  /** `GetComponent<PathNode>() ?? GetPathNodeAtPosition(position)`. */
  function Resolve(g: Graph, generatorPresent: bool, at: Located): (r: Option<Coord>)
    ensures at.own.Some? ==> r == at.own
    ensures at.own.None? ==> (r.Some? <==> generatorPresent && at.cell in g)
    ensures at.own.None? && r.Some? ==> r.value == at.cell
  {
    if at.own.Some? then at.own else NodeGeneration.GetNodeAt(if generatorPresent then Some(g) else None, at.cell)
  }

  /** CalculatePathDistance: the summed step lengths between consecutive
      nodes, 0 for a route of fewer than two nodes. */
  function PathDistance(path: seq<Coord>, step: (Coord, Coord) -> real): (r: real)
    ensures |path| < 2 ==> r == 0.0
    ensures (forall i | 0 <= i < |path| - 1 :: step(path[i], path[i + 1]) >= 0.0) ==> r >= 0.0
    decreases |path|
  {
    if |path| < 2 then 0.0
    else
      assert forall i | 0 <= i < |path| - 2 :: step(path[1..][i], path[1..][i + 1]) == step(path[i + 1], path[i + 2]);
      step(path[0], path[1]) + PathDistance(path[1..], step)
  }

  /** The source's loop adds the steps from the front; extending a route by
      one node adds exactly the new step. */
  lemma {:induction false} PathDistanceAppend(path: seq<Coord>, x: Coord, step: (Coord, Coord) -> real)
    requires |path| >= 1
    ensures PathDistance(path + [x], step) == PathDistance(path, step) + step(path[|path| - 1], x)
    decreases |path|
  {
    if |path| == 1 {
      assert (path + [x])[1..] == [x];
    } else {
      assert (path + [x])[1..] == path[1..] + [x];
      PathDistanceAppend(path[1..], x, step);
    }
  }

  /** The score of each registered exit in FindClosestEndNode: the length
      of the route GetPath hands out, None for a null exit or one without a
      route. The cache threads through the GetPath calls in order. */
  function EndDistances(g: Graph, cache: PathCache.Cache, from: Coord, ends: seq<Coord>, step: (Coord, Coord) -> real): (r: (seq<Option<real>>, PathCache.Cache))
    requires WellFormed(g) && PathCache.CacheInv(g, cache)
    ensures |r.0| == |ends|
    ensures PathCache.CacheInv(g, r.1)
    ensures forall i | 0 <= i < |ends| :: r.0[i].Some? <==> ends[i] in g && Reachable(g, from, ends[i])
    ensures forall i | 0 <= i < |ends| && r.0[i].Some? ::
              exists p :: IsPath(g, p, from, ends[i]) && r.0[i].value == PathDistance(p, step)
    decreases |ends|
  {
    if ends == [] then ([], cache)
    else
      var head := EndDistance(g, cache, from, ends[0], step);
      var rest := EndDistances(g, head.1, from, ends[1..], step);
      var r := ([head.0] + rest.0, rest.1);
      assert forall i | 0 < i < |ends| :: r.0[i] == rest.0[i - 1] && ends[i] == ends[1..][i - 1];
      r
  }

  /** The score of one exit: the length of the non-empty route GetPath hands
      out, None for a null exit or one without a route. */
  function EndDistance(g: Graph, cache: PathCache.Cache, from: Coord, e: Coord, step: (Coord, Coord) -> real): (r: (Option<real>, PathCache.Cache))
    requires WellFormed(g) && PathCache.CacheInv(g, cache)
    ensures PathCache.CacheInv(g, r.1)
    ensures r.0.Some? <==> e in g && Reachable(g, from, e)
    ensures r.0.Some? ==> exists p :: IsPath(g, p, from, e) && r.0.value == PathDistance(p, step)
  {
    var got := if e in g then PathCache.GetPath(g, cache, from, e) else (None, cache);
    if got.0.Some? && got.0.value != [] then (Some(PathDistance(got.0.value, step)), got.1) else (None, got.1)
  }

  /** FindClosestEndNode: without Astar, or with no End nodes registered, it
      fails; otherwise it picks the first exit of least route distance among
      those with a route, and fails when there is none. */
  function FindClosestEndNode(g: Graph, cache: PathCache.Cache, from: Coord, astarPresent: bool, reg: Registry,
                              step: (Coord, Coord) -> real): (r: (Option<Coord>, PathCache.Cache))
    requires WellFormed(g) && PathCache.CacheInv(g, cache)
    ensures PathCache.CacheInv(g, r.1)
    ensures !astarPresent || Registered(reg, End) == [] ==> r == (None, cache)
    ensures r.0.Some? <==>
              astarPresent && exists j | 0 <= j < |Registered(reg, End)| ::
                Registered(reg, End)[j] in g && Reachable(g, from, Registered(reg, End)[j])
    ensures r.0.Some? ==> Reachable(g, from, r.0.value)
    ensures r.0.Some? ==> exists k: nat :: FirstMin(EndDistances(g, cache, from, Registered(reg, End), step).0, k)
                                          && r.0.value == Registered(reg, End)[k]
  {
    var ends := Registered(reg, End);
    if !astarPresent || ends == [] then (None, cache)
    else
      var d := EndDistances(g, cache, from, ends, step);
      var k := ArgMin(d.0);
      if k.None? then
        assert forall j | 0 <= j < |ends| :: d.0[j].None?;
        (None, d.1)
      else (Some(ends[k.value]), d.1)
  }

  /** The spawner's IsPathValid: Astar exists and GetPath finds a route. */
  function HasRoute(g: Graph, cache: PathCache.Cache, from: Coord, to: Coord, astarPresent: bool): (r: (bool, PathCache.Cache))
    requires WellFormed(g) && PathCache.CacheInv(g, cache)
    ensures PathCache.CacheInv(g, r.1)
    ensures r.0 <==> astarPresent && Reachable(g, from, to)
    ensures !astarPresent ==> r.1 == cache
  {
    if !astarPresent then (false, cache)
    else
      var got := PathCache.GetPath(g, cache, from, to);
      (got.0.Some? && got.0.value != [], got.1)
  }

  /** Some registered exit is live and reachable from `from`. */
  ghost predicate SomeExitReachable(g: Graph, from: Coord, reg: Registry) {
    exists j | 0 <= j < |Registered(reg, End)| :: Registered(reg, End)[j] in g && Reachable(g, from, Registered(reg, End)[j])
  }

  /** The assigned end node resolves to a node Astar can reach from `from`. */
  ghost predicate AssignedUsable(g: Graph, from: Coord, generatorPresent: bool, assignedEnd: Option<Located>, astarPresent: bool) {
    && assignedEnd.Some? && astarPresent
    && Resolve(g, generatorPresent, assignedEnd.value).Some?
    && Reachable(g, from, Resolve(g, generatorPresent, assignedEnd.value).value)
  }

  /** Option 1 of SetupEndNode: resolve the assigned end node, keep it as
      the end node, and accept it only when a route to it exists. */
  function TryAssignedEnd(s: Spawner, g: Graph, cache: PathCache.Cache, generatorPresent: bool, assignedEnd: Option<Located>,
                          astarPresent: bool): (r: (bool, Spawner, PathCache.Cache))
    requires WellFormed(g) && PathCache.CacheInv(g, cache)
    requires s.start.Some?
    ensures PathCache.CacheInv(g, r.2)
    ensures r.0 <==> AssignedUsable(g, s.start.value, generatorPresent, assignedEnd, astarPresent)
    ensures assignedEnd.None? ==> r == (false, s, cache)
    ensures assignedEnd.Some? ==> r.1.end == Resolve(g, generatorPresent, assignedEnd.value)
    ensures r.1 == s.(end := r.1.end, target := r.1.target)
    ensures r.0 ==> r.1.target == r.1.end
    ensures !r.0 ==> r.1.target == s.target
  {
    if assignedEnd.None? then (false, s, cache)
    else
      var s1 := s.(end := Resolve(g, generatorPresent, assignedEnd.value));
      if s1.end.None? then (false, s1, cache)
      else
        var c1 := HasRoute(g, cache, s.start.value, s1.end.value, astarPresent);
        if c1.0 then (true, s1.(target := s1.end), c1.1) else (false, s1, c1.1)
  }

  /** SetupEndNode. An assigned end node is resolved and kept (even when it
      is unusable); it becomes the target only when a route to it exists.
      Otherwise the closest reachable registered exit becomes the end and
      the target; when there is none the call fails and the target stays. */
  function SetupEndNode(s: Spawner, g: Graph, cache: PathCache.Cache, generatorPresent: bool, assignedEnd: Option<Located>,
                        astarPresent: bool, reg: Registry, step: (Coord, Coord) -> real): (r: (bool, Spawner, PathCache.Cache))
    requires WellFormed(g) && PathCache.CacheInv(g, cache)
    requires s.start.Some?
    ensures PathCache.CacheInv(g, r.2)
    ensures r.1.start == s.start && r.1.wave == s.wave && r.1.spawning == s.spawning && r.1.initialized == s.initialized
    ensures r.0 ==> r.1.end.Some? && r.1.target == r.1.end && Reachable(g, s.start.value, r.1.end.value)
    ensures AssignedUsable(g, s.start.value, generatorPresent, assignedEnd, astarPresent) ==>
              r.0 && r.1.end == Resolve(g, generatorPresent, assignedEnd.value)
    ensures r.0 && !AssignedUsable(g, s.start.value, generatorPresent, assignedEnd, astarPresent) ==>
              r.1.end.value in Registered(reg, End)
    ensures !r.0 ==> r.1.target == s.target
    ensures r.0 <==>
              AssignedUsable(g, s.start.value, generatorPresent, assignedEnd, astarPresent)
              || (astarPresent && SomeExitReachable(g, s.start.value, reg))
  {
    var first := TryAssignedEnd(s, g, cache, generatorPresent, assignedEnd, astarPresent);
    if first.0 then first
    else
      var closest := FindClosestEndNode(g, first.2, s.start.value, astarPresent, reg, step);
      if closest.0.Some? then (true, first.1.(end := closest.0, target := closest.0), closest.1)
      else (false, first.1, closest.1)
  }

  /** The inputs Init reads from the scene. */
  datatype Scene = Scene(g: Graph, generatorPresent: bool, here: Located, assignedEnd: Option<Located>,
                         astarPresent: bool, reg: Registry, step: (Coord, Coord) -> real, spawnOnStart: bool)

  /** Init. A spawner already initialized does nothing. Otherwise it
      resolves its start node; without one, or without a usable end node,
      it stays uninitialized. On success it is initialized and, when set to
      spawn on start, begins its wave loop (the returned count of loops
      started is then 1). */
  function Init(s: Spawner, cache: PathCache.Cache, sc: Scene): (r: (Spawner, PathCache.Cache, nat))
    requires WellFormed(sc.g) && PathCache.CacheInv(sc.g, cache)
    ensures PathCache.CacheInv(sc.g, r.1)
    ensures s.initialized ==> r == (s, cache, 0)
    ensures !s.initialized && Resolve(sc.g, sc.generatorPresent, sc.here).None? ==> !r.0.initialized && r.1 == cache
    ensures !s.initialized ==> r.0.start == Resolve(sc.g, sc.generatorPresent, sc.here) && r.0.wave == s.wave
    ensures !s.initialized && r.0.initialized ==>
              r.0.end.Some? && r.0.target == r.0.end && Reachable(sc.g, r.0.start.value, r.0.end.value)
    ensures r.2 <= 1 && (r.2 == 1 <==> !s.initialized && r.0.initialized && sc.spawnOnStart)
    ensures !s.initialized ==> (r.0.spawning <==> s.spawning || r.2 == 1)
    ensures Valid(s) ==> Valid(r.0)
  {
    if s.initialized then (s, cache, 0)
    else
      var start := Resolve(sc.g, sc.generatorPresent, sc.here);
      var s1 := s.(start := start);
      if start.None? then (s1, cache, 0)
      else
        var setup := SetupEndNode(s1, sc.g, cache, sc.generatorPresent, sc.assignedEnd, sc.astarPresent, sc.reg, sc.step);
        if !setup.0 then (setup.1, setup.2, 0)
        else if sc.spawnOnStart then (setup.1.(initialized := true, spawning := true), setup.2, 1)
        else (setup.1.(initialized := true), setup.2, 0)
  }

  /** TriggerSpawn: initialize if needed, then start the wave loop only
      when initialized and not already spawning. Across both steps at most
      one wave loop is started, and none when one was already running. */
  function TriggerSpawn(s: Spawner, cache: PathCache.Cache, sc: Scene): (r: (Spawner, PathCache.Cache, nat))
    requires WellFormed(sc.g) && PathCache.CacheInv(sc.g, cache)
    ensures PathCache.CacheInv(sc.g, r.1)
    ensures r.2 <= 1
    ensures Valid(s) && s.spawning ==> r.2 == 0
    ensures Valid(s) ==> (r.2 == 1 <==> !s.spawning && r.0.initialized)
    ensures r.0.spawning <==> s.spawning || r.0.initialized
    ensures s.initialized ==> r.1 == cache && r.0 == s.(spawning := true)
    ensures Valid(s) ==> Valid(r.0)
  {
    var init := if s.initialized then (s, cache, 0) else Init(s, cache, sc);
    if !init.0.spawning && init.0.initialized then (init.0.(spawning := true), init.1, init.2 + 1)
    else init
  }

  /** StopSpawning: the wave loop ends; the wave number stays. */
  function StopSpawning(s: Spawner): (r: Spawner)
    ensures !r.spawning && r.wave == s.wave && r.initialized == s.initialized
    ensures Valid(s) ==> Valid(r)
  {
    s.(spawning := false)
  }

  /** RecalculatePath: an initialized spawner re-chooses its end node; an
      uninitialized one does nothing. */
  function RecalculatePath(s: Spawner, cache: PathCache.Cache, sc: Scene): (r: (Spawner, PathCache.Cache))
    requires WellFormed(sc.g) && PathCache.CacheInv(sc.g, cache)
    requires Valid(s)
    ensures PathCache.CacheInv(sc.g, r.1)
    ensures !s.initialized ==> r == (s, cache)
    ensures Valid(r.0) && r.0.start == s.start && r.0.wave == s.wave
  {
    if !s.initialized then (s, cache)
    else
      var setup := SetupEndNode(s, sc.g, cache, sc.generatorPresent, sc.assignedEnd, sc.astarPresent, sc.reg, sc.step);
      (setup.1, setup.2)
  }

  /** SetEndNode: the assigned end node is replaced; an initialized spawner
      then re-chooses its end node with the new assignment, an uninitialized
      one only remembers it for Init. The scene is returned with the new
      assignment. */
  function SetEndNode(s: Spawner, cache: PathCache.Cache, sc: Scene, newEnd: Option<Located>): (r: (Spawner, PathCache.Cache, Scene))
    requires WellFormed(sc.g) && PathCache.CacheInv(sc.g, cache)
    requires Valid(s)
    ensures r.2 == sc.(assignedEnd := newEnd)
    ensures PathCache.CacheInv(sc.g, r.1)
    ensures !s.initialized ==> r.0 == s && r.1 == cache
    ensures Valid(r.0) && r.0.start == s.start && r.0.wave == s.wave && r.0.initialized == s.initialized
    ensures s.initialized && AssignedUsable(sc.g, s.start.value, sc.generatorPresent, newEnd, sc.astarPresent) ==>
              r.0.end == Resolve(sc.g, sc.generatorPresent, newEnd.value) && r.0.target == r.0.end
  {
    var sc' := sc.(assignedEnd := newEnd);
    if !s.initialized then (s, cache, sc')
    else
      var setup := SetupEndNode(s, sc'.g, cache, sc'.generatorPresent, sc'.assignedEnd, sc'.astarPresent, sc'.reg, sc'.step);
      (setup.1, setup.2, sc')
  }

  /** The indices 0 .. n - 1 in order (none for n <= 0). */
  function Indices(n: int): (r: seq<nat>)
    ensures |r| == (if n > 0 then n else 0)
    ensures forall i | 0 <= i < |r| :: r[i] == i
    decreases if n > 0 then n else 0
  {
    if n <= 0 then [] else Indices(n - 1) + [n - 1]
  }

  /** One pass of the wave loop: SpawnEnemy is called for indices 0 ..
      enemiesToSpawn - 1 in order, then the wave number rises by one. */
  function SpawnWave(s: Spawner, enemiesToSpawn: int): (r: (Spawner, seq<nat>))
    ensures r.0 == s.(wave := s.wave + 1)
    ensures |r.1| == (if enemiesToSpawn > 0 then enemiesToSpawn else 0)
    ensures forall i | 0 <= i < |r.1| :: r.1[i] == i
  {
    (s.(wave := s.wave + 1), Indices(enemiesToSpawn))
  }

  /** `n` passes of the wave loop, with the number of spawn calls issued. */
  function RunWaves(s: Spawner, enemiesToSpawn: int, n: nat): (r: (Spawner, nat))
    ensures r.0 == s.(wave := s.wave + n)
    ensures r.1 == n * (if enemiesToSpawn > 0 then enemiesToSpawn else 0)
    decreases n
  {
    if n == 0 then (s, 0)
    else
      var one := SpawnWave(s, enemiesToSpawn);
      var rest := RunWaves(one.0, enemiesToSpawn, n - 1);
      var per := if enemiesToSpawn > 0 then enemiesToSpawn else 0;
      assert (n - 1) * per + per == n * per;
      (rest.0, |one.1| + rest.1)
  }
}

=== FILE: grid_generator.dfy ===
/** The stand-alone array generator (GridGenerator.cs): a width x height array
    of PathNodes, linked to their in-bounds 4-neighbours by index arithmetic
    rather than by dictionary look-up. The array is represented by the arena
    restricted to the rectangle. */
module ArrayGrid {
  import opened Wrappers
  import opened Coords
  import opened PathGraph
  import NodeGeneration

  /** GenerateGrid: one fresh walkable node per cell, registered with A* in the
      nested x-then-y loop order. A negative dimension makes the array
      allocation throw, modelled as `None`. */
  function GenerateGrid(width: int, height: int): (r: Option<(Graph, seq<Coord>)>)
    ensures r.None? <==> width < 0 || height < 0
    ensures r.Some? ==> forall c :: c in r.value.0 <==> InBounds(width, height, c)
    ensures r.Some? ==> forall c | c in r.value.0 :: r.value.0[c] == FreshNode()
    ensures r.Some? ==> NoDup(r.value.1) && forall c :: c in r.value.1 <==> c in r.value.0
    ensures r.Some? ==> |r.value.1| == width * height
    ensures r.Some? ==> r.value.1 == XMajor(width, height)
  {
    if width < 0 || height < 0 then None
    else Some((map c | c in Rect(width, height) :: FreshNode(), XMajor(width, height)))
  }

  /** The neighbour list GridGenerator builds by bounds checks: west if x > 0,
      east if x < width - 1, south if y > 0, north if y < height - 1. */
  function BoundedAround(width: int, height: int, c: Coord): (r: seq<Coord>)
    ensures InBounds(width, height, c) ==> forall d | d in r :: InBounds(width, height, d) && Adjacent(c, d)
  {
    (if c.0 > 0 then [(c.0 - 1, c.1)] else [])
    + ((if c.0 < width - 1 then [(c.0 + 1, c.1)] else [])
    + ((if c.1 > 0 then [(c.0, c.1 - 1)] else [])
    + (if c.1 < height - 1 then [(c.0, c.1 + 1)] else [])))
  }

  /** LinkNeighbors over the array: each node's list is cleared and refilled
      with its in-bounds neighbours; walkability is left alone. */
  function LinkNeighbors(width: int, height: int, g: Graph): (r: Graph)
    requires forall c :: c in g <==> InBounds(width, height, c)
    ensures r.Keys == g.Keys
    ensures forall c | c in r :: r[c].walkable == g[c].walkable
    ensures forall c, d | c in r && d in r[c].neighbours :: InBounds(width, height, d) && Adjacent(c, d)
  {
    map c | c in g :: Node(g[c].walkable, BoundedAround(width, height, c))
  }

  /** On a full rectangle the array generator links exactly as the dictionary
      generator does: the bounds checks pick the same candidates, in the same
      west, east, south, north order. */
  lemma SameLinksAsDictionaryGenerator(width: int, height: int, g: Graph)
    requires forall c :: c in g <==> InBounds(width, height, c)
    ensures LinkNeighbors(width, height, g) == NodeGeneration.LinkNeighbors(g)
  {
    var a, b := LinkNeighbors(width, height, g), NodeGeneration.LinkNeighbors(g);
    assert a.Keys == b.Keys;
    forall c | c in g ensures a[c] == b[c] {
      SameCandidates(width, height, g, c);
    }
    GraphExtensionality(a, b);
  }

  /** At one node, the bounds checks keep exactly the candidates that exist. */
  lemma SameCandidates(width: int, height: int, g: Graph, c: Coord)
    requires forall c :: c in g <==> InBounds(width, height, c)
    requires c in g
    ensures BoundedAround(width, height, c) == NodeGeneration.Keep(g.Keys, Around(c))
  {
    var a := Around(c);
    assert a[0] in g <==> c.0 > 0;
    assert a[1] in g <==> c.0 < width - 1;
    assert a[2] in g <==> c.1 > 0;
    assert a[3] in g <==> c.1 < height - 1;
    KeepFour(g.Keys, a);
  }

  /** Keep unrolled on a four-element candidate list. */
  lemma KeepFour(keys: set<Coord>, a: seq<Coord>)
    requires |a| == 4
    ensures NodeGeneration.Keep(keys, a)
         == NodeGeneration.KeepOne(keys, a[0]) + (NodeGeneration.KeepOne(keys, a[1])
          + (NodeGeneration.KeepOne(keys, a[2]) + NodeGeneration.KeepOne(keys, a[3])))
  {
    var t1, t2, t3 := a[1..], a[2..], a[3..];
    assert t1[0] == a[1] && t1[1..] == t2;
    assert t2[0] == a[2] && t2[1..] == t3;
    assert t3[0] == a[3] && t3[1..] == [];
    var k3 := NodeGeneration.Keep(keys, t3);
    KeepUnfold(keys, t3);
    assert k3 == NodeGeneration.KeepOne(keys, a[3]);
    var k2 := NodeGeneration.Keep(keys, t2);
    KeepUnfold(keys, t2);
    assert k2 == NodeGeneration.KeepOne(keys, a[2]) + k3;
    var k1 := NodeGeneration.Keep(keys, t1);
    KeepUnfold(keys, t1);
    assert k1 == NodeGeneration.KeepOne(keys, a[1]) + k2;
    KeepUnfold(keys, a);
  }

  /** One step of Keep: the head's contribution followed by the tail's. */
  lemma KeepUnfold(keys: set<Coord>, s: seq<Coord>)
    requires s != []
    ensures NodeGeneration.Keep(keys, s) == NodeGeneration.KeepOne(keys, s[0]) + NodeGeneration.Keep(keys, s[1..])
  {
  }

  /** An inner node has four neighbours, a node on one border three, a corner
      node two (for grids at least two cells wide and tall). */
  lemma NeighbourCount(width: int, height: int, g: Graph, c: Coord)
    requires forall c :: c in g <==> InBounds(width, height, c)
    requires width >= 2 && height >= 2
    requires c in g
    ensures var borders := (if c.0 == 0 || c.0 == width - 1 then 1 else 0) + (if c.1 == 0 || c.1 == height - 1 then 1 else 0);
            |LinkNeighbors(width, height, g)[c].neighbours| == 4 - borders
  {
  }

  /** The array-generated, linked grid is a well-formed arena whose links are symmetric. */
  lemma LinkedArrayIsSymmetric(width: int, height: int, g: Graph)
    requires forall c :: c in g <==> InBounds(width, height, c)
    ensures WellFormed(LinkNeighbors(width, height, g))
    ensures forall c, d | c in g && d in LinkNeighbors(width, height, g)[c].neighbours ::
              d in g && c in LinkNeighbors(width, height, g)[d].neighbours
  {
    SameLinksAsDictionaryGenerator(width, height, g);
    NodeGeneration.LinkedGraphShape(g);
    forall c | c in g
      ensures forall d | d in LinkNeighbors(width, height, g)[c].neighbours ::
                d in g && c in LinkNeighbors(width, height, g)[d].neighbours
    {
      NodeGeneration.LinksAreSymmetric(g, c);
    }
  }

  /** GetNodeAt: the node at (x, y), or null outside the array bounds. */
  function GetNodeAt(width: int, height: int, x: int, y: int): (r: Option<Coord>)
    ensures r.Some? <==> InBounds(width, height, (x, y))
    ensures r.Some? ==> r.value == (x, y)
  {
    if x < 0 || y < 0 || x >= width || y >= height then None else Some((x, y))
  }
}

=== FILE: grid_manager.dfy ===
/** The logical build grid (GridManager.cs, GridNode.cs): one cell per integer
    coordinate of a width x height rectangle, each with an occupancy flag that
    tower placement sets. World positions are reals; floating-point rounding is
    not modelled. */
module Grid {
  import opened Wrappers
  import opened Coords

  /** A world-space position (Unity's Vector3). */
  datatype Vec3 = Vec3(x: real, y: real, z: real)

  /** One GridNode: its coordinate, its world position and whether a tower stands on it. */
  datatype Cell = Cell(coords: Coord, worldPos: Vec3, occupied: bool)

  type Cells = map<Coord, Cell>

  /** The world position of a cell's bottom-left corner, on the ground plane. */
  function GridToWorld(c: Coord, cellSize: real): (r: Vec3)
    ensures r.y == 0.0
    ensures r.x == c.0 as real * cellSize && r.z == c.1 as real * cellSize
  {
    Vec3(c.0 as real * cellSize, 0.0, c.1 as real * cellSize)
  }

  /** The cell containing a world position: floor of each horizontal coordinate over the cell size. */
  function WorldToGrid(w: Vec3, cellSize: real): (r: Coord)
    requires cellSize != 0.0
    ensures r.0 as real <= w.x / cellSize < r.0 as real + 1.0
    ensures r.1 as real <= w.z / cellSize < r.1 as real + 1.0
  {
    ((w.x / cellSize).Floor, (w.z / cellSize).Floor)
  }

  /** Mapping a cell corner to the world and back yields the same cell. */
  lemma WorldToGridInvertsGridToWorld(c: Coord, cellSize: real)
    requires cellSize != 0.0
    ensures WorldToGrid(GridToWorld(c, cellSize), cellSize) == c
  {
    var w := GridToWorld(c, cellSize);
    assert w.x / cellSize == c.0 as real;
    assert w.z / cellSize == c.1 as real;
  }

  /** The centre of a cell (corner plus half a cell, as placement and map loading use) maps back to that cell. */
  lemma WorldToGridOfCellCentre(c: Coord, cellSize: real, y: real)
    requires cellSize != 0.0
    ensures WorldToGrid(Vec3(c.0 as real * cellSize + cellSize / 2.0, y, c.1 as real * cellSize + cellSize / 2.0), cellSize) == c
  {
    CentreOverSize(c.0, cellSize);
    CentreOverSize(c.1, cellSize);
  }

  /** Dividing a cell centre by the cell size gives a value whose floor is the cell index. */
  lemma CentreOverSize(k: int, cellSize: real)
    requires cellSize != 0.0
    ensures ((k as real * cellSize + cellSize / 2.0) / cellSize).Floor == k
  {
    var a := k as real + 0.5;
    CentreIsScaled(k, cellSize);
    ScaledBack(a, cellSize);
    assert (k as real * cellSize + cellSize / 2.0) / cellSize == a;
  }

  lemma CentreIsScaled(k: int, s: real)
    ensures k as real * s + s / 2.0 == (k as real + 0.5) * s
  {
  }

  lemma ScaledBack(a: real, s: real)
    requires s != 0.0
    ensures (a * s) / s == a
  {
  }

  /** Awake's GenerateGrid on the empty dictionary: one unoccupied cell per
      coordinate of the rectangle, placed at its world corner. A non-positive
      width or height gives no cells. */
  function GenerateGrid(width: int, height: int, cellSize: real): (r: Cells)
    ensures forall c :: c in r <==> InBounds(width, height, c)
    ensures forall c | c in r :: r[c].coords == c && !r[c].occupied
    ensures forall c | c in r :: r[c].worldPos == GridToWorld(c, cellSize)
  {
    map c | c in Rect(width, height) :: Cell(c, GridToWorld(c, cellSize), false)
  }

  /** TryGetValue on the cell dictionary. */
  function TryGetNode(cells: Cells, c: Coord): (r: Option<Cell>)
    ensures r.Some? <==> c in cells
    ensures r.Some? ==> r.value == cells[c]
  {
    if c in cells then Some(cells[c]) else None
  }

  /** A coordinate outside the grid is never occupied. */
  predicate IsCellOccupied(cells: Cells, c: Coord) {
    c in cells && cells[c].occupied
  }

  /** Set a cell's occupancy; a coordinate outside the grid is ignored. */
  function SetCellOccupied(cells: Cells, c: Coord, value: bool): (r: Cells)
    ensures r.Keys == cells.Keys
    ensures forall d | d in cells && d != c :: r[d] == cells[d]
    ensures c in cells ==> r[c] == cells[c].(occupied := value)
  {
    if c in cells then cells[c := cells[c].(occupied := value)] else cells
  }

  /** Occupancy reads back what was last written inside the grid, stays false
      outside it, and writing leaves every other cell's occupancy alone. */
  lemma OccupiedReadsBackWrite(cells: Cells, c: Coord, value: bool, d: Coord)
    ensures IsCellOccupied(SetCellOccupied(cells, c, value), c) <==> (c in cells && value)
    ensures d != c ==> (IsCellOccupied(SetCellOccupied(cells, c, value), d) <==> IsCellOccupied(cells, d))
  {
  }

  /** A freshly generated grid has no occupied cell. */
  lemma GeneratedGridIsEmpty(width: int, height: int, cellSize: real, c: Coord)
    ensures !IsCellOccupied(GenerateGrid(width, height, cellSize), c)
  {
  }
}

=== FILE: grid_map_editor.dfy ===
/** The grid map editor's editing rules (W_GridMapEditor.cs): the square
    brush, erasing, and resizing with clean-up of everything that falls
    outside the new bounds. The IMGUI drawing, Undo and asset handling are
    left out. */
module MapEditor {
  import opened Wrappers
  import opened Coords
  import opened Maps

  const MinBrush: int := 1
  const MaxBrush: int := 5

  /** IntSlider(brushSize, 1, 5): the brush size is confined to 1..5. */
  function ClampBrush(v: int): (r: int)
    ensures MinBrush <= r <= MaxBrush
    ensures MinBrush <= v <= MaxBrush ==> r == v
    ensures v < MinBrush ==> r == MinBrush
    ensures v > MaxBrush ==> r == MaxBrush
  {
    if v < MinBrush then MinBrush else if v > MaxBrush then MaxBrush else v
  }

  /** `c` lies in the (2 * size - 1)-wide square centred on `center`. */
  predicate InSquare(center: Coord, size: int, c: Coord) {
    -size + 1 <= c.0 - center.0 < size && -size + 1 <= c.1 - center.1 < size
  }

  /** The cells a stroke has covered: the part of the square the nested
      loops have passed (columns before `dx`, and in column `dx` the rows
      before `dy`), or the whole square. */
  datatype Region = Partial(center: Coord, size: int, dx: int, dy: int) | Square(center: Coord, size: int)

  predicate Covers(reg: Region, c: Coord) {
    InSquare(reg.center, reg.size, c)
    && match reg
       case Square(_, _) => true
       case Partial(center, _, dx, dy) => c.0 - center.0 < dx || (c.0 - center.0 == dx && c.1 - center.1 < dy)
  }

  /** What a brush stroke with type `t` leaves at each coordinate, given the
      region it has covered so far. */
  ghost predicate Stroked(m: MapData, cur: MapData, t: TileType, reg: Region) {
    cur.width == m.width && cur.height == m.height && cur.cellSize == m.cellSize
    && TilesStroked(m, cur, t, reg) && PointsStroked(m, cur, t, reg)
  }

  /** Covered in-bounds cells hold a tile of type `t`; every other lookup is as before. */
  ghost predicate TilesStroked(m: MapData, cur: MapData, t: TileType, reg: Region) {
    (forall c {:trigger GetTile(cur, c)} :: GetTile(cur, c) == if InBounds(m.width, m.height, c) && Covers(reg, c) then Some(TileData(c, t)) else GetTile(m, c))
    && (UniqueTiles(m.tiles) ==> UniqueTiles(cur.tiles))
  }

  /** Covered in-bounds cells are spawn or exit points exactly when `t` says
      so; every other point is as before. */
  ghost predicate PointsStroked(m: MapData, cur: MapData, t: TileType, reg: Region) {
    (forall d | !(InBounds(m.width, m.height, d) && Covers(reg, d)) ::
       (d in cur.spawnPoints <==> d in m.spawnPoints) && (d in cur.exitPoints <==> d in m.exitPoints))
    && (NoDup(m.spawnPoints) && NoDup(m.exitPoints) ==>
          NoDup(cur.spawnPoints) && NoDup(cur.exitPoints)
          && forall d | InBounds(m.width, m.height, d) && Covers(reg, d) ::
               (d in cur.spawnPoints <==> t == Spawn) && (d in cur.exitPoints <==> t == Exit))
  }

  /** The body of the inner loop: SetTile on the cell when it is in bounds. */
  function PaintCell(cur: MapData, c: Coord, t: TileType): MapData {
    if InBounds(cur.width, cur.height, c) then SetTile(cur, c, t) else cur
  }

  /** One step of the inner loop: the cell at offset (dx, dy) joins the
      covered region, and SetTile is applied to it when it is in bounds. */
  lemma StrokeStep(m: MapData, cur: MapData, t: TileType, center: Coord, size: int, dx: int, dy: int)
    requires Stroked(m, cur, t, Partial(center, size, dx, dy))
    requires -size + 1 <= dx < size && -size + 1 <= dy < size
    ensures Stroked(m, PaintCell(cur, (center.0 + dx, center.1 + dy), t), t, Partial(center, size, dx, dy + 1))
  {
    var c := (center.0 + dx, center.1 + dy);
    var before, after := Partial(center, size, dx, dy), Partial(center, size, dx, dy + 1);
    assert forall d :: Covers(after, d) == (Covers(before, d) || d == c);
    if InBounds(cur.width, cur.height, c) {
      var next := SetTile(cur, c, t);
      TilesStep(m, cur, next, t, before, after, c);
      PointsStep(m, cur, next, t, before, after, c);
    } else {
      assert forall d | InBounds(m.width, m.height, d) :: Covers(after, d) == Covers(before, d);
    }
  }

  lemma TilesStep(m: MapData, cur: MapData, next: MapData, t: TileType, before: Region, after: Region, c: Coord)
    requires TilesStroked(m, cur, t, before)
    requires forall d :: Covers(after, d) == (Covers(before, d) || d == c)
    requires InBounds(m.width, m.height, c) && next == SetTile(cur, c, t)
    ensures TilesStroked(m, next, t, after)
  {
  }

  lemma PointsStep(m: MapData, cur: MapData, next: MapData, t: TileType, before: Region, after: Region, c: Coord)
    requires PointsStroked(m, cur, t, before)
    requires forall d :: Covers(after, d) == (Covers(before, d) || d == c)
    requires InBounds(m.width, m.height, c) && next == SetTile(cur, c, t)
    ensures PointsStroked(m, next, t, after)
  {
  }

  /** Finishing a column is starting the next one. */
  lemma NextColumn(m: MapData, cur: MapData, t: TileType, center: Coord, size: int, dx: int)
    requires Stroked(m, cur, t, Partial(center, size, dx, size))
    ensures Stroked(m, cur, t, Partial(center, size, dx + 1, -size + 1))
  {
    assert forall d :: Covers(Partial(center, size, dx, size), d) == Covers(Partial(center, size, dx + 1, -size + 1), d);
  }

  /** After the last column the whole square is covered. */
  lemma LastColumn(m: MapData, cur: MapData, t: TileType, center: Coord, size: int, dx: int)
    requires Stroked(m, cur, t, Partial(center, size, dx, -size + 1))
    requires dx >= size
    ensures Stroked(m, cur, t, Square(center, size))
  {
    assert forall d :: Covers(Partial(center, size, dx, -size + 1), d) == Covers(Square(center, size), d);
  }

  /** The nested dx/dy loops of PaintTile and EraseTile: SetTile(c, t) on every
      in-bounds cell of the square. */
  method Brush(m: MapData, center: Coord, size: int, t: TileType) returns (r: MapData)
    ensures Stroked(m, r, t, Square(center, size))
  {
    r := m;
    var dx := -size + 1;
    while dx < size
      invariant -size + 1 <= dx
      invariant Stroked(m, r, t, Partial(center, size, dx, -size + 1))
      decreases size - dx
    {
      r := BrushColumn(m, r, center, size, dx, t);
      NextColumn(m, r, t, center, size, dx);
      dx := dx + 1;
    }
    LastColumn(m, r, t, center, size, dx);
  }

  /** The inner dy loop of the brush: one column of the square. */
  method BrushColumn(m: MapData, cur: MapData, center: Coord, size: int, dx: int, t: TileType) returns (r: MapData)
    requires -size + 1 <= dx < size
    requires Stroked(m, cur, t, Partial(center, size, dx, -size + 1))
    ensures Stroked(m, r, t, Partial(center, size, dx, size))
  {
    r := cur;
    var dy := -size + 1;
    while dy < size
      invariant -size + 1 <= dy <= size
      invariant Stroked(m, r, t, Partial(center, size, dx, dy))
      decreases size - dy
    {
      StrokeStep(m, r, t, center, size, dx, dy);
      r := PaintCell(r, (center.0 + dx, center.1 + dy), t);
      dy := dy + 1;
    }
  }

  /** PaintTile: the selected brush type on every in-bounds cell of the square. */
  method PaintTile(m: MapData, center: Coord, brushSize: int, brush: TileType) returns (r: MapData)
    ensures forall c :: GetTile(r, c) ==
              if InBounds(m.width, m.height, c) && InSquare(center, brushSize, c) then Some(TileData(c, brush)) else GetTile(m, c)
    ensures r.width == m.width && r.height == m.height
    ensures UniqueTiles(m.tiles) ==> UniqueTiles(r.tiles)
    ensures forall d | !(InBounds(m.width, m.height, d) && InSquare(center, brushSize, d)) ::
              (d in r.spawnPoints <==> d in m.spawnPoints) && (d in r.exitPoints <==> d in m.exitPoints)
    ensures NoDup(m.spawnPoints) && NoDup(m.exitPoints) ==>
              NoDup(r.spawnPoints) && NoDup(r.exitPoints)
              && forall d | InBounds(m.width, m.height, d) && InSquare(center, brushSize, d) ::
                   (d in r.spawnPoints <==> brush == Spawn) && (d in r.exitPoints <==> brush == Exit)
  {
    r := Brush(m, center, brushSize, brush);
  }

  /** EraseTile: Empty on every in-bounds cell of the same square; spawn and
      exit points under it are dropped. */
  method EraseTile(m: MapData, center: Coord, brushSize: int) returns (r: MapData)
    ensures forall c :: GetTile(r, c) ==
              if InBounds(m.width, m.height, c) && InSquare(center, brushSize, c) then Some(TileData(c, Empty)) else GetTile(m, c)
    ensures NoDup(m.spawnPoints) && NoDup(m.exitPoints) ==>
              forall d | InBounds(m.width, m.height, d) && InSquare(center, brushSize, d) :: d !in r.spawnPoints && d !in r.exitPoints
    ensures forall d | !(InBounds(m.width, m.height, d) && InSquare(center, brushSize, d)) ::
              (d in r.spawnPoints <==> d in m.spawnPoints) && (d in r.exitPoints <==> d in m.exitPoints)
  {
    r := Brush(m, center, brushSize, Empty);
  }

  /** The brush square holds (2 * size - 1)^2 cells: along each axis exactly
      the offsets -size+1 .. size-1. */
  lemma SquareExtent(center: Coord, size: int, c: Coord)
    ensures InSquare(center, size, c) <==> Abs(c.0 - center.0) <= size - 1 && Abs(c.1 - center.1) <= size - 1
  {
  }

  function Abs(x: int): int { if x < 0 then -x else x }

  /** List.RemoveAll over the tiles, keeping those inside the bounds, in order. */
  function KeepTilesIn(tiles: seq<TileData>, w: int, h: int): (r: seq<TileData>)
    ensures |r| <= |tiles|
    ensures forall i | 0 <= i < |r| :: InBounds(w, h, r[i].coords) && r[i] in tiles
    decreases |tiles|
  {
    if tiles == [] then []
    else
      var rest := KeepTilesIn(tiles[1..], w, h);
      if InBounds(w, h, tiles[0].coords) then [tiles[0]] + rest else rest
  }

  /** Filtering by bounds does not change which tile an in-bounds lookup finds. */
  lemma {:induction false} KeepTilesFinds(tiles: seq<TileData>, w: int, h: int, c: Coord)
    requires InBounds(w, h, c)
    ensures var r := KeepTilesIn(tiles, w, h);
            FindTile(r, c).Some? == FindTile(tiles, c).Some?
            && (FindTile(r, c).Some? ==> r[FindTile(r, c).value] == tiles[FindTile(tiles, c).value])
    decreases |tiles|
  {
    if tiles != [] {
      KeepTilesFinds(tiles[1..], w, h, c);
      var rest := KeepTilesIn(tiles[1..], w, h);
      if tiles[0].coords != c {
        if InBounds(w, h, tiles[0].coords) {
          FindShift(tiles[0], rest, c);
        }
        FindShift(tiles[0], tiles[1..], c);
        assert tiles == [tiles[0]] + tiles[1..];
      }
    }
  }

  /** Filtering keeps coordinates unique. */
  lemma {:induction false} KeepTilesUnique(tiles: seq<TileData>, w: int, h: int)
    requires UniqueTiles(tiles)
    ensures UniqueTiles(KeepTilesIn(tiles, w, h))
    decreases |tiles|
  {
    if tiles != [] {
      assert UniqueTiles(tiles[1..]) by {
        forall i, j | 0 <= i < j < |tiles[1..]| ensures tiles[1..][i].coords != tiles[1..][j].coords {
          assert tiles[1..][i] == tiles[i + 1] && tiles[1..][j] == tiles[j + 1];
        }
      }
      KeepTilesUnique(tiles[1..], w, h);
      var rest := KeepTilesIn(tiles[1..], w, h);
      forall j | 0 <= j < |rest| ensures rest[j].coords != tiles[0].coords {
        var k :| 0 <= k < |tiles[1..]| && tiles[1..][k] == rest[j];
        assert tiles[1..][k] == tiles[k + 1];
      }
    }
  }

  /** Prepending a tile at another coordinate shifts the found position by one. */
  lemma FindShift(t: TileData, s: seq<TileData>, c: Coord)
    requires t.coords != c
    ensures FindTile([t] + s, c).Some? == FindTile(s, c).Some?
    ensures FindTile(s, c).Some? ==> FindTile([t] + s, c).value == FindTile(s, c).value + 1
  {
    assert ([t] + s)[1..] == s;
  }

  /** List.RemoveAll over points, keeping those inside the bounds, in order. */
  function KeepPointsIn(s: seq<Coord>, w: int, h: int): (r: seq<Coord>)
    ensures |r| <= |s|
    ensures forall d :: d in r <==> d in s && InBounds(w, h, d)
    ensures NoDup(s) ==> NoDup(r)
    decreases |s|
  {
    if s == [] then []
    else
      var rest := KeepPointsIn(s[1..], w, h);
      assert forall d | d in s :: d == s[0] || d in s[1..];
      assert NoDup(s) ==> NoDup(s[1..]) && s[0] !in s[1..] by {
        if NoDup(s) {
          forall j | 0 <= j < |s[1..]| ensures s[1..][j] != s[0] {
            assert s[1..][j] == s[j + 1];
          }
        }
      }
      if InBounds(w, h, s[0]) then [s[0]] + rest else rest
  }

  /** CleanupOutOfBoundsTiles: exactly the tiles, spawn points and exit
      points outside [0, width) x [0, height) disappear. */
  function CleanupOutOfBoundsTiles(m: MapData): (r: MapData)
    ensures forall c :: GetTile(r, c) == if InBounds(m.width, m.height, c) then GetTile(m, c) else None
    ensures forall d :: (d in r.spawnPoints <==> d in m.spawnPoints && InBounds(m.width, m.height, d))
                     && (d in r.exitPoints <==> d in m.exitPoints && InBounds(m.width, m.height, d))
    ensures UniqueTiles(m.tiles) ==> UniqueTiles(r.tiles)
    ensures NoDup(m.spawnPoints) ==> NoDup(r.spawnPoints)
    ensures NoDup(m.exitPoints) ==> NoDup(r.exitPoints)
    ensures r.width == m.width && r.height == m.height
  {
    var r := m.(tiles := KeepTilesIn(m.tiles, m.width, m.height),
                spawnPoints := KeepPointsIn(m.spawnPoints, m.width, m.height),
                exitPoints := KeepPointsIn(m.exitPoints, m.width, m.height));
    CleanupLookups(m, r);
    r
  }

  lemma CleanupLookups(m: MapData, r: MapData)
    requires r.tiles == KeepTilesIn(m.tiles, m.width, m.height)
    ensures forall c :: GetTile(r, c) == if InBounds(m.width, m.height, c) then GetTile(m, c) else None
    ensures UniqueTiles(m.tiles) ==> UniqueTiles(r.tiles)
  {
    forall c ensures GetTile(r, c) == if InBounds(m.width, m.height, c) then GetTile(m, c) else None {
      if InBounds(m.width, m.height, c) {
        KeepTilesFinds(m.tiles, m.width, m.height, c);
      } else {
        forall j | 0 <= j < |r.tiles| ensures r.tiles[j].coords != c { }
      }
    }
    if UniqueTiles(m.tiles) {
      KeepTilesUnique(m.tiles, m.width, m.height);
    }
  }

  /** The grid settings block after a change: a confirmed change of width or
      height clamps both to at least 1 and cleans up; the cell size is always
      clamped to at least 0.1. */
  function ApplyGridSettings(m: MapData, newWidth: int, newHeight: int, newCellSize: real, confirmed: bool): (r: MapData)
    ensures r.cellSize == if newCellSize >= 0.1 then newCellSize else 0.1
    ensures (newWidth != m.width || newHeight != m.height) && confirmed ==>
              r.width == (if newWidth >= 1 then newWidth else 1) && r.height == (if newHeight >= 1 then newHeight else 1)
              && forall c :: GetTile(r, c) == if InBounds(r.width, r.height, c) then GetTile(m, c) else None
    ensures !((newWidth != m.width || newHeight != m.height) && confirmed) ==> r == m.(cellSize := r.cellSize)
    ensures r.width >= 1 || r.width == m.width
  {
    var resized :=
      if (newWidth != m.width || newHeight != m.height) && confirmed then
        CleanupOutOfBoundsTiles(m.(width := if newWidth >= 1 then newWidth else 1, height := if newHeight >= 1 then newHeight else 1))
      else m;
    resized.(cellSize := if newCellSize >= 0.1 then newCellSize else 0.1)
  }
}

=== FILE: int32.dfy ===
/** C#'s `int`: a 32-bit two's-complement integer whose `+` and `-` wrap
    around silently (the project compiles without `checked` arithmetic). */
module Int32 {

  const Modulus: int := 0x1_0000_0000
  const MinValue: int := -0x8000_0000
  const MaxValue: int := 0x7fff_ffff

  /** The value fits an `int`. */
  predicate InInt32(x: int) {
    MinValue <= x <= MaxValue
  }

  /** The `int` that unchecked C# arithmetic stores for the exact result x:
      the one value in range that is congruent to x modulo 2^32. */
  function Wrap(x: int): (r: int)
    ensures InInt32(r)
    ensures (x - r) % Modulus == 0
    ensures InInt32(x) ==> r == x
  {
    (x - MinValue) % Modulus + MinValue
  }

  /** A result past int.MaxValue (as a sum or a difference of two `int`s
      can be) comes out 2^32 lower, which is negative. */
  lemma {:induction false} WrapPastMax(x: int)
    requires MaxValue < x < Modulus
    ensures Wrap(x) == x - Modulus
    ensures Wrap(x) < 0
  {
    assert 0 <= x - Modulus - MinValue < Modulus;
  }
}

=== FILE: map_data.dfy ===
/** The authored tile map (MapData.cs): a list of typed tiles plus the spawn
    and exit coordinate lists. A coordinate without a tile behaves as the
    default (walkable, buildable). */
module Maps {
  import opened Wrappers
  import opened Coords

  /** TileType, in declaration order. */
  datatype TileType = Empty | Path | Blocked | Buildable | Spawn | Exit | Hybrid

  datatype TileData = TileData(coords: Coord, kind: TileType)

  datatype MapData = MapData(
    width: int, height: int, cellSize: real,
    tiles: seq<TileData>,
    spawnPoints: seq<Coord>,
    exitPoints: seq<Coord>,
    startingCurrency: int, startingLives: int)

  const SpawnError: string := "Map needs at least one spawn point!"
  const ExitError: string := "Map needs at least one exit point!"

  /** At most one tile per coordinate. */
  predicate UniqueTiles(tiles: seq<TileData>) {
    forall i, j | 0 <= i < j < |tiles| :: tiles[i].coords != tiles[j].coords
  }

  /** Position of the first tile at `c` (List.Find scans from the front). */
  function FindTile(tiles: seq<TileData>, c: Coord): (r: Option<nat>)
    ensures r.Some? ==> r.value < |tiles| && tiles[r.value].coords == c
    ensures r.Some? ==> forall j | 0 <= j < r.value :: tiles[j].coords != c
    ensures r.None? ==> forall j | 0 <= j < |tiles| :: tiles[j].coords != c
  {
    if tiles == [] then None
    else if tiles[0].coords == c then Some(0)
    else
      var r := FindTile(tiles[1..], c);
      assert forall j | 0 < j < |tiles| :: tiles[j] == tiles[1..][j - 1];
      if r.Some? then Some(r.value + 1) else None
  }

  /** In a list with unique coordinates, the tile found is the only one there. */
  lemma FindUnique(tiles: seq<TileData>, c: Coord, i: nat)
    requires UniqueTiles(tiles)
    requires i < |tiles| && tiles[i].coords == c
    ensures FindTile(tiles, c) == Some(i)
  {
  }

  /** GetTile: the first tile at `c`, or null. */
  function GetTile(m: MapData, c: Coord): (r: Option<TileData>)
    ensures r.Some? ==> r.value.coords == c && r.value in m.tiles
    ensures r.None? <==> forall j | 0 <= j < |m.tiles| :: m.tiles[j].coords != c
  {
    var i := FindTile(m.tiles, c);
    if i.Some? then Some(m.tiles[i.value]) else None
  }

  /** List.Remove: drop the first occurrence of `c`, if any. */
  function RemoveFirst(s: seq<Coord>, c: Coord): (r: seq<Coord>)
    ensures c !in s ==> r == s
    ensures c in s ==> |r| == |s| - 1
    ensures forall d | d != c :: d in r <==> d in s
    ensures NoDup(s) ==> NoDup(r) && c !in r
  {
    if s == [] then []
    else if s[0] == c then s[1..]
    else
      var rest := RemoveFirst(s[1..], c);
      assert forall d | d in s :: d == s[0] || d in s[1..];
      if NoDup(s) then
        NoDupTail(s);
        NoDupCons(s[0], rest);
        [s[0]] + rest
      else
        [s[0]] + rest
  }

  /** UpdateSpecialPoints: take `c` out of both lists, then add it to the
      list its new type belongs to, unless it is still there. */
  function UpdateSpecialPoints(spawns: seq<Coord>, exits: seq<Coord>, c: Coord, t: TileType): (r: (seq<Coord>, seq<Coord>))
    ensures forall d | d != c :: (d in r.0 <==> d in spawns) && (d in r.1 <==> d in exits)
    ensures t == Spawn ==> c in r.0
    ensures t == Exit ==> c in r.1
    ensures NoDup(spawns) && NoDup(exits) ==>
              NoDup(r.0) && NoDup(r.1) && (c in r.0 <==> t == Spawn) && (c in r.1 <==> t == Exit)
  {
    var s := RemoveFirst(spawns, c);
    var e := RemoveFirst(exits, c);
    if t == Spawn && c !in s then (s + [c], e)
    else if t == Exit && c !in e then (s, e + [c])
    else (s, e)
  }

  /** SetTile: retype the tile at `c` in place, or append a new one, then fix
      the spawn and exit lists. */
  function SetTile(m: MapData, c: Coord, t: TileType): (r: MapData)
    ensures GetTile(r, c) == Some(TileData(c, t))
    ensures forall d | d != c :: GetTile(r, d) == GetTile(m, d)
    ensures UniqueTiles(m.tiles) ==> UniqueTiles(r.tiles)
    ensures forall d | d != c :: (d in r.spawnPoints <==> d in m.spawnPoints) && (d in r.exitPoints <==> d in m.exitPoints)
    ensures NoDup(m.spawnPoints) && NoDup(m.exitPoints) ==>
              NoDup(r.spawnPoints) && NoDup(r.exitPoints)
              && (c in r.spawnPoints <==> t == Spawn) && (c in r.exitPoints <==> t == Exit)
    ensures r.width == m.width && r.height == m.height && r.cellSize == m.cellSize
  {
    var i := FindTile(m.tiles, c);
    var tiles := if i.Some? then m.tiles[i.value := TileData(c, t)] else m.tiles + [TileData(c, t)];
    var points := UpdateSpecialPoints(m.spawnPoints, m.exitPoints, c, t);
    var r := m.(tiles := tiles, spawnPoints := points.0, exitPoints := points.1);
    SetTileFindsIt(m.tiles, tiles, c, t);
    forall d | d != c ensures GetTile(r, d) == GetTile(m, d) {
      SameFindUpTo(m.tiles, tiles, d);
    }
    r
  }

  /** After the retype or append, the tile found at `c` is the new one. */
  lemma SetTileFindsIt(tiles: seq<TileData>, tiles': seq<TileData>, c: Coord, t: TileType)
    requires var i := FindTile(tiles, c);
             tiles' == if i.Some? then tiles[i.value := TileData(c, t)] else tiles + [TileData(c, t)]
    ensures FindTile(tiles', c).Some? && tiles'[FindTile(tiles', c).value] == TileData(c, t)
    ensures UniqueTiles(tiles) ==> UniqueTiles(tiles')
    ensures |tiles| <= |tiles'|
    ensures forall j | 0 <= j < |tiles| :: tiles'[j].coords == tiles[j].coords
    ensures forall j | |tiles| <= j < |tiles'| :: tiles'[j].coords == c
  {
    var i := FindTile(tiles, c);
    if i.Some? {
      assert tiles'[i.value].coords == c;
      var k := FindTile(tiles', c);
      assert k.value <= i.value;
      assert tiles[k.value].coords == c;
      SameCoordsUnique(tiles, tiles');
    } else {
      var k := FindTile(tiles', c);
      assert tiles'[|tiles|].coords == c;
      assert k.value == |tiles|;
      AppendUnique(tiles, TileData(c, t));
    }
  }

  /** Uniqueness only looks at coordinates. */
  lemma SameCoordsUnique(a: seq<TileData>, b: seq<TileData>)
    requires |a| == |b| && forall j | 0 <= j < |a| :: b[j].coords == a[j].coords
    ensures UniqueTiles(a) ==> UniqueTiles(b)
  {
  }

  /** Appending a tile at a coordinate no tile has keeps coordinates unique. */
  lemma AppendUnique(tiles: seq<TileData>, x: TileData)
    requires forall j | 0 <= j < |tiles| :: tiles[j].coords != x.coords
    ensures UniqueTiles(tiles) ==> UniqueTiles(tiles + [x])
  {
    if UniqueTiles(tiles) {
      forall i, j | 0 <= i < j < |tiles + [x]| ensures (tiles + [x])[i].coords != (tiles + [x])[j].coords {
        assert (tiles + [x])[i] == tiles[i];
      }
    }
  }

  /** Search for `d` only sees coordinates: two lists that agree on every
      coordinate of the shorter one, and whose extra entries are not at `d`,
      find the same tile at `d`. */
  lemma SameFindUpTo(a: seq<TileData>, b: seq<TileData>, d: Coord)
    requires |a| <= |b|
    requires forall j | 0 <= j < |a| :: b[j].coords == a[j].coords
    requires forall j | |a| <= j < |b| :: b[j].coords != d
    ensures FindTile(b, d) == FindTile(a, d)
    ensures FindTile(a, d).Some? ==> b[FindTile(a, d).value].coords == d
  {
    var ka, kb := FindTile(a, d), FindTile(b, d);
    if ka.Some? {
      assert b[ka.value].coords == d;
      assert kb.value <= ka.value;
      assert a[kb.value].coords == d;
    } else {
      assert forall j | 0 <= j < |b| :: b[j].coords != d by {
        forall j | 0 <= j < |b| ensures b[j].coords != d {
          if j < |a| { assert a[j].coords != d; }
        }
      }
    }
  }

  /** IsWalkable: a missing tile is walkable; otherwise everything except Blocked and Buildable is. */
  function IsWalkable(m: MapData, c: Coord): (r: bool)
    ensures GetTile(m, c).None? ==> r
    ensures GetTile(m, c).Some? ==> (r <==> GetTile(m, c).value.kind != Blocked && GetTile(m, c).value.kind != Buildable)
  {
    match GetTile(m, c)
    case None => true
    case Some(tile) =>
      match tile.kind
      case Empty | Path | Spawn | Exit | Hybrid => true
      case Blocked | Buildable => false
  }

  /** IsBuildable: a missing tile is buildable; otherwise only Buildable, Empty and Hybrid are. */
  function IsBuildable(m: MapData, c: Coord): (r: bool)
    ensures GetTile(m, c).None? ==> r
    ensures GetTile(m, c).Some? ==> (r <==> GetTile(m, c).value.kind !in {Path, Blocked, Spawn, Exit})
  {
    match GetTile(m, c)
    case None => true
    case Some(tile) =>
      match tile.kind
      case Buildable | Empty | Hybrid => true
      case Path | Blocked | Spawn | Exit => false
  }

  /** IsHybrid: a tile exists and is Hybrid. */
  function IsHybrid(m: MapData, c: Coord): (r: bool)
    ensures r ==> GetTile(m, c).Some?
    ensures r <==> GetTile(m, c).Some? && GetTile(m, c).value.kind != Empty && IsWalkable(m, c) && IsBuildable(m, c)
  {
    var tile := GetTile(m, c);
    tile.Some? && tile.value.kind == Hybrid
  }

  /** Hybrid cells are both walkable and buildable; a tiled cell that is both is Empty or Hybrid. */
  lemma HybridIsWalkableAndBuildable(m: MapData, c: Coord)
    ensures IsHybrid(m, c) ==> IsWalkable(m, c) && IsBuildable(m, c)
    ensures GetTile(m, c).Some? && IsWalkable(m, c) && IsBuildable(m, c) ==>
              GetTile(m, c).value.kind in {Empty, Hybrid}
  {
  }

  /** ClearAll: no tiles, no spawn points, no exit points. */
  function ClearAll(m: MapData): (r: MapData)
    ensures forall c :: GetTile(r, c).None?
    ensures |r.spawnPoints| == 0 && |r.exitPoints| == 0
    ensures r.width == m.width && r.height == m.height
  {
    m.(tiles := [], spawnPoints := [], exitPoints := [])
  }

  /** One Empty tile per listed coordinate, in order. */
  function EmptyTiles(cs: seq<Coord>): (r: seq<TileData>)
    ensures |r| == |cs|
    ensures forall i | 0 <= i < |cs| :: r[i] == TileData(cs[i], Empty)
  {
    seq(|cs|, i requires 0 <= i < |cs| => TileData(cs[i], Empty))
  }

  /** InitializeEmpty: clear, then one Empty tile per cell of the rectangle in
      x-major order; a non-positive dimension yields no tiles. */
  function InitializeEmpty(m: MapData): (r: MapData)
    ensures |r.tiles| == (if m.width <= 0 || m.height <= 0 then 0 else m.width * m.height)
    ensures UniqueTiles(r.tiles)
    ensures forall c :: GetTile(r, c) == if InBounds(m.width, m.height, c) then Some(TileData(c, Empty)) else None
    ensures |r.spawnPoints| == 0 && |r.exitPoints| == 0
  {
    var w := if m.width < 0 then 0 else m.width;
    var h := if m.height < 0 then 0 else m.height;
    var cs := XMajor(w, h);
    var r := ClearAll(m).(tiles := EmptyTiles(cs));
    forall c ensures GetTile(r, c) == if InBounds(m.width, m.height, c) then Some(TileData(c, Empty)) else None {
      if InBounds(m.width, m.height, c) {
        var i :| 0 <= i < |cs| && cs[i] == c;
        FindUnique(r.tiles, c, i);
      }
    }
    assert |r.tiles| == w * h;
    r
  }

  /** Validate: at least one spawn and at least one exit; the spawn check comes first. */
  function Validate(m: MapData): (r: Result<(), string>)
    ensures r.Success? <==> |m.spawnPoints| > 0 && |m.exitPoints| > 0
    ensures |m.spawnPoints| == 0 ==> r == Failure(SpawnError)
    ensures |m.spawnPoints| > 0 && |m.exitPoints| == 0 ==> r == Failure(ExitError)
  {
    if |m.spawnPoints| == 0 then Failure(SpawnError)
    else if |m.exitPoints| == 0 then Failure(ExitError)
    else Success(())
  }

  /** Painting a spawn tile onto a map with an exit makes it pass validation. */
  lemma SpawnTileMakesMapValid(m: MapData, c: Coord)
    requires NoDup(m.spawnPoints) && NoDup(m.exitPoints)
    requires exists e | e in m.exitPoints :: e != c
    ensures Validate(SetTile(m, c, Spawn)).Success?
  {
    var e :| e in m.exitPoints && e != c;
    assert e in SetTile(m, c, Spawn).exitPoints;
  }
}

=== FILE: map_loader.dfy ===
/** Loading an authored map into the running scene (MapLoader.cs): copying
    the grid settings and the starting currency, then, once the grid and the
    path nodes exist, pushing tile walkability onto the path nodes and tile
    occupancy onto the grid cells. Prefab spawning and the two-frame delay
    are left out. */
module MapLoading {
  import opened Wrappers
  import opened Coords
  import opened PathGraph
  import opened Maps
  import Grid
  import Currency
  import PlayerHealth

  /** The GridManager's public settings and its cell dictionary. */
  datatype GridManager = GridManager(width: int, height: int, cellSize: real, cells: Grid.Cells)

  /** The parts of the scene LoadMap can touch: the grid manager, the
      currency balance and the lives (each None when that manager is
      absent), and whether the delayed element spawning was started. */
  datatype Scene = Scene(
    grid: Option<GridManager>, currency: Option<int>, lives: Option<PlayerHealth.Health>, elementsScheduled: bool)

  /** LoadMap: a missing or invalid map changes nothing. Otherwise the grid
      settings are copied (the cells, generated earlier in the grid's Awake,
      stay as they are), the currency is set to the map's starting currency,
      the lives are left alone because that call is commented out, and the
      element spawning is scheduled. */
  function LoadMap(m: Option<MapData>, s: Scene): (r: Scene)
    ensures m.None? || Validate(m.value).Failure? ==> r == s
    ensures m.Some? && Validate(m.value).Success? ==>
              r.elementsScheduled
              && (s.grid.Some? ==> r.grid == Some(s.grid.value.(width := m.value.width, height := m.value.height, cellSize := m.value.cellSize)))
              && (s.grid.None? ==> r.grid.None?)
              && (s.currency.Some? ==> r.currency == Some(m.value.startingCurrency))
              && (s.currency.None? ==> r.currency.None?)
    ensures r.lives == s.lives
    ensures r.grid.Some? ==> r.grid.value.cells == s.grid.value.cells
  {
    if m.None? then s
    else if Validate(m.value).Failure? then s
    else
      var mp := m.value;
      var grid := if s.grid.Some? then Some(s.grid.value.(width := mp.width, height := mp.height, cellSize := mp.cellSize)) else None;
      var currency := if s.currency.Some? then Some(Currency.Set(s.currency.value, mp.startingCurrency)) else None;
      s.(grid := grid, currency := currency, elementsScheduled := true)
  }

  /** Tile types that stop enemies: the walkability rule applied to path nodes. */
  predicate BlocksPath(t: TileType) {
    t == Blocked || t == Buildable
  }

  /** ApplyTileStates, first loop: every path node with a tile takes the
      tile's walkability; nodes without a tile keep theirs. */
  function ApplyWalkability(m: MapData, g: Graph): (r: Graph)
    ensures r.Keys == g.Keys
    ensures forall c | c in g :: r[c].neighbours == g[c].neighbours
    ensures forall c | c in g && GetTile(m, c).Some? :: r[c].walkable == !BlocksPath(GetTile(m, c).value.kind)
    ensures forall c | c in g && GetTile(m, c).None? :: r[c] == g[c]
  {
    map c | c in g :: if GetTile(m, c).Some? then g[c].(walkable := !BlocksPath(GetTile(m, c).value.kind)) else g[c]
  }

  /** The walkability written to a tiled node is exactly MapData.IsWalkable,
      and the graph keeps its links, so only reachability can change. */
  lemma AppliedWalkabilityIsMapWalkability(m: MapData, g: Graph, c: Coord)
    requires c in g && GetTile(m, c).Some?
    ensures ApplyWalkability(m, g)[c].walkable == IsWalkable(m, c)
    ensures SameTopology(g, ApplyWalkability(m, g))
  {
  }

  /** ApplyTileStates, second loop: SetCellOccupied(coords, true) for each
      Blocked tile, in list order. */
  function MarkBlocked(tiles: seq<TileData>, cells: Grid.Cells): (r: Grid.Cells)
    ensures r.Keys == cells.Keys
    ensures forall c | c in cells :: r[c].coords == cells[c].coords && r[c].worldPos == cells[c].worldPos
    ensures forall c | c in cells ::
              r[c].occupied <==> cells[c].occupied || exists i | 0 <= i < |tiles| :: tiles[i].coords == c && tiles[i].kind == Blocked
    decreases |tiles|
  {
    if tiles == [] then cells
    else
      var next := if tiles[0].kind == Blocked then Grid.SetCellOccupied(cells, tiles[0].coords, true) else cells;
      var r := MarkBlocked(tiles[1..], next);
      assert forall i | 0 < i < |tiles| :: tiles[i] == tiles[1..][i - 1];
      forall c | c in cells
        ensures r[c].occupied <==> cells[c].occupied || exists i | 0 <= i < |tiles| :: tiles[i].coords == c && tiles[i].kind == Blocked
      {
        if exists i | 0 <= i < |tiles| :: tiles[i].coords == c && tiles[i].kind == Blocked {
          var i :| 0 <= i < |tiles| && tiles[i].coords == c && tiles[i].kind == Blocked;
          if i > 0 {
            assert tiles[1..][i - 1].coords == c;
          }
        }
      }
      r
  }

  /** ApplyTileStates: walkability onto every path node, then occupancy onto
      the grid cells when a grid manager exists. */
  function ApplyTileStates(m: MapData, g: Graph, grid: Option<GridManager>): (r: (Graph, Option<GridManager>))
    ensures r.0 == ApplyWalkability(m, g)
    ensures grid.None? ==> r.1.None?
    ensures grid.Some? ==> r.1.Some? && r.1.value.cells.Keys == grid.value.cells.Keys
    ensures grid.Some? ==> forall c | c in grid.value.cells ::
              Grid.IsCellOccupied(r.1.value.cells, c) <==>
                Grid.IsCellOccupied(grid.value.cells, c) || exists i | 0 <= i < |m.tiles| :: m.tiles[i] == TileData(c, Blocked)
  {
    var g' := ApplyWalkability(m, g);
    if grid.None? then (g', None)
    else (g', Some(grid.value.(cells := MarkBlocked(m.tiles, grid.value.cells))))
  }

  /** With one tile per coordinate, a cell becomes occupied exactly when it
      was already occupied or its tile is Blocked; no other cell changes. */
  lemma OccupiedExactlyWhereBlocked(m: MapData, cells: Grid.Cells, c: Coord)
    requires UniqueTiles(m.tiles) && c in cells
    ensures MarkBlocked(m.tiles, cells)[c].occupied <==>
              cells[c].occupied || (GetTile(m, c).Some? && GetTile(m, c).value.kind == Blocked)
  {
    if exists i | 0 <= i < |m.tiles| :: m.tiles[i].coords == c && m.tiles[i].kind == Blocked {
      var i :| 0 <= i < |m.tiles| && m.tiles[i].coords == c && m.tiles[i].kind == Blocked;
      FindUnique(m.tiles, c, i);
    }
  }

  /** GetWorldPosition: the centre of a cell, using the grid manager's cell
      size when it exists and the map's otherwise. */
  function GetWorldPosition(c: Coord, grid: Option<GridManager>, m: MapData): (r: Grid.Vec3)
    ensures var cs := if grid.Some? then grid.value.cellSize else m.cellSize;
            r == Grid.Vec3(c.0 as real * cs + cs / 2.0, 0.0, c.1 as real * cs + cs / 2.0)
  {
    if grid.Some? then
      var corner := Grid.GridToWorld(c, grid.value.cellSize);
      var half := grid.value.cellSize / 2.0;
      Grid.Vec3(corner.x + half, corner.y + 0.0, corner.z + half)
    else
      Grid.Vec3(c.0 as real * m.cellSize + m.cellSize / 2.0, 0.0, c.1 as real * m.cellSize + m.cellSize / 2.0)
  }

  /** A spawned marker lands in the cell it was spawned for. */
  lemma WorldPositionMapsBack(c: Coord, grid: Option<GridManager>, m: MapData)
    requires grid.Some? && grid.value.cellSize != 0.0
    ensures Grid.WorldToGrid(GetWorldPosition(c, grid, m), grid.value.cellSize) == c
  {
    Grid.WorldToGridOfCellCentre(c, grid.value.cellSize, 0.0);
  }

  /** GetTileTypeAtPosition: the type of the tile under the position; Empty
      without a grid manager, without a map, or without a tile there. */
  function GetTileTypeAtPosition(grid: Option<GridManager>, m: Option<MapData>, w: Grid.Vec3): (r: TileType)
    requires grid.Some? ==> grid.value.cellSize != 0.0
    ensures grid.None? || m.None? ==> r == Empty
    ensures grid.Some? && m.Some? ==>
              var tile := GetTile(m.value, Grid.WorldToGrid(w, grid.value.cellSize));
              r == if tile.Some? then tile.value.kind else Empty
  {
    if grid.None? || m.None? then Empty
    else
      var tile := GetTile(m.value, Grid.WorldToGrid(w, grid.value.cellSize));
      if tile.Some? then tile.value.kind else Empty
  }

  /** IsBuildableAtPosition: true without a grid manager or a map, otherwise
      MapData.IsBuildable of the cell under the position. */
  function IsBuildableAtPosition(grid: Option<GridManager>, m: Option<MapData>, w: Grid.Vec3): (r: bool)
    requires grid.Some? ==> grid.value.cellSize != 0.0
    ensures grid.None? || m.None? ==> r
    ensures grid.Some? && m.Some? ==> r == IsBuildable(m.value, Grid.WorldToGrid(w, grid.value.cellSize))
  {
    if grid.None? || m.None? then true
    else IsBuildable(m.value, Grid.WorldToGrid(w, grid.value.cellSize))
  }

  /** The two position queries agree: the position is buildable exactly when
      the reported tile type is Empty, Buildable or Hybrid. */
  lemma BuildableAgreesWithTileType(grid: Option<GridManager>, m: Option<MapData>, w: Grid.Vec3)
    requires grid.Some? ==> grid.value.cellSize != 0.0
    ensures IsBuildableAtPosition(grid, m, w) <==> GetTileTypeAtPosition(grid, m, w) in {Empty, Buildable, Hybrid}
  {
  }
}

=== FILE: node_getter.dfy ===
/** Spawn and exit markers (NodeGetter.cs): each marker, once the grid exists,
    finds the path node beneath it and appends that node to a static registry
    keyed by marker type. Physics queries are inputs to the model. */
module SpawnPoints {
  import opened Wrappers
  import opened Coords

  /** NodeType: whether a marker is a spawn point or an exit. */
  datatype NodeType = Start | End

  /** NodeGetter.nodeValue: marker type to the nodes registered for it, in registration order. */
  type Registry = map<NodeType, seq<Coord>>

  /** The nodes registered for a type; no list at all reads as none. */
  function Registered(reg: Registry, t: NodeType): seq<Coord> {
    if t in reg then reg[t] else []
  }

  /** GetNodeBelow. `rayHit` is the downward raycast: `None` when nothing is
      hit, `Some(None)` when the collider hit carries no PathNode component,
      `Some(Some(c))` when it is the node `c`. `overlap` lists, in order, the
      PathNode component (or its absence) of each collider in the overlap
      sphere, consulted only when the raycast hits nothing. */
  function GetNodeBelow(rayHit: Option<Option<Coord>>, overlap: seq<Option<Coord>>): (r: Option<Coord>)
    ensures rayHit.Some? ==> r == rayHit.value
    ensures rayHit.None? ==> (r.Some? <==> exists i | 0 <= i < |overlap| :: overlap[i].Some?)
    ensures rayHit.None? && r.Some? ==> exists i | 0 <= i < |overlap| :: overlap[i] == r && forall j | 0 <= j < i :: overlap[j].None?
  {
    if rayHit.Some? then rayHit.value else FirstNode(overlap)
  }

  /** The first collider of the list that carries a PathNode. */
  function FirstNode(hits: seq<Option<Coord>>): (r: Option<Coord>)
    ensures r.Some? <==> exists i | 0 <= i < |hits| :: hits[i].Some?
    ensures r.Some? ==> exists i | 0 <= i < |hits| :: hits[i] == r && forall j | 0 <= j < i :: hits[j].None?
  {
    if hits == [] then None
    else if hits[0].Some? then hits[0]
    else
      var r := FirstNode(hits[1..]);
      assert forall i | 0 < i < |hits| :: hits[i] == hits[1..][i - 1];
      r
  }

  /** Init: with no node below, nothing is registered; otherwise the node is
      appended to its type's list (created on first use, no de-duplication),
      and the other type's entry is untouched. */
  function Init(reg: Registry, t: NodeType, below: Option<Coord>): (r: Registry)
    ensures below.None? ==> r == reg
    ensures below.Some? ==> t in r && Registered(r, t) == Registered(reg, t) + [below.value]
    ensures forall u | u != t :: (u in r <==> u in reg) && Registered(r, u) == Registered(reg, u)
  {
    if below.None? then reg
    else
      var list := if t in reg then reg[t] else [];
      reg[t := list + [below.value]]
  }

  /** Two markers above the same node register it twice: the registry is a list, not a set. */
  lemma InitKeepsDuplicates(reg: Registry, t: NodeType, c: Coord)
    ensures |Registered(Init(Init(reg, t, Some(c)), t, Some(c)), t)| == |Registered(reg, t)| + 2
    ensures var l := Registered(Init(Init(reg, t, Some(c)), t, Some(c)), t); l[|l| - 1] == c && l[|l| - 2] == c
  {
  }
}

=== FILE: path_graph.dfy ===
/** The pathfinding node graph (PathNode.cs) as an arena: every node lives in a
    map keyed by its grid coordinate, and neighbour links are coordinates, not
    references. A node reference that is "null" or destroyed is a coordinate
    that is not a key of the arena. The per-search scratch fields of PathNode
    (gCost, hCost, parent) are not stored here: the search keeps them in a
    local state of its own (see module AStar). */
module PathGraph {
  import opened Coords

  /** One PathNode: its walkable flag and its ordered neighbour list. */
  datatype Node = Node(walkable: bool, neighbours: seq<Coord>)

  type Graph = map<Coord, Node>

  /** A PathNode as its field initialisers create it: walkable, no neighbours. */
  function FreshNode(): Node {
    Node(true, [])
  }

  /** Every neighbour link points at a node of the arena (references are never dangling). */
  ghost predicate WellFormed(g: Graph) {
    forall c, n | c in g && n in g[c].neighbours :: n in g
  }

  /** `p` is a walk from `s` to `t` that uses only neighbour links (walkability ignored). */
  ghost predicate Linked(g: Graph, p: seq<Coord>, s: Coord, t: Coord) {
    && |p| > 0
    && p[0] == s
    && p[|p| - 1] == t
    && (forall i | 0 <= i < |p| :: p[i] in g)
    && (forall i | 0 <= i < |p| - 1 :: p[i + 1] in g[p[i]].neighbours)
  }

  /** Every node of `p` is a live, walkable node. */
  ghost predicate AllWalkable(g: Graph, p: seq<Coord>) {
    forall i | 0 <= i < |p| :: p[i] in g && g[p[i]].walkable
  }

  /** `p` is a route an agent may take from `s` to `t`. */
  ghost predicate IsPath(g: Graph, p: seq<Coord>, s: Coord, t: Coord) {
    Linked(g, p, s, t) && AllWalkable(g, p)
  }

  /** Some walkable 4-connected route leads from `s` to `t`. */
  ghost predicate Reachable(g: Graph, s: Coord, t: Coord) {
    exists p :: IsPath(g, p, s, t)
  }

  /** Set the walkable flag of the node at `c`; a null reference is a no-op. */
  function SetWalkable(g: Graph, c: Coord, w: bool): (r: Graph)
    ensures r.Keys == g.Keys
    ensures forall d | d in g :: r[d].neighbours == g[d].neighbours
    ensures forall d | d in g && d != c :: r[d] == g[d]
    ensures c in g ==> r[c].walkable == w
  {
    if c in g then g[c := g[c].(walkable := w)] else g
  }

  /** Make every listed node that still exists walkable (null entries are skipped). */
  function MakeWalkable(g: Graph, cs: seq<Coord>): (r: Graph)
    ensures r.Keys == g.Keys
    ensures forall c | c in g :: r[c].neighbours == g[c].neighbours
    ensures forall c | c in g :: r[c].walkable == (g[c].walkable || c in cs)
    decreases |cs|
  {
    if cs == [] then g
    else
      var r := MakeWalkable(SetWalkable(g, cs[0], true), cs[1..]);
      assert forall c :: c in cs <==> c == cs[0] || c in cs[1..];
      r
  }

  /** Both graphs have the same nodes and the same neighbour lists; only walkability may differ. */
  ghost predicate SameTopology(g: Graph, h: Graph) {
    && g.Keys == h.Keys
    && forall c | c in g :: h[c].neighbours == g[c].neighbours
  }

  /** `C` contains every walkable neighbour of each of its members. */
  ghost predicate ClosedUnderSteps(g: Graph, C: set<Coord>) {
    forall c, n | c in C && c in g && n in g[c].neighbours && n in g && g[n].walkable :: n in C
  }

  /** A set closed under walkable steps that holds the start of a route holds all of it. */
  lemma {:induction false} RouteStaysInClosedSet(g: Graph, C: set<Coord>, p: seq<Coord>, s: Coord, t: Coord)
    requires ClosedUnderSteps(g, C)
    requires s in C
    requires IsPath(g, p, s, t)
    ensures t in C
  {
    var i := 0;
    while i < |p| - 1
      invariant 0 <= i <= |p| - 1
      invariant p[i] in C
    {
      assert p[i + 1] in g[p[i]].neighbours;
      i := i + 1;
    }
  }

  /** Changing walkability alone keeps every neighbour-linked walk linked. */
  lemma LinkedSurvivesWalkability(g: Graph, h: Graph, p: seq<Coord>, s: Coord, t: Coord)
    requires SameTopology(g, h)
    requires Linked(g, p, s, t)
    ensures Linked(h, p, s, t)
  {
  }

  /** Two arenas with the same nodes, node for node, are equal. */
  lemma GraphExtensionality(a: Graph, b: Graph)
    requires a.Keys == b.Keys
    requires forall c | c in a :: a[c] == b[c]
    ensures a == b
  {
  }
}

=== FILE: path_node_generator.dfy ===
/** Building the pathfinding arena from the build grid (PathNodeGenerator.cs):
    one PathNode per grid cell, then 4-neighbour links between the nodes that
    exist. Scene objects (prefab instantiation, names, world positions) are not
    modelled; a node is identified by its grid coordinate. */
module NodeGeneration {
  import opened Wrappers
  import opened Coords
  import opened PathGraph
  import Grid

  /** The entries of `s` that are keys of the arena, in their original order
      (TryAddNeighbor keeps a candidate only when the dictionary has it). */
  function Keep(keys: set<Coord>, s: seq<Coord>): (r: seq<Coord>)
    ensures forall d :: d in r <==> d in s && d in keys
    ensures |r| <= |s|
    ensures NoDup(s) ==> NoDup(r)
  {
    if s == [] then []
    else
      var rest := Keep(keys, s[1..]);
      assert forall d | d in s[1..] :: d in s;
      KeepOne(keys, s[0]) + rest
  }

  /** A single candidate, kept when it is a key. */
  function KeepOne(keys: set<Coord>, d: Coord): (r: seq<Coord>)
    ensures d in keys ==> r == [d]
    ensures d !in keys ==> r == []
  {
    if d in keys then [d] else []
  }

  /** The entries of the enumeration `order` that are not yet nodes, in order:
      the nodes GenerateNodes creates and appends to the A* node list. */
  function Missing(order: seq<Coord>, nodes: Graph): (r: seq<Coord>)
    ensures forall c :: c in r <==> c in order && c !in nodes
    ensures NoDup(order) ==> NoDup(r)
  {
    if order == [] then []
    else
      var rest := Missing(order[1..], nodes);
      assert forall d | d in order[1..] :: d in order;
      if order[0] in nodes then rest else [order[0]] + rest
  }

  /** The loop of GenerateNodes over the grid's cells in enumeration order: an
      existing node is made walkable again and keeps its links; a missing one is
      created fresh and appended to the A* node list. */
  function GenerateFrom(order: seq<Coord>, nodes: Graph, all: seq<Coord>): (r: (Graph, seq<Coord>))
    requires NoDup(order)
    ensures forall c :: c in r.0 <==> c in nodes || c in order
    ensures forall c | c in order :: r.0[c].walkable
    ensures forall c | c in order && c in nodes :: r.0[c].neighbours == nodes[c].neighbours
    ensures forall c | c in order && c !in nodes :: r.0[c] == FreshNode()
    ensures forall c | c in nodes && c !in order :: r.0[c] == nodes[c]
    ensures r.1 == all + Missing(order, nodes)
    decreases |order|
  {
    if order == [] then (nodes, all)
    else
      var c := order[0];
      assert c !in order[1..];
      var nodes' := GenerateOne(nodes, c);
      var all' := if c in nodes then all else all + [c];
      assert forall d | d in order[1..] :: d in order;
      var r := GenerateFrom(order[1..], nodes', all');
      GenerateStep(order, nodes, r.0);
      MissingStep(order, nodes, nodes', all, all');
      r
  }

  /** One iteration on cell `c`: reuse the node made walkable, or create it. */
  function GenerateOne(nodes: Graph, c: Coord): Graph {
    if c in nodes then nodes[c := nodes[c].(walkable := true)] else nodes[c := FreshNode()]
  }

  /** What the loop has done to `nodes` once it has passed every cell of `order`. */
  ghost predicate Generated(order: seq<Coord>, nodes: Graph, g: Graph) {
    && (forall c :: c in g <==> c in nodes || c in order)
    && (forall c | c in order :: g[c].walkable)
    && (forall c | c in order && c in nodes :: g[c].neighbours == nodes[c].neighbours)
    && (forall c | c in order && c !in nodes :: g[c] == FreshNode())
    && (forall c | c in nodes && c !in order :: g[c] == nodes[c])
  }

  /** Handling the head cell and then the rest is handling the whole enumeration. */
  lemma GenerateStep(order: seq<Coord>, nodes: Graph, g: Graph)
    requires order != [] && order[0] !in order[1..]
    requires Generated(order[1..], GenerateOne(nodes, order[0]), g)
    ensures Generated(order, nodes, g)
  {
    var c, n1 := order[0], GenerateOne(nodes, order[0]);
    assert forall d :: d in order <==> d == c || d in order[1..];
    assert forall d | d in nodes && d != c :: d in n1 && n1[d] == nodes[d];
  }

  /** One step of the loop appends exactly what Missing contributes for the
      head of the enumeration. */
  lemma MissingStep(order: seq<Coord>, nodes: Graph, nodes': Graph, all: seq<Coord>, all': seq<Coord>)
    requires order != []
    requires forall d | d in order[1..] :: (d in nodes <==> d in nodes')
    requires all' == if order[0] in nodes then all else all + [order[0]]
    ensures all' + Missing(order[1..], nodes') == all + Missing(order, nodes)
  {
    MissingIgnoresOthers(order[1..], nodes, nodes');
    if order[0] !in nodes {
      assert (all + [order[0]]) + Missing(order[1..], nodes) == all + ([order[0]] + Missing(order[1..], nodes));
    }
  }

  /** Adding or changing a node the enumeration never mentions does not change what it misses. */
  lemma {:induction false} MissingIgnoresOthers(order: seq<Coord>, nodes: Graph, nodes': Graph)
    requires forall d | d in order :: (d in nodes <==> d in nodes')
    ensures Missing(order, nodes) == Missing(order, nodes')
    decreases |order|
  {
    if order != [] {
      assert forall d | d in order[1..] :: d in order;
      MissingIgnoresOthers(order[1..], nodes, nodes');
    }
  }

  /** GenerateNodes: with no GridManager nothing happens; otherwise every grid
      cell gets a walkable node. `order` is the dictionary's enumeration order of
      the grid cells, which fixes the order nodes join the A* node list. */
  function GenerateNodes(gm: Option<Grid.Cells>, order: seq<Coord>, nodes: Graph, all: seq<Coord>): (r: (Graph, seq<Coord>))
    requires gm.Some? ==> NoDup(order) && forall c :: c in order <==> c in gm.value
    ensures gm.None? ==> r == (nodes, all)
    ensures gm.Some? ==> forall c :: c in r.0 <==> c in nodes || c in gm.value
    ensures gm.Some? ==> forall c | c in gm.value :: r.0[c].walkable
    ensures gm.Some? ==> forall c | c in gm.value && c !in nodes :: r.0[c] == FreshNode()
    ensures gm.Some? ==> forall c | c in nodes && c !in gm.value :: r.0[c] == nodes[c]
    ensures gm.Some? ==> |r.1| == |all| + |gm.value.Keys - nodes.Keys|
  {
    if gm.None? then (nodes, all)
    else
      var r := GenerateFrom(order, nodes, all);
      MissingCount(order, nodes, gm.value.Keys);
      r
  }

  /** Without duplicates, the number of missing entries is the number of missing keys. */
  lemma {:induction false} MissingCount(order: seq<Coord>, nodes: Graph, keys: set<Coord>)
    requires NoDup(order)
    requires forall c :: c in order <==> c in keys
    ensures |Missing(order, nodes)| == |keys - nodes.Keys|
    decreases |order|
  {
    if order == [] {
      assert forall c :: c !in keys;
      assert keys - nodes.Keys == {};
    } else {
      var c := order[0];
      TailKeys(order, keys);
      MissingCount(order[1..], nodes, keys - {c});
      AddOneMissing(keys, nodes, c);
    }
  }

  /** Removing one key from the enumerated set removes at most that key from the missing ones. */
  lemma AddOneMissing(keys: set<Coord>, nodes: Graph, c: Coord)
    requires c in keys
    ensures c in nodes ==> |keys - nodes.Keys| == |(keys - {c}) - nodes.Keys|
    ensures c !in nodes ==> |keys - nodes.Keys| == |(keys - {c}) - nodes.Keys| + 1
  {
    var a, b := keys - nodes.Keys, (keys - {c}) - nodes.Keys;
    if c in nodes {
      assert a == b;
    } else {
      assert a == b + {c};
    }
  }

  /** The tail of a duplicate-free enumeration enumerates the keys minus its head. */
  lemma TailKeys(order: seq<Coord>, keys: set<Coord>)
    requires NoDup(order) && |order| > 0
    requires forall c :: c in order <==> c in keys
    ensures NoDup(order[1..])
    ensures forall d :: d in order[1..] <==> d in keys - {order[0]}
  {
    forall d ensures d in order[1..] <==> d in keys - {order[0]} {
      if d in order[1..] {
        var j :| 0 <= j < |order[1..]| && order[1..][j] == d;
        assert order[j + 1] == d;
      }
      if d in keys - {order[0]} {
        var j :| 0 <= j < |order| && order[j] == d;
        assert j != 0;
        assert order[1..][j - 1] == d;
      }
    }
  }

  /** LinkNeighbors: every node's list is rebuilt from scratch as the existing
      nodes among its west, east, south and north candidates, in that order. */
  function LinkNeighbors(nodes: Graph): (r: Graph)
    ensures r.Keys == nodes.Keys
    ensures forall c | c in r :: r[c].walkable == nodes[c].walkable
    ensures forall c | c in r :: r[c].neighbours == Keep(nodes.Keys, Around(c))
  {
    map c | c in nodes :: Node(nodes[c].walkable, Keep(nodes.Keys, Around(c)))
  }

  /** The links LinkNeighbors makes are exactly the 4-adjacencies between
      existing nodes: no dangling reference, no self-loop, no duplicate, at most
      four per node, and every adjacent pair linked both ways. */
  lemma LinkedGraphShape(nodes: Graph)
    ensures WellFormed(LinkNeighbors(nodes))
    ensures forall c, d | c in nodes && d in LinkNeighbors(nodes)[c].neighbours :: Adjacent(c, d)
    ensures forall c, d | c in nodes && d in nodes && Adjacent(c, d) :: d in LinkNeighbors(nodes)[c].neighbours
    ensures forall c | c in nodes :: NoDup(LinkNeighbors(nodes)[c].neighbours) && |LinkNeighbors(nodes)[c].neighbours| <= 4
    ensures forall c | c in nodes :: c !in LinkNeighbors(nodes)[c].neighbours
  {
    forall c | c in nodes ensures c !in LinkNeighbors(nodes)[c].neighbours {
      AdjacentSymmetric(c, c);
    }
  }

  /** Links are symmetric: if `d` is a neighbour of `c` then `c` is one of `d`. */
  lemma LinksAreSymmetric(nodes: Graph, c: Coord)
    requires c in nodes
    ensures forall d | d in LinkNeighbors(nodes)[c].neighbours :: d in nodes && c in LinkNeighbors(nodes)[d].neighbours
  {
    forall d | d in LinkNeighbors(nodes)[c].neighbours
      ensures d in nodes && c in LinkNeighbors(nodes)[d].neighbours
    {
      AdjacentSymmetric(c, d);
    }
  }

  /** Linking twice is the same as linking once. */
  lemma LinkIdempotent(nodes: Graph)
    ensures LinkNeighbors(LinkNeighbors(nodes)) == LinkNeighbors(nodes)
  {
    var once := LinkNeighbors(nodes);
    var twice := LinkNeighbors(once);
    forall c | c in once ensures twice[c] == once[c] {
    }
    GraphExtensionality(twice, once);
  }

  /** Start(): generate the nodes from the grid, then link them. The arena holds
      a walkable node for each grid cell, and every link joins adjacent cells. */
  function BuildArena(gm: Grid.Cells, order: seq<Coord>): (r: (Graph, seq<Coord>))
    requires NoDup(order) && forall c :: c in order <==> c in gm
    ensures forall c :: c in r.0 <==> c in gm
    ensures WellFormed(r.0) && AllWalkable(r.0, order)
    ensures r.1 == order
    ensures forall c, d | c in gm && d in r.0[c].neighbours :: Adjacent(c, d)
  {
    var gen := GenerateNodes(Some(gm), order, map[], []);
    assert Missing(order, map[]) == order by {
      MissingOfEmpty(order);
    }
    assert forall c :: c in gen.0 <==> c in gm;
    var linked := LinkNeighbors(gen.0);
    LinkedGraphShape(gen.0);
    assert AllWalkable(linked, order) by {
      forall i | 0 <= i < |order| ensures order[i] in linked && linked[order[i]].walkable {
        assert order[i] in gm;
      }
    }
    (linked, gen.1)
  }

  lemma {:induction false} MissingOfEmpty(order: seq<Coord>)
    ensures Missing(order, map[]) == order
    decreases |order|
  {
    if order != [] {
      MissingOfEmpty(order[1..]);
    }
  }

  /** GetNodeAt / GetNodeAtWorldPosition, which the generator's callers use
      but whose bodies are not part of this model: a partial look-up of the
      generator's node dictionary, given the cell the position falls in. No
      generator instance, or no node at that cell, gives null. */
  function GetNodeAt(generator: Option<Graph>, cell: Coord): (r: Option<Coord>)
    ensures r.Some? <==> generator.Some? && cell in generator.value
    ensures r.Some? ==> r.value == cell
  {
    if generator.Some? && cell in generator.value then Some(cell) else None
  }
}

=== FILE: path_obstacle.dfy ===
/** A path obstacle (PathObstacle.cs): a scene object that makes the path
    nodes around it unwalkable and asks Astar to recalculate every cached
    route. The overlap sphere is an input (the colliders found, None for a
    collider without a PathNode); the recalculation request is returned as
    a flag, and the caller runs PathCache.RecalculateAndCacheAllPaths. */
module Obstacles {
  import opened Wrappers
  import opened Coords
  import opened PathGraph

  /** The obstacle's record of the nodes it blocked, and whether it is blocking. */
  datatype Obstacle = Obstacle(blocked: seq<Coord>, isBlocking: bool)

  /** What a block or unblock call produces. */
  datatype Outcome = Outcome(obstacle: Obstacle, graph: Graph, recalculate: bool)

  /** What the component keeps true between calls: an obstacle that is not
      blocking has recorded nothing (BlockPath only keeps a non-empty record
      by starting to block, and UnblockPath clears it when it stops). */
  predicate Consistent(o: Obstacle) {
    !o.isBlocking ==> o.blocked == []
  }

  /** The freshly created component: nothing blocked. */
  function NewObstacle(): (r: Obstacle)
    ensures !r.isBlocking && r.blocked == []
    ensures Consistent(r)
  {
    Obstacle([], false)
  }

  /** The collider loop of BlockPath: every live found node not yet recorded
      is made unwalkable, whatever its walkability was, and recorded; a node
      already recorded is skipped and keeps its flag. */
  function BlockEach(g: Graph, found: seq<Option<Coord>>, blocked: seq<Coord>): (r: (Graph, seq<Coord>))
    ensures SameTopology(g, r.0)
    ensures |r.1| >= |blocked| && r.1[..|blocked|] == blocked
    ensures forall c | c in g :: r.0[c].walkable == (g[c].walkable && !(Some(c) in found && c !in blocked))
    ensures forall c :: c in r.1 <==> c in blocked || (c in g && Some(c) in found)
    ensures NoDup(blocked) ==> NoDup(r.1)
    decreases |found|
  {
    if found == [] then (g, blocked)
    else
      var o := found[0];
      var add := o.Some? && o.value in g && o.value !in blocked;
      var g1 := if add then SetWalkable(g, o.value, false) else g;
      var b1 := if add then blocked + [o.value] else blocked;
      assert b1[..|blocked|] == blocked;
      assert NoDup(blocked) ==> NoDup(b1) by {
        if add && NoDup(blocked) { NoDupSnoc(blocked, o.value); }
      }
      var r := BlockEach(g1, found[1..], b1);
      assert forall x :: x in found <==> x == o || x in found[1..];
      PrefixOfPrefix(blocked, b1, r.1);
      r
  }

  /** BlockPath. An obstacle already blocking does nothing. Otherwise every
      live node it overlaps becomes unwalkable and is recorded; if nothing was
      recorded it stays non-blocking and asks for nothing; else it becomes
      blocking and asks Astar (when there is one) to recalculate. No
      connectivity check is made. */
  function BlockPath(o: Obstacle, g: Graph, found: seq<Option<Coord>>, astarPresent: bool): (r: Outcome)
    ensures o.isBlocking ==> r == Outcome(o, g, false)
    ensures !o.isBlocking ==>
              && SameTopology(g, r.graph)
              && (forall c | c in g :: r.graph[c].walkable == (g[c].walkable && !(Some(c) in found && c !in o.blocked)))
              && (forall c :: c in r.obstacle.blocked <==> c in o.blocked || (c in g && Some(c) in found))
              && (r.obstacle.isBlocking <==> r.obstacle.blocked != [])
              && (r.recalculate <==> r.obstacle.isBlocking && astarPresent)
    ensures NoDup(o.blocked) ==> NoDup(r.obstacle.blocked)
    ensures Consistent(o) ==> Consistent(r.obstacle)
    ensures Consistent(o) && !o.isBlocking ==> forall c | c in g :: r.graph[c].walkable == (g[c].walkable && Some(c) !in found)
  {
    if o.isBlocking then Outcome(o, g, false)
    else
      var b := BlockEach(g, found, o.blocked);
      if b.1 == [] then Outcome(Obstacle([], false), b.0, false)
      else Outcome(Obstacle(b.1, true), b.0, astarPresent)
  }

  /** UnblockPath. An obstacle that is not blocking does nothing. Otherwise
      every recorded node that still exists is made walkable (even one that
      another obstacle also blocks), the record is cleared, and Astar (when
      there is one) is asked to recalculate. */
  function UnblockPath(o: Obstacle, g: Graph, astarPresent: bool): (r: Outcome)
    ensures !o.isBlocking ==> r == Outcome(o, g, false)
    ensures o.isBlocking ==>
              && r.obstacle == Obstacle([], false)
              && SameTopology(g, r.graph)
              && (forall c | c in g :: r.graph[c].walkable == (g[c].walkable || c in o.blocked))
              && r.recalculate == astarPresent
    ensures Consistent(o) ==> Consistent(r.obstacle)
  {
    if !o.isBlocking then Outcome(o, g, false)
    else Outcome(Obstacle([], false), MakeWalkable(g, o.blocked), astarPresent)
  }

  /** OnDestroy: a blocking obstacle unblocks before it goes; any other
      obstacle goes without effect. */
  function OnDestroy(o: Obstacle, g: Graph, astarPresent: bool): (r: Outcome)
    ensures SameTopology(g, r.graph)
    ensures o.isBlocking ==>
              && r.obstacle == Obstacle([], false)
              && (forall c | c in g :: r.graph[c].walkable == (g[c].walkable || c in o.blocked))
              && r.recalculate == astarPresent
    ensures !o.isBlocking ==> r == Outcome(o, g, false)
    ensures forall c | c in g && g[c].walkable :: r.graph[c].walkable
    ensures Consistent(o) ==> Consistent(r.obstacle)
  {
    if o.isBlocking then UnblockPath(o, g, astarPresent) else Outcome(o, g, false)
  }

  /** Blocking then unblocking restores the graph exactly when every node
      the obstacle overlapped was walkable beforehand. */
  lemma BlockThenUnblockRestores(g: Graph, found: seq<Option<Coord>>, astarPresent: bool)
    requires forall i | 0 <= i < |found| && found[i].Some? && found[i].value in g :: g[found[i].value].walkable
    ensures var b := BlockPath(NewObstacle(), g, found, astarPresent);
            b.obstacle.isBlocking ==> UnblockPath(b.obstacle, b.graph, astarPresent).graph == g
  {
    var b := BlockPath(NewObstacle(), g, found, astarPresent);
    if b.obstacle.isBlocking {
      var h := UnblockPath(b.obstacle, b.graph, astarPresent).graph;
      forall c | c in g ensures h[c] == g[c] {
        if Some(c) in found {
          var i :| 0 <= i < |found| && found[i] == Some(c);
        }
      }
      GraphExtensionality(h, g);
    }
  }

  /** Destroying an obstacle that blocked nodes which were all walkable
      restores the graph, as an explicit unblock does. */
  lemma BlockThenDestroyRestores(g: Graph, found: seq<Option<Coord>>, astarPresent: bool)
    requires forall i | 0 <= i < |found| && found[i].Some? && found[i].value in g :: g[found[i].value].walkable
    ensures var b := BlockPath(NewObstacle(), g, found, astarPresent);
            OnDestroy(b.obstacle, b.graph, astarPresent).graph == g
  {
    BlockThenUnblockRestores(g, found, astarPresent);
    var b := BlockPath(NewObstacle(), g, found, astarPresent);
    if !b.obstacle.isBlocking {
      assert b.obstacle.blocked == [];
      forall c | c in g ensures b.graph[c] == g[c] {
      }
      GraphExtensionality(b.graph, g);
    }
  }

  /** A second BlockPath call after a successful one changes nothing and asks for no recalculation. */
  lemma BlockPathIsIdempotent(o: Obstacle, g: Graph, found: seq<Option<Coord>>, again: seq<Option<Coord>>, astarPresent: bool)
    requires BlockPath(o, g, found, astarPresent).obstacle.isBlocking
    ensures var b := BlockPath(o, g, found, astarPresent);
            BlockPath(b.obstacle, b.graph, again, astarPresent) == Outcome(b.obstacle, b.graph, false)
  {
  }

  /** Unlike tower placement, an obstacle may cut every route: one that
      covers an exit node leaves that exit unreachable from every spawn. */
  lemma BlockingAnExitCutsItOff(o: Obstacle, g: Graph, found: seq<Option<Coord>>, astarPresent: bool, exit: Coord, s: Coord)
    requires Consistent(o) && !o.isBlocking && exit in g && Some(exit) in found
    ensures BlockPath(o, g, found, astarPresent).obstacle.isBlocking
    ensures !Reachable(BlockPath(o, g, found, astarPresent).graph, s, exit)
  {
  }

  /** Two obstacles sharing a node: removing one makes the node walkable
      while the other still stands on it. */
  lemma OverlapIsLostOnUnblock(o1: Obstacle, o2: Obstacle, g: Graph, c: Coord, astarPresent: bool)
    requires o1.isBlocking && o2.isBlocking && c in g && c in o1.blocked && c in o2.blocked
    ensures UnblockPath(o1, g, astarPresent).graph[c].walkable
  {
  }
}

=== FILE: player_health.dfy ===
/** The player's lives (PlayerHealthManager.cs). Events are left out; the
    defeat handler's effect (pausing time) is reported as a flag. Lives are
    C# `int`s, so the `+` in Heal and the `-` in TakeDamage wrap around. */
module PlayerHealth {
  import opened Int32

  datatype Health = Health(current: int, max: int, initialized: bool)

  /** The invariant every operation keeps once lives were initialised
      sensibly (the maximum is an `int`, so at most int.MaxValue). */
  predicate Valid(h: Health) {
    0 <= h.current <= h.max <= MaxValue
  }

  predicate IsAlive(h: Health) {
    h.current > 0
  }

  function Max(a: int, b: int): int { if a >= b then a else b }
  function Min(a: int, b: int): int { if a <= b then a else b }

  /** Initialize: both counters take the starting lives. */
  function Initialize(h: Health, startingLives: int): (r: Health)
    ensures r.current == startingLives && r.max == startingLives && r.initialized
    ensures 0 <= startingLives <= MaxValue ==> Valid(r)
  {
    Health(startingLives, startingLives, true)
  }

  /** What TakeDamage returns: the new state and whether defeat was handled
      (which pauses time). */
  datatype Damaged = Damaged(health: Health, defeated: bool)

  /** TakeDamage: ignored when dead (even before initialisation); otherwise an
      uninitialised manager first refills to its maximum, then loses the
      amount (modulo 2^32), floored at zero; reaching zero is a defeat. */
  function TakeDamage(h: Health, amount: int): (r: Damaged)
    ensures !IsAlive(h) ==> r == Damaged(h, false)
    ensures IsAlive(h) && h.initialized && InInt32(h.current - amount) ==> r.health.current == Max(0, h.current - amount)
    ensures IsAlive(h) && !h.initialized && InInt32(h.max - amount) ==> r.health.current == Max(0, h.max - amount)
    ensures IsAlive(h) ==> 0 <= r.health.current <= MaxValue
    ensures IsAlive(h) && MaxValue < (if h.initialized then h.current else h.max) - amount < Modulus ==>
              r.health.current == 0 && r.defeated
    ensures IsAlive(h) ==> r.health.initialized && r.health.max == h.max
    ensures r.defeated <==> IsAlive(h) && r.health.current == 0
    ensures 0 <= amount <= MaxValue && Valid(h) ==> Valid(r.health) && (h.initialized ==> r.health.current <= h.current)
  {
    if !IsAlive(h) then Damaged(h, false)
    else
      var h1 := if !h.initialized then Initialize(h, h.max) else h;
      var diff := Wrap(h1.current - amount);
      assert MaxValue < h1.current - amount < Modulus ==> diff < 0 by {
        if MaxValue < h1.current - amount < Modulus { WrapPastMax(h1.current - amount); }
      }
      var cur := Max(0, diff);
      Damaged(h1.(current := cur), cur <= 0)
  }

  /** Heal: ignored when dead; otherwise adds lives (modulo 2^32), capped at
      the maximum. A sum past int.MaxValue wraps to a negative count. */
  function Heal(h: Health, amount: int): (r: Health)
    ensures !IsAlive(h) ==> r == h
    ensures IsAlive(h) ==> r.max == h.max && r.initialized == h.initialized
    ensures IsAlive(h) && InInt32(h.current + amount) ==> r.current == Min(h.max, h.current + amount)
    ensures IsAlive(h) && MaxValue < h.current + amount <= 2 * MaxValue ==> r.current == Min(h.max, h.current + amount - Modulus) < 0
    ensures amount >= 0 && h.current + amount <= MaxValue && Valid(h) ==> Valid(r) && r.current >= h.current
  {
    if !IsAlive(h) then h
    else
      var sum := Wrap(h.current + amount);
      assert MaxValue < h.current + amount <= 2 * MaxValue ==> sum == h.current + amount - Modulus by {
        if MaxValue < h.current + amount <= 2 * MaxValue { WrapPastMax(h.current + amount); }
      }
      h.(current := Min(h.max, sum))
  }

  /** The overflow the wrap-around allows: healing int.MaxValue at 1 of 5
      lives leaves int.MinValue lives, outside [0, max]. */
  lemma HealPastMaxGoesNegative()
    ensures Heal(Health(1, 5, true), MaxValue) == Health(MinValue, 5, true)
    ensures !Valid(Heal(Health(1, 5, true), MaxValue))
  {
    WrapPastMax(1 + MaxValue);
  }

  /** Mathf.Clamp: below the low bound gives the low bound, above the high bound the high bound. */
  function Clamp(v: int, lo: int, hi: int): int {
    if v < lo then lo else if v > hi then hi else v
  }

  /** SetHealth: clamp into [0, max]; zero is a defeat. */
  function SetHealth(h: Health, health: int): (r: Damaged)
    ensures h.max >= 0 ==> 0 <= r.health.current <= h.max
    ensures h.max >= 0 && 0 <= health <= h.max ==> r.health.current == health
    ensures r.health.max == h.max && r.health.initialized == h.initialized
    ensures r.defeated <==> r.health.current <= 0
  {
    var cur := Clamp(health, 0, h.max);
    Damaged(h.(current := cur), cur <= 0)
  }

  /** SetMaxHealth: the maximum is at least 1; current is filled up or capped. */
  function SetMaxHealth(h: Health, newMax: int, healToFull: bool): (r: Health)
    ensures r.max >= 1 && (newMax >= 1 ==> r.max == newMax)
    ensures healToFull ==> r.current == r.max
    ensures !healToFull ==> r.current == Min(h.current, r.max)
    ensures h.current >= 0 && newMax <= MaxValue ==> Valid(r)
  {
    var m := Max(1, newMax);
    h.(max := m, current := if healToFull then m else Min(h.current, m))
  }

  /** Reset: back to full lives, marked initialised. */
  function Reset(h: Health): (r: Health)
    ensures r.current == h.max && r.max == h.max && r.initialized
    ensures 0 <= h.max <= MaxValue ==> Valid(r)
  {
    h.(current := h.max, initialized := true)
  }

  /** One call of the manager's public interface. */
  datatype Op =
    | InitializeOp(startingLives: int)
    | TakeDamageOp(amount: int)
    | HealOp(amount: int)
    | SetHealthOp(health: int)
    | SetMaxHealthOp(newMax: int, healToFull: bool)
    | ResetOp

  function Apply(h: Health, op: Op): Health {
    match op
    case InitializeOp(n) => Initialize(h, n)
    case TakeDamageOp(a) => TakeDamage(h, a).health
    case HealOp(a) => Heal(h, a)
    case SetHealthOp(n) => SetHealth(h, n).health
    case SetMaxHealthOp(n, full) => SetMaxHealth(h, n, full)
    case ResetOp => Reset(h)
  }

  /** Arguments the callers are expected to pass in state h: `int`s, with
      non-negative amounts and starting lives, and a heal whose sum with the
      current lives does not overflow. */
  predicate SaneArgs(h: Health, op: Op) {
    match op
    case InitializeOp(n) => 0 <= n <= MaxValue
    case TakeDamageOp(a) => 0 <= a <= MaxValue
    case HealOp(a) => 0 <= a && h.current + a <= MaxValue
    case SetHealthOp(n) => InInt32(n)
    case SetMaxHealthOp(n, _) => InInt32(n)
    case ResetOp => true
  }

  /** Every call of the sequence gets sane arguments in the state it is applied to. */
  predicate SaneRun(h: Health, ops: seq<Op>)
    decreases |ops|
  {
    ops == [] || (SaneArgs(h, ops[0]) && SaneRun(Apply(h, ops[0]), ops[1..]))
  }

  function ApplyAll(h: Health, ops: seq<Op>): Health
    decreases |ops|
  {
    if ops == [] then h else ApplyAll(Apply(h, ops[0]), ops[1..])
  }

  /** 0 <= current <= max survives any sequence of calls with sane
      arguments (HealPastMaxGoesNegative shows why an overflowing heal is
      excluded). */
  lemma {:induction false} ValidForever(h: Health, ops: seq<Op>)
    requires Valid(h)
    requires SaneRun(h, ops)
    ensures Valid(ApplyAll(h, ops))
    decreases |ops|
  {
    if ops != [] {
      var h1 := Apply(h, ops[0]);
      assert Valid(h1);
      ValidForever(h1, ops[1..]);
    }
  }
}

=== FILE: pool_manager.dfy ===
/** Named object pools (PoolManager.cs): one FIFO queue of inactive objects
    per prefab name. Instantiation is modelled by a counter that hands out
    fresh object identities; activation, parenting and the IPoolable
    callbacks are left out. */
module Pools {
  import opened Wrappers

  datatype Obj = Obj(id: nat, name: string)

  /** The pools (queue front is index 0), the configured prefab names, and
      the next fresh object id. */
  datatype Manager = Manager(pools: map<string, seq<Obj>>, prefabs: seq<string>, nextId: nat)

  /** `count` fresh objects named `key`, with ids from `first`. */
  function FreshObjs(key: string, first: nat, count: nat): (r: seq<Obj>)
    ensures |r| == count
    ensures forall i | 0 <= i < count :: r[i] == Obj(first + i, key)
  {
    seq(count, i requires 0 <= i < count => Obj(first + i, key))
  }

  /** CreatePool: make the queue if missing, then enqueue `count` new objects
      (none for a non-positive count). */
  function CreatePool(m: Manager, prefab: string, count: int): (r: Manager)
    ensures r.pools.Keys == m.pools.Keys + {prefab}
    ensures forall k | k in m.pools && k != prefab :: r.pools[k] == m.pools[k]
    ensures var before := if prefab in m.pools then m.pools[prefab] else [];
            var n := if count > 0 then count else 0;
            |r.pools[prefab]| == |before| + n && r.pools[prefab][..|before|] == before
            && forall i | |before| <= i < |r.pools[prefab]| :: r.pools[prefab][i].name == prefab
    ensures r.prefabs == m.prefabs && r.nextId >= m.nextId
  {
    var before := if prefab in m.pools then m.pools[prefab] else [];
    var n: nat := if count > 0 then count else 0;
    var q := before + FreshObjs(prefab, m.nextId, n);
    assert q[..|before|] == before;
    m.(pools := m.pools[prefab := q], nextId := m.nextId + n)
  }

  /** The first configured prefab with the given name, as List.Find. */
  function FindPrefab(prefabs: seq<string>, name: string): (r: Option<string>)
    ensures r.Some? <==> name in prefabs
    ensures r.Some? ==> r.value == name
  {
    if name in prefabs then Some(name) else None
  }

  /** Spawn: unknown pool gives null; a non-empty pool gives its front
      object; an empty pool instantiates a new object named after the pool,
      or gives null when no prefab of that name is configured. */
  function Spawn(m: Manager, poolName: string): (r: (Option<Obj>, Manager))
    ensures poolName !in m.pools ==> r == (None, m)
    ensures poolName in m.pools && |m.pools[poolName]| > 0 ==>
              r.0 == Some(m.pools[poolName][0]) && r.1 == m.(pools := m.pools[poolName := m.pools[poolName][1..]])
    ensures poolName in m.pools && |m.pools[poolName]| == 0 ==>
              r.1.pools == m.pools
              && (r.0.Some? <==> poolName in m.prefabs)
              && (r.0.Some? ==> r.0.value.name == poolName && r.0.value.id == m.nextId)
  {
    if poolName !in m.pools then (None, m)
    else if |m.pools[poolName]| > 0 then
      (Some(m.pools[poolName][0]), m.(pools := m.pools[poolName := m.pools[poolName][1..]]))
    else
      match FindPrefab(m.prefabs, poolName)
      case None => (None, m)
      case Some(p) => (Some(Obj(m.nextId, poolName)), m.(nextId := m.nextId + 1))
  }

  /** Despawn: an object whose name is a pool key goes to the back of that
      queue; any other object is destroyed and no pool changes. */
  function Despawn(m: Manager, obj: Obj): (r: Manager)
    ensures obj.name !in m.pools ==> r == m
    ensures obj.name in m.pools ==> r.pools == m.pools[obj.name := m.pools[obj.name] + [obj]]
    ensures r.pools.Keys == m.pools.Keys && r.prefabs == m.prefabs && r.nextId == m.nextId
  {
    if obj.name !in m.pools then m
    else m.(pools := m.pools[obj.name := m.pools[obj.name] + [obj]])
  }

  /** FIFO: an object returned to a pool comes out only after everything
      that was already waiting; into an empty pool it comes straight back. */
  lemma DespawnThenSpawnIsFifo(m: Manager, obj: Obj)
    requires obj.name in m.pools
    ensures var r := Spawn(Despawn(m, obj), obj.name);
            r.0 == Some(if |m.pools[obj.name]| == 0 then obj else m.pools[obj.name][0])
    ensures |m.pools[obj.name]| > 0 ==>
              Spawn(Despawn(m, obj), obj.name).1.pools[obj.name] == m.pools[obj.name][1..] + [obj]
  {
    var q := m.pools[obj.name] + [obj];
    assert q[1..] == if |m.pools[obj.name]| == 0 then [] else m.pools[obj.name][1..] + [obj];
  }

  /** Spawning from a pool filled by CreatePool on a missing key yields the
      first object created. */
  lemma CreateThenSpawnGivesFirst(m: Manager, prefab: string, count: int)
    requires prefab !in m.pools && count > 0
    ensures Spawn(CreatePool(m, prefab, count), prefab).0 == Some(Obj(m.nextId, prefab))
  {
    var r := CreatePool(m, prefab, count);
    assert r.pools[prefab] == FreshObjs(prefab, m.nextId, count);
  }
}

=== FILE: selection.dfy ===
/** The "keep the first strictly better candidate" scan that the game's
    selection loops share: a running best starts empty (or at a sentinel no
    real candidate reaches) and is replaced only by a strictly smaller
    score, so among equal scores the earliest wins. Candidates that take no
    part in the comparison carry the score None. */
module Selection {
  import opened Wrappers

  /** `k` holds the first least score (scores that are None take no part). */
  predicate FirstMin(scores: seq<Option<real>>, k: nat) {
    k < |scores| && scores[k].Some?
    && (forall i | 0 <= i < |scores| && scores[i].Some? :: scores[k].value <= scores[i].value)
    && (forall i | 0 <= i < k && scores[i].Some? :: scores[k].value < scores[i].value)
  }

  /** There is at most one first minimum. */
  lemma FirstMinIsUnique(scores: seq<Option<real>>, j: nat, k: nat)
    requires FirstMin(scores, j) && FirstMin(scores, k)
    ensures j == k
  {
  }

  /** The scan over the scores in order: the last candidate replaces the
      best of the earlier ones only when strictly smaller. */
  function ArgMin(scores: seq<Option<real>>): (r: Option<nat>)
    ensures r.None? <==> forall i | 0 <= i < |scores| :: scores[i].None?
    ensures r.Some? ==> FirstMin(scores, r.value)
    decreases |scores|
  {
    if scores == [] then None
    else
      var n := |scores| - 1;
      var prev := ArgMin(scores[..n]);
      assert forall i | 0 <= i < n :: scores[..n][i] == scores[i];
      if scores[n].Some? && (prev.None? || scores[n].value < scores[prev.value].value) then Some(n)
      else prev
  }

  /** `k` holds the first greatest score above `floor` (scores that are None take no part). */
  predicate FirstMaxAbove(scores: seq<Option<real>>, floor: real, k: nat) {
    k < |scores| && scores[k].Some? && scores[k].value > floor
    && (forall i | 0 <= i < |scores| && scores[i].Some? :: scores[i].value <= scores[k].value)
    && (forall i | 0 <= i < k && scores[i].Some? :: scores[i].value < scores[k].value)
  }

  /** There is at most one first maximum above a floor. */
  lemma FirstMaxAboveIsUnique(scores: seq<Option<real>>, floor: real, j: nat, k: nat)
    requires FirstMaxAbove(scores, floor, j) && FirstMaxAbove(scores, floor, k)
    ensures j == k
  {
  }

  /** The scan starting from `floor` over the scores in order: the last
      candidate replaces the best of the earlier ones (or the floor) only
      when strictly greater. */
  function ArgMaxAbove(scores: seq<Option<real>>, floor: real): (r: Option<nat>)
    ensures r.None? <==> forall i | 0 <= i < |scores| && scores[i].Some? :: scores[i].value <= floor
    ensures r.Some? ==> FirstMaxAbove(scores, floor, r.value)
    decreases |scores|
  {
    if scores == [] then None
    else
      var n := |scores| - 1;
      var prev := ArgMaxAbove(scores[..n], floor);
      assert forall i | 0 <= i < n :: scores[..n][i] == scores[i];
      var best := if prev.Some? then scores[prev.value].value else floor;
      if scores[n].Some? && scores[n].value > best then Some(n)
      else prev
  }

  /** `idx` lists, in increasing order, the positions of `s` whose elements
      make up `r`, and those are exactly the positions whose element `keep`
      accepts: `r` is the order-preserving filter of `s` by `keep`. */
  predicate OrderedFilter<T(==)>(r: seq<T>, s: seq<T>, keep: T -> bool, idx: seq<nat>) {
    |idx| == |r|
    && (forall i | 0 <= i < |idx| :: idx[i] < |s| && r[i] == s[idx[i]])
    && (forall i, j | 0 <= i < j < |idx| :: idx[i] < idx[j])
    && (forall j | 0 <= j < |s| :: j in idx <==> keep(s[j]))
  }

  /** Every position moved one place on. */
  function Shift(idx: seq<nat>): (r: seq<nat>)
    ensures |r| == |idx| && forall i | 0 <= i < |idx| :: r[i] == idx[i] + 1
  {
    seq(|idx|, i requires 0 <= i < |idx| => idx[i] + 1)
  }

  /** A shifted position list holds j exactly when the original holds j - 1. */
  lemma ShiftMembers(idx: seq<nat>)
    ensures forall j: int :: j in Shift(idx) <==> j >= 1 && j - 1 in idx
  {
    forall j: int | j >= 1 && j - 1 in idx ensures j in Shift(idx) {
      var i :| 0 <= i < |idx| && idx[i] == j - 1;
      assert Shift(idx)[i] == j;
    }
  }

  /** Filtering one more element in front: the filter of the tail, preceded
      by the head when `keep` accepts it, is the filter of the whole. */
  lemma FilterStep<T>(s: seq<T>, keep: T -> bool, rest: seq<T>, idx: seq<nat>) returns (idx': seq<nat>)
    requires s != [] && OrderedFilter(rest, s[1..], keep, idx)
    ensures OrderedFilter(if keep(s[0]) then [s[0]] + rest else rest, s, keep, idx')
  {
    ShiftedPositions(s, keep, rest, idx);
    var sh := Shift(idx);
    if keep(s[0]) {
      idx' := [0] + sh;
      FilterTake(s, keep, rest, sh);
    } else {
      idx' := sh;
    }
  }

  /** The accepted head, in front of the tail's shifted positions. */
  lemma FilterTake<T>(s: seq<T>, keep: T -> bool, rest: seq<T>, sh: seq<nat>)
    requires s != [] && keep(s[0]) && |sh| == |rest|
    requires forall i | 0 <= i < |sh| :: 1 <= sh[i] < |s| && rest[i] == s[sh[i]]
    requires forall i, j | 0 <= i < j < |sh| :: sh[i] < sh[j]
    requires forall j | 1 <= j < |s| :: j in sh <==> keep(s[j])
    ensures OrderedFilter([s[0]] + rest, s, keep, [0] + sh)
  {
    PrependZero(sh);
    forall i | 0 <= i < |[0] + sh| ensures ([0] + sh)[i] < |s| && ([s[0]] + rest)[i] == s[([0] + sh)[i]] {
      if i > 0 {
        assert ([0] + sh)[i] == sh[i - 1] && ([s[0]] + rest)[i] == rest[i - 1];
      }
    }
    forall j | 0 <= j < |s| ensures j in [0] + sh <==> keep(s[j]) {
      assert j in [0] + sh <==> j == 0 || j in sh;
    }
  }

  /** The tail's positions, moved one place on, locate the tail's filter in
      the whole sequence, and a position past the head is picked exactly when
      its element is accepted. */
  lemma ShiftedPositions<T>(s: seq<T>, keep: T -> bool, rest: seq<T>, idx: seq<nat>)
    requires s != [] && OrderedFilter(rest, s[1..], keep, idx)
    ensures forall i | 0 <= i < |idx| :: 1 <= Shift(idx)[i] < |s| && rest[i] == s[Shift(idx)[i]]
    ensures forall i, j | 0 <= i < j < |idx| :: Shift(idx)[i] < Shift(idx)[j]
    ensures forall j | 1 <= j < |s| :: j in Shift(idx) <==> keep(s[j])
    ensures 0 !in Shift(idx)
  {
    ShiftMembers(idx);
    forall j | 1 <= j < |s| ensures j in Shift(idx) <==> keep(s[j]) {
      assert s[j] == s[1..][j - 1];
    }
  }

  /** Putting position 0 in front of increasing positive positions keeps them increasing. */
  lemma PrependZero(sh: seq<nat>)
    requires forall i | 0 <= i < |sh| :: sh[i] >= 1
    requires forall i, j | 0 <= i < j < |sh| :: sh[i] < sh[j]
    ensures forall i, j | 0 <= i < j < |[0] + sh| :: ([0] + sh)[i] < ([0] + sh)[j]
  {
    forall i, j | 0 <= i < j < |[0] + sh| ensures ([0] + sh)[i] < ([0] + sh)[j] {
      assert ([0] + sh)[j] == sh[j - 1];
      if i > 0 {
        assert ([0] + sh)[i] == sh[i - 1];
      }
    }
  }

  /** List.IndexOf: the first position of `x` in `s`, or -1 when it is absent. */
  function IndexOf<T(==)>(s: seq<T>, x: T): (r: int)
    ensures -1 <= r < |s|
    ensures r == -1 <==> x !in s
    ensures r >= 0 ==> s[r] == x && forall j | 0 <= j < r :: s[j] != x
    decreases |s|
  {
    if s == [] then -1
    else if s[0] == x then 0
    else
      var k := IndexOf(s[1..], x);
      assert forall j | 0 < j < |s| :: s[j] == s[1..][j - 1];
      if k == -1 then -1 else k + 1
  }
}

=== FILE: time_controller.dfy ===
/** Game speed control (TimeController.cs): an index into a list of speed
    options plus a pause flag, with Unity's global time scale modelled as a
    field. Log lines and change events are left out. */
module TimeControl {
  import opened Wrappers

  /** The default speed options 0x, 1x, 2x, 3x and the default index 1. */
  const DefaultOptions: seq<real> := [0.0, 1.0, 2.0, 3.0]
  const DefaultSpeedIndex: int := 1

  datatype Clock = Clock(options: seq<real>, defaultIndex: int, index: int, paused: bool, timeScale: real)

  /** Indices in range. */
  predicate Valid(c: Clock) {
    0 <= c.index < |c.options| && 0 <= c.defaultIndex < |c.options|
  }

  /** The time scale agrees with the controller: zero while paused, the
      selected option otherwise. */
  predicate Coherent(c: Clock)
    requires Valid(c)
  {
    if c.paused then c.timeScale == 0.0 else c.timeScale == c.options[c.index]
  }

  /** ApplyTimeScale: only an unpaused controller writes the time scale. */
  function ApplyTimeScale(c: Clock): (r: Clock)
    requires Valid(c)
    ensures Valid(r) && r.index == c.index && r.paused == c.paused && r.options == c.options
    ensures !c.paused ==> Coherent(r)
    ensures c.paused ==> r == c
  {
    if !c.paused then c.(timeScale := c.options[c.index]) else c
  }

  /** Start: select the default index and apply it. An unpaused controller
      reads the option at that index, so a default index outside the options
      throws; that is a `Failure` carrying the clock as the throw leaves it,
      with the index already assigned. A paused one reads nothing and cannot
      throw. */
  function Start(c: Clock): (r: Result<Clock, Clock>)
    ensures r.Failure? <==> !c.paused && !(0 <= c.defaultIndex < |c.options|)
    ensures r.Success? ==> r.value.index == c.defaultIndex && r.value.paused == c.paused && r.value.options == c.options
    ensures r.Success? && c.paused ==> r.value.timeScale == c.timeScale
    ensures r.Failure? ==> r.error.index == c.defaultIndex && r.error.timeScale == c.timeScale
                           && r.error.paused == c.paused && r.error.options == c.options
    ensures Valid(c) ==> r.Success? && Valid(r.value)
    ensures Valid(c) && !c.paused ==> Coherent(r.value)
  {
    var d := c.(index := c.defaultIndex);
    if c.paused then Success(d)
    else if 0 <= c.defaultIndex < |c.options| then Success(ApplyTimeScale(d))
    else Failure(d)
  }

  /** With the shipped settings (options 0x, 1x, 2x, 3x, default index 1) an
      unpaused controller starts at normal speed. */
  lemma DefaultStartIsNormalSpeed(timeScale: real)
    ensures var r := Start(Clock(DefaultOptions, DefaultSpeedIndex, 1, false, timeScale));
            r.Success? && r.value.index == 1 && r.value.timeScale == 1.0
  {
  }

  /** Pause reads no option, so it needs no index in range: it only sets the
      flag and stops time. */
  function Pause(c: Clock): (r: Clock)
    ensures r.paused && r.timeScale == 0.0
    ensures r.index == c.index && r.defaultIndex == c.defaultIndex && r.options == c.options
    ensures Valid(c) ==> Valid(r) && Coherent(r)
  {
    c.(paused := true, timeScale := 0.0)
  }

  function Resume(c: Clock): (r: Clock)
    requires Valid(c)
    ensures Valid(r) && Coherent(r) && !r.paused && r.index == c.index
  {
    ApplyTimeScale(c.(paused := false))
  }

  function TogglePause(c: Clock): (r: Clock)
    requires Valid(c)
    ensures Valid(r) && Coherent(r)
    ensures r.paused == !c.paused && r.index == c.index
  {
    if c.paused then Resume(c) else Pause(c)
  }

  /** Toggling twice restores the pause state and the speed index, and
      leaves a coherent controller exactly as it was. */
  lemma TogglePauseTwice(c: Clock)
    requires Valid(c)
    ensures TogglePause(TogglePause(c)).paused == c.paused
    ensures TogglePause(TogglePause(c)).index == c.index
    ensures Coherent(c) ==> TogglePause(TogglePause(c)) == c
  {
  }

  /** SpeedUp: while paused it only resumes; otherwise it moves one option up
      if there is one. */
  function SpeedUp(c: Clock): (r: Clock)
    requires Valid(c)
    ensures Valid(r) && !r.paused
    ensures c.paused ==> r.index == c.index
    ensures !c.paused ==> r.index == (if c.index + 1 < |c.options| then c.index + 1 else c.index)
    ensures c.paused || Coherent(c) ==> Coherent(r)
  {
    if c.paused then Resume(c)
    else if c.index + 1 < |c.options| then ApplyTimeScale(c.(index := c.index + 1))
    else c
  }

  /** SlowDown: ignored while paused; never moves below index 1. */
  function SlowDown(c: Clock): (r: Clock)
    requires Valid(c)
    ensures Valid(r) && r.paused == c.paused
    ensures c.paused ==> r == c
    ensures !c.paused ==> r.index == (if c.index - 1 >= 1 then c.index - 1 else c.index)
    ensures c.index >= 1 ==> r.index >= 1
    ensures Coherent(c) ==> Coherent(r)
  {
    if c.paused then c
    else if c.index - 1 >= 1 then ApplyTimeScale(c.(index := c.index - 1))
    else c
  }

  /** SetNormalSpeed: unpaused at the default index. */
  function SetNormalSpeed(c: Clock): (r: Clock)
    requires Valid(c)
    ensures Valid(r) && Coherent(r) && !r.paused && r.index == c.defaultIndex
  {
    ApplyTimeScale(c.(paused := false, index := c.defaultIndex))
  }

  /** SetSpeedIndex: an out-of-range index is ignored; a zero-speed option
      pauses; any other option unpauses at that speed. */
  function SetSpeedIndex(c: Clock, i: int): (r: Clock)
    requires Valid(c)
    ensures Valid(r)
    ensures !(0 <= i < |c.options|) ==> r == c
    ensures 0 <= i < |c.options| ==> r.index == i && (r.paused <==> c.options[i] == 0.0) && Coherent(r)
  {
    if i < 0 || i >= |c.options| then c
    else if c.options[i] == 0.0 then Pause(c.(index := i))
    else ApplyTimeScale(c.(index := i, paused := false))
  }

  function AbsReal(x: real): real { if x < 0.0 then -x else x }

  /** SetSpeed's search: the first index whose option is closest to `speed`
      (strict comparison, so earlier options win ties); 1 when there are no
      options, as the search starts from index 1. */
  method ClosestIndex(options: seq<real>, speed: real) returns (best: int)
    ensures |options| == 0 ==> best == 1
    ensures |options| > 0 ==> 0 <= best < |options|
    ensures |options| > 0 ==> forall j | 0 <= j < |options| :: AbsReal(options[best] - speed) <= AbsReal(options[j] - speed)
    ensures |options| > 0 ==> forall j | 0 <= j < best :: AbsReal(options[best] - speed) < AbsReal(options[j] - speed)
  {
    best := 1;
    if |options| == 0 {
      return;
    }
    best := 0;
    var bestDiff := AbsReal(options[0] - speed);
    var i := 1;
    while i < |options|
      invariant 1 <= i <= |options|
      invariant 0 <= best < i
      invariant bestDiff == AbsReal(options[best] - speed)
      invariant forall j | 0 <= j < i :: bestDiff <= AbsReal(options[j] - speed)
      invariant forall j | 0 <= j < best :: bestDiff < AbsReal(options[j] - speed)
    {
      var diff := AbsReal(options[i] - speed);
      if diff < bestDiff {
        best, bestDiff := i, diff;
      }
      i := i + 1;
    }
  }

  /** SetSpeed: jump to the closest option. */
  method SetSpeed(c: Clock, speed: real) returns (r: Clock)
    requires Valid(c)
    ensures Valid(r)
    ensures |c.options| > 0 ==>
              (0 <= r.index < |c.options|
               && forall j | 0 <= j < |c.options| :: AbsReal(c.options[r.index] - speed) <= AbsReal(c.options[j] - speed))
    ensures (r.paused <==> c.options[r.index] == 0.0) && Coherent(r)
  {
    var i := ClosestIndex(c.options, speed);
    r := SetSpeedIndex(c, i);
  }

  /** CycleSpeed: while paused it only resumes; otherwise it moves one option
      up, wrapping past the last option to index 1. With a single option the
      wrap target does not exist and Unity would throw; that is a `Failure`
      carrying the clock as the throw leaves it, index 1 already assigned. */
  function CycleSpeed(c: Clock): (r: Result<Clock, Clock>)
    requires Valid(c)
    ensures c.paused ==> r == Success(Resume(c))
    ensures !c.paused ==> (r.Failure? <==> c.index + 1 >= |c.options| && |c.options| < 2)
    ensures r.Success? ==> Valid(r.value) && !r.value.paused && Coherent(r.value)
    ensures r.Success? && !c.paused ==> r.value.index != 0
    ensures r.Success? && !c.paused && c.index + 1 < |c.options| ==> r.value.index == c.index + 1
    ensures r.Failure? ==> r.error.index == 1 && r.error.timeScale == c.timeScale
                           && !r.error.paused && r.error.options == c.options
  {
    if c.paused then Success(Resume(c))
    else
      var next := if c.index + 1 >= |c.options| then 1 else c.index + 1;
      if next >= |c.options| then Failure(c.(index := next))
      else Success(ApplyTimeScale(c.(index := next)))
  }
}

=== FILE: tower_placement.dfy ===
/** Tower placement (TowerPlacementController.cs): the speculative path check
    behind the preview, the preview's validity rules, and committing a
    placement. Mouse rays, overlap spheres and the preview object's colour
    are inputs or left out: the ground hit arrives as the grid cell under
    the mouse, the node overlap as the list of colliders found (None for a
    collider without a PathNode), the enemy overlap as a flag. */
module Placement {
  import opened Wrappers
  import opened Coords
  import opened PathGraph
  import opened SpawnPoints
  import AStar
  import PathCache
  import Grid
  import Currency
  import Int32
  import Maps

  /** Every live (spawn, exit) pair keeps a route; destroyed (null) entries are skipped. */
  ghost predicate EveryPairConnected(g: Graph, starts: seq<Coord>, ends: seq<Coord>) {
    forall i, j | 0 <= i < |starts| && 0 <= j < |ends| && starts[i] in g && ends[j] in g ::
      Reachable(g, starts[i], ends[j])
  }

  /** The inner loop of CheckAllPathsValid for one spawn. */
  function AllEndsReachable(g: Graph, s: Coord, ends: seq<Coord>): (r: bool)
    requires WellFormed(g)
    ensures r <==> forall j | 0 <= j < |ends| && s in g && ends[j] in g :: Reachable(g, s, ends[j])
    decreases |ends|
  {
    if ends == [] then true
    else if s in g && ends[0] in g && AStar.FindPath(g, s, ends[0]).None? then false
    else
      var rest := AllEndsReachable(g, s, ends[1..]);
      assert forall j | 0 < j < |ends| :: ends[j] == ends[1..][j - 1];
      rest
  }

  /** The nested loops of CheckAllPathsValid, returning false at the first
      live pair without a route. */
  function AllPairsConnected(g: Graph, starts: seq<Coord>, ends: seq<Coord>): (r: bool)
    requires WellFormed(g)
    ensures r <==> EveryPairConnected(g, starts, ends)
    decreases |starts|
  {
    if starts == [] then true
    else if !AllEndsReachable(g, starts[0], ends) then false
    else
      var rest := AllPairsConnected(g, starts[1..], ends);
      assert forall i | 0 < i < |starts| :: starts[i] == starts[1..][i - 1];
      rest
  }

  /** CheckAllPathsValid: true without an Astar instance or when either
      registry list is missing or empty; otherwise true exactly when every
      live (spawn, exit) pair still has a route. */
  function CheckAllPathsValid(g: Graph, astarPresent: bool, reg: Registry): (r: bool)
    requires WellFormed(g)
    ensures !astarPresent ==> r
    ensures Registered(reg, Start) == [] || Registered(reg, End) == [] ==> r
    ensures astarPresent && Registered(reg, Start) != [] && Registered(reg, End) != [] ==>
              (r <==> EveryPairConnected(g, Registered(reg, Start), Registered(reg, End)))
  {
    if !astarPresent then true
    else if Registered(reg, Start) == [] then true
    else if Registered(reg, End) == [] then true
    else AllPairsConnected(g, Registered(reg, Start), Registered(reg, End))
  }

  /** ClearTemporaryBlocks: every recorded node that still exists becomes
      walkable (not its earlier value); the record is emptied by the caller. */
  function ClearTemporaryBlocks(g: Graph, temp: seq<Coord>): (r: Graph)
    ensures SameTopology(g, r)
    ensures forall c | c in g :: r[c].walkable == (g[c].walkable || c in temp)
  {
    MakeWalkable(g, temp)
  }

  /** The collider loop of ValidatePathsAtPosition: each found node that is
      still walkable is blocked and recorded. A node found twice is recorded
      once, because it is no longer walkable the second time. */
  function BlockFound(g: Graph, found: seq<Option<Coord>>, temp: seq<Coord>): (r: (Graph, seq<Coord>))
    ensures SameTopology(g, r.0)
    ensures |r.1| >= |temp| && r.1[..|temp|] == temp
    ensures forall c | c in g :: r.0[c].walkable == (g[c].walkable && Some(c) !in found)
    ensures forall c :: c in r.1[|temp|..] <==> c in g && g[c].walkable && Some(c) in found
    ensures NoDup(temp) && (forall c | c in temp :: c !in g || !g[c].walkable) ==>
              NoDup(r.1) && forall c | c in r.1 :: c !in g || !r.0[c].walkable
    decreases |found|
  {
    if found == [] then (g, temp)
    else
      var o := found[0];
      var live := o.Some? && o.value in g && g[o.value].walkable;
      var g1 := if live then SetWalkable(g, o.value, false) else g;
      var t1 := if live then temp + [o.value] else temp;
      var r := BlockFound(g1, found[1..], t1);
      assert forall x :: x in found <==> x == o || x in found[1..];
      assert t1[..|temp|] == temp;
      RecordSplit(temp, t1, r.1);
      if live then BlockOneKeeps(g, o.value, temp); r else r
  }

  /** The record grows only at its end: what was recorded before the
      recursive call stays its prefix. */
  lemma RecordSplit(temp: seq<Coord>, t1: seq<Coord>, r1: seq<Coord>)
    requires |t1| >= |temp| && t1[..|temp|] == temp
    requires |r1| >= |t1| && r1[..|t1|] == t1
    ensures r1[..|temp|] == temp
    ensures forall c :: c in r1[|temp|..] <==> c in t1[|temp|..] || c in r1[|t1|..]
  {
    assert r1[..|temp|] == r1[..|t1|][..|temp|];
    assert r1[|temp|..] == t1[|temp|..] + r1[|t1|..];
  }

  /** Blocking one walkable node and recording it keeps the record free of
      repeats and every recorded node blocked. */
  lemma BlockOneKeeps(g: Graph, c: Coord, temp: seq<Coord>)
    requires c in g && g[c].walkable
    ensures var g1 := SetWalkable(g, c, false);
            NoDup(temp) && (forall x | x in temp :: x !in g || !g[x].walkable) ==>
              NoDup(temp + [c]) && forall x | x in temp + [c] :: x !in g1 || !g1[x].walkable
  {
    var g1 := SetWalkable(g, c, false);
    if NoDup(temp) && (forall x | x in temp :: x !in g || !g[x].walkable) {
      assert c !in temp;
      forall i, j | 0 <= i < j < |temp + [c]| ensures (temp + [c])[i] != (temp + [c])[j] {
        if j == |temp| {
          assert (temp + [c])[i] == temp[i];
        } else {
          assert (temp + [c])[i] == temp[i] && (temp + [c])[j] == temp[j];
        }
      }
    }
  }

  /** Blocking the walkable found nodes and then clearing the record restores
      the graph exactly: every recorded node was walkable before. */
  lemma ClearUndoesBlock(g: Graph, found: seq<Option<Coord>>)
    ensures ClearTemporaryBlocks(BlockFound(g, found, []).0, BlockFound(g, found, []).1) == g
  {
    var b := BlockFound(g, found, []);
    assert b.1[0..] == b.1;
    var h := ClearTemporaryBlocks(b.0, b.1);
    forall c | c in g ensures h[c] == g[c] {
      assert h[c].walkable == g[c].walkable;
    }
    GraphExtensionality(h, g);
  }

  /** The result of ValidatePathsAtPosition: the verdict, the graph after
      the temporary blocks are cleared, and the (now empty) block record. */
  datatype Validation = Validation(valid: bool, graph: Graph, temp: seq<Coord>)

  /** ValidatePathsAtPosition: clear earlier temporary blocks; with no
      collider, or no walkable node among them, the answer is true;
      otherwise block the walkable found nodes, run CheckAllPathsValid, and
      clear the blocks again. */
  function ValidatePathsAtPosition(g: Graph, temp: seq<Coord>, found: seq<Option<Coord>>, astarPresent: bool, reg: Registry): (r: Validation)
    requires WellFormed(g)
    ensures r.temp == []
    ensures r.graph == ClearTemporaryBlocks(g, temp)
    ensures found == [] ==> r.valid
    ensures (forall i | 0 <= i < |found| :: found[i].None? || found[i].value !in r.graph || !r.graph[found[i].value].walkable) ==> r.valid
    ensures var g1 := ClearTemporaryBlocks(g, temp);
            (exists i | 0 <= i < |found| :: found[i].Some? && found[i].value in g1 && g1[found[i].value].walkable) ==>
              r.valid == CheckAllPathsValid(BlockFound(g1, found, []).0, astarPresent, reg)
  {
    var g1 := ClearTemporaryBlocks(g, temp);
    if found == [] then Validation(true, g1, [])
    else
      var b := BlockFound(g1, found, []);
      assert b.1[0..] == b.1;
      if b.1 == [] then
        assert forall i | 0 <= i < |found| :: found[i].None? || found[i].value !in g1 || !g1[found[i].value].walkable by {
          forall i | 0 <= i < |found| && found[i].Some? && found[i].value in g1 ensures !g1[found[i].value].walkable {
            assert Some(found[i].value) in found;
          }
        }
        Validation(true, g1, [])
      else
        var ok := CheckAllPathsValid(b.0, astarPresent, reg);
        ClearUndoesBlock(g1, found);
        Validation(ok, ClearTemporaryBlocks(b.0, b.1), [])
  }

  /** The preview demands more than WouldBlockAllPaths: when a single node
      is blocked and the preview check passes with some live spawn and exit
      registered, the Astar probe also reports that nothing is blocked. The
      converse does not hold: the probe accepts as soon as one pair survives. */
  lemma PreviewImpliesProbeAccepts(g: Graph, reg: Registry, coords: Coord, i: nat, j: nat)
    requires WellFormed(g) && coords in g
    requires Start in reg && End in reg
    requires i < |reg[Start]| && j < |reg[End]| && reg[Start][i] in g && reg[End][j] in g
    requires CheckAllPathsValid(SetWalkable(g, coords, false), true, reg)
    ensures PathCache.WouldBlockAllPaths(g, true, reg, coords).0 == Success(false)
  {
    var h := SetWalkable(g, coords, false);
    assert Reachable(h, reg[Start][i], reg[End][j]);
  }

  /** What the preview decides, in the order the checks run. */
  datatype Preview =
    | Hidden              // no preview object, no ground hit, or no grid cell there
    | WrongTile           // the map's tile there is neither Empty nor Buildable
    | Occupied            // a tower already stands on the cell
    | EnemyPresent        // an enemy overlaps the cell centre
    | Unaffordable        // the balance does not cover the build cost
    | Checked(valid: bool) // the outcome of ValidatePathsAtPosition

  /** The placement controller's state: the tower being placed (its build
      cost; None outside placement mode), whether a preview object exists,
      the last preview verdict and the temporary block record. */
  datatype Controller = Controller(selected: Option<int>, previewExists: bool, isValid: bool, temp: seq<Coord>)

  /** HandlePreview. `hitCell` is the grid cell under the mouse when the
      ground ray hits; `tileType` is MapLoader.GetTileTypeAtPosition of the
      cell centre when a MapLoader exists. Only the final check touches the
      graph and the block record. */
  function HandlePreview(c: Controller, g: Graph, hitCell: Option<Coord>, cells: Grid.Cells,
                         tileType: Option<Maps.TileType>, enemyAtCentre: bool, balance: int,
                         found: seq<Option<Coord>>, astarPresent: bool, reg: Registry): (r: (Preview, Controller, Graph))
    requires WellFormed(g)
    requires c.selected.Some?
    ensures !c.previewExists ==> r == (Hidden, c, g)
    ensures r.0 != Hidden ==> hitCell.Some? && hitCell.value in cells
    ensures r.0.Checked? <==>
              c.previewExists && hitCell.Some? && hitCell.value in cells
              && (tileType.None? || tileType.value == Maps.Empty || tileType.value == Maps.Buildable)
              && !cells[hitCell.value].occupied && !enemyAtCentre && Currency.CanAfford(balance, c.selected.value)
    ensures c.previewExists ==> (r.1.isValid <==> r.0 == Checked(true))
    ensures !r.0.Checked? ==> r.2 == g && r.1.temp == c.temp
    ensures r.0.Checked? ==> r.0.valid == ValidatePathsAtPosition(g, c.temp, found, astarPresent, reg).valid
                             && r.2 == ClearTemporaryBlocks(g, c.temp) && r.1.temp == []
    ensures r.1.selected == c.selected && r.1.previewExists == c.previewExists
  {
    if !c.previewExists then (Hidden, c, g)
    else if hitCell.None? || hitCell.value !in cells then (Hidden, c.(isValid := false), g)
    else if tileType.Some? && tileType.value != Maps.Empty && tileType.value != Maps.Buildable then (WrongTile, c.(isValid := false), g)
    else if cells[hitCell.value].occupied then (Occupied, c.(isValid := false), g)
    else if enemyAtCentre then (EnemyPresent, c.(isValid := false), g)
    else if !Currency.CanAfford(balance, c.selected.value) then (Unaffordable, c.(isValid := false), g)
    else
      var v := ValidatePathsAtPosition(g, c.temp, found, astarPresent, reg);
      (Checked(v.valid), c.(isValid := v.valid, temp := v.temp), v.graph)
  }

  /** A Hybrid tile is rejected by the preview, although MapData.IsBuildable
      accepts it. */
  lemma PreviewRejectsHybrid(c: Controller, g: Graph, hitCell: Option<Coord>, cells: Grid.Cells,
                             enemyAtCentre: bool, balance: int, found: seq<Option<Coord>>, astarPresent: bool, reg: Registry)
    requires WellFormed(g) && c.selected.Some? && c.previewExists && hitCell.Some? && hitCell.value in cells
    ensures HandlePreview(c, g, hitCell, cells, Some(Maps.Hybrid), enemyAtCentre, balance, found, astarPresent, reg).0 == WrongTile
    ensures !HandlePreview(c, g, hitCell, cells, Some(Maps.Hybrid), enemyAtCentre, balance, found, astarPresent, reg).1.isValid
  {
  }

  /** The state a placement click acts on. */
  datatype World = World(balance: int, cells: Grid.Cells, graph: Graph)

  /** HandlePlacement. Without a click, without a valid preview, without the
      money, without a ground hit on a grid cell, on an occupied cell or on
      an enemy, nothing changes. Otherwise the cost is spent once, the cell
      becomes occupied, and placement mode ends (CancelPlacement, which also
      clears the temporary blocks). Path nodes are never made unwalkable. */
  function HandlePlacement(c: Controller, w: World, clicked: bool, hitCell: Option<Coord>, enemyAtCentre: bool): (r: (Controller, World))
    requires c.selected.Some?
    ensures var placed := clicked && c.isValid && Currency.CanAfford(w.balance, c.selected.value)
                          && hitCell.Some? && hitCell.value in w.cells && !w.cells[hitCell.value].occupied && !enemyAtCentre;
            && (!placed ==> r == (c, w))
            && (placed ==> r.1.balance == Currency.TrySpend(w.balance, c.selected.value).1
                           && (Int32.InInt32(w.balance - c.selected.value) ==> r.1.balance == w.balance - c.selected.value)
                           && Grid.IsCellOccupied(r.1.cells, hitCell.value)
                           && r.1.cells.Keys == w.cells.Keys
                           && (forall d | d in w.cells && d != hitCell.value :: r.1.cells[d] == w.cells[d])
                           && r.0.selected.None? && !r.0.previewExists && r.0.temp == []
                           && r.1.graph == ClearTemporaryBlocks(w.graph, c.temp))
    ensures forall d | d in w.graph :: r.1.graph[d].walkable ==> d in w.graph && (w.graph[d].walkable || d in c.temp)
    ensures forall d | d in w.graph && w.graph[d].walkable :: r.1.graph[d].walkable
  {
    if !clicked || !c.isValid || !Currency.CanAfford(w.balance, c.selected.value) then (c, w)
    else if hitCell.None? || hitCell.value !in w.cells then (c, w)
    else if w.cells[hitCell.value].occupied then (c, w)
    else if enemyAtCentre then (c, w)
    else
      var spent := Currency.TrySpend(w.balance, c.selected.value);
      var cells := Grid.SetCellOccupied(w.cells, hitCell.value, true);
      var cancelled := CancelPlacement(c, w.graph);
      (cancelled.0, World(spent.1, cells, cancelled.1))
  }

  /** CancelPlacement: leave placement mode, drop the preview, clear the temporary blocks. */
  function CancelPlacement(c: Controller, g: Graph): (r: (Controller, Graph))
    ensures r.0.selected.None? && !r.0.previewExists && r.0.temp == []
    ensures r.1 == ClearTemporaryBlocks(g, c.temp)
  {
    (c.(selected := None, previewExists := false, temp := []), ClearTemporaryBlocks(g, c.temp))
  }
}

=== FILE: unit_path_follower.dfy ===
/** The per-unit route cursor (UnitPathFollower.cs) and the start of a
    unit's movement (MovementComponent.cs). The follow coroutine's motion
    (MoveTowards over frames) is not modelled: a follow step is the moment
    the unit checks its current target node and, if it may go there,
    reaches it. Positions enter only through the unit's cell and a distance
    function from the unit to each node; physics overlaps are inputs. */
module Followers {
  import opened Wrappers
  import opened Coords
  import opened PathGraph
  import opened SpawnPoints
  import opened Selection
  import AStar
  import PathCache
  import NodeGeneration

  /** One follower: its route (None before the first SetPath), the index of
      the node it heads for, whether a follow routine is running, and
      whether it knows its MovementComponent (set by SetPath). */
  datatype Follower = Follower(path: Option<seq<Coord>>, index: nat, following: bool, hasMovement: bool)

  /** The cursor never runs past the end of the route. */
  predicate Valid(f: Follower) {
    && (f.path.Some? ==> f.index <= |f.path.value|)
    && (f.path.None? ==> f.index == 0)
  }

  /** A non-empty walk of live walkable linked nodes, from its first node to its last. */
  ghost predicate IsRoute(g: Graph, p: seq<Coord>) {
    |p| > 0 && IsPath(g, p, p[0], p[|p| - 1])
  }

  /** A freshly enabled component: no route, cursor 0, nothing running. */
  function NewFollower(): (r: Follower)
    ensures Valid(r) && r.path.None? && !r.following && !r.hasMovement
  {
    Follower(None, 0, false, false)
  }

  /** SetPath: a null or empty route is refused and nothing changes; any
      other route is installed at index 0 and a new follow routine replaces
      the running one. */
  function SetPath(f: Follower, newPath: Option<seq<Coord>>, withMovement: bool): (r: Follower)
    ensures newPath.None? || newPath.value == [] ==> r == f
    ensures newPath.Some? && newPath.value != [] ==>
              r.path == newPath && r.index == 0 && r.following && r.hasMovement == withMovement
    ensures Valid(f) ==> Valid(r)
  {
    if newPath.None? || newPath.value == [] then f
    else Follower(newPath, 0, true, withMovement)
  }

  /** StopMovement: the follow routine ends; route and cursor stay. */
  function StopMovement(f: Follower): (r: Follower)
    ensures !r.following && r.path == f.path && r.index == f.index && r.hasMovement == f.hasMovement
  {
    f.(following := false)
  }

  /** What the unit's position tells the nearest-node search: the cell it
      stands in, whether a PathNodeGenerator exists, whether its
      MovementComponent names a node layer, the node colliders within the
      rejoin radius, Astar's list of all nodes, and the distance from the
      unit to each node. */
  datatype Surroundings = Surroundings(cell: Coord, generatorPresent: bool, layerSet: bool,
                                       hits: seq<Option<Coord>>, allNodes: seq<Option<Coord>>, dist: Coord -> real)

  /** The score each candidate gets in a nearest-walkable scan: its distance
      when it is a live walkable node, None (skipped) otherwise. */
  function WalkableDistances(g: Graph, cands: seq<Option<Coord>>, dist: Coord -> real): (r: seq<Option<real>>)
    ensures |r| == |cands|
    ensures forall i | 0 <= i < |cands| ::
              r[i].Some? <==> cands[i].Some? && cands[i].value in g && g[cands[i].value].walkable
    ensures forall i | 0 <= i < |cands| && r[i].Some? :: r[i].value == dist(cands[i].value)
  {
    seq(|cands|, i requires 0 <= i < |cands| =>
      if cands[i].Some? && cands[i].value in g && g[cands[i].value].walkable then Some(dist(cands[i].value)) else None)
  }

  /** One scan of GetNearestWalkableNode: the first walkable candidate of least distance. */
  function ScanNearest(g: Graph, cands: seq<Option<Coord>>, dist: Coord -> real): (r: Option<Coord>)
    ensures r.Some? ==> r.value in g && g[r.value].walkable
    ensures r.None? <==> forall i | 0 <= i < |cands| :: !(cands[i].Some? && cands[i].value in g && g[cands[i].value].walkable)
    ensures r.Some? ==> exists k: nat :: FirstMin(WalkableDistances(g, cands, dist), k) && r == cands[k]
  {
    var scores := WalkableDistances(g, cands, dist);
    var k := ArgMin(scores);
    if k.None? then
      assert forall i | 0 <= i < |cands| :: scores[i].None?;
      None
    else cands[k.value]
  }

  /** GetNearestWalkableNode: the node under the unit if it is walkable;
      else the nearest walkable node among the colliders in range (when a
      node layer is set); else the nearest walkable node of all (when Astar
      exists); else null. Whatever it returns is live and walkable. */
  function GetNearestWalkableNode(g: Graph, astarPresent: bool, env: Surroundings): (r: Option<Coord>)
    ensures r.Some? ==> r.value in g && g[r.value].walkable
    ensures env.generatorPresent && env.cell in g && g[env.cell].walkable ==> r == Some(env.cell)
    ensures r.None? <==>
              && !(env.generatorPresent && env.cell in g && g[env.cell].walkable)
              && (!env.layerSet || ScanNearest(g, env.hits, env.dist).None?)
              && (!astarPresent || ScanNearest(g, env.allNodes, env.dist).None?)
    ensures r.Some? && r != Some(env.cell) ==>
              r == ScanNearest(g, env.hits, env.dist) || r == ScanNearest(g, env.allNodes, env.dist)
  {
    var direct := NodeGeneration.GetNodeAt(if env.generatorPresent then Some(g) else None, env.cell);
    if direct.Some? && g[direct.value].walkable then direct
    else if env.layerSet && ScanNearest(g, env.hits, env.dist).Some? then ScanNearest(g, env.hits, env.dist)
    else if astarPresent then ScanNearest(g, env.allNodes, env.dist)
    else None
  }

  /** The score of each exit in a rejoin: the node count of Astar's route to
      it, None for a null exit or one without a route. */
  function RouteLengths(g: Graph, from: Coord, ends: seq<Coord>): (r: seq<Option<real>>)
    requires WellFormed(g)
    ensures |r| == |ends|
    ensures forall i | 0 <= i < |ends| :: r[i].Some? <==> ends[i] in g && Reachable(g, from, ends[i])
    ensures forall i | 0 <= i < |ends| && r[i].Some? :: r[i].value == |AStar.FindPath(g, from, ends[i]).value| as real
  {
    seq(|ends|, i requires 0 <= i < |ends| =>
      var p := AStar.FindPath(g, from, ends[i]);
      if ends[i] in g && p.Some? then Some(|p.value| as real) else None)
  }

  /** TryRejoinFromCurrentPosition. It fails, leaving the follower as it
      is, without Astar, without an End key in the registry, without a
      walkable node near the unit, or when no exit can be reached from that
      node. Otherwise it installs, at index 0, Astar's route to the exit
      whose route has the fewest nodes (the earliest such exit on a tie). */
  function TryRejoin(f: Follower, g: Graph, astarPresent: bool, reg: Registry, env: Surroundings): (r: (bool, Follower))
    requires WellFormed(g)
    ensures !r.0 ==> r.1 == f
    ensures r.0 <==>
              && astarPresent && End in reg
              && GetNearestWalkableNode(g, astarPresent, env).Some?
              && exists j | 0 <= j < |reg[End]| :: reg[End][j] in g && Reachable(g, GetNearestWalkableNode(g, astarPresent, env).value, reg[End][j])
    ensures r.0 ==> var from := GetNearestWalkableNode(g, astarPresent, env).value;
                    && r.1.index == 0 && r.1.following && r.1.hasMovement == f.hasMovement
                    && exists k: nat :: FirstMin(RouteLengths(g, from, reg[End]), k)
                                        && r.1.path == AStar.FindPath(g, from, reg[End][k])
                                        && IsPath(g, r.1.path.value, from, reg[End][k])
  {
    if !astarPresent || End !in reg then (false, f)
    else
      var nearest := GetNearestWalkableNode(g, astarPresent, env);
      if nearest.None? then (false, f)
      else
        var lengths := RouteLengths(g, nearest.value, reg[End]);
        var k := ArgMin(lengths);
        if k.None? then
          assert forall j | 0 <= j < |reg[End]| :: lengths[j].None?;
          (false, f)
        else
          var best := AStar.FindPath(g, nearest.value, reg[End][k.value]);
          (true, f.(path := best, index := 0, following := true))
  }

  /** The outcome of one follow step. */
  datatype Step = Finished | Blocked | Advanced

  /** One step of FollowPath: at the end of the route the routine finishes;
      a null or unwalkable target stops the routine and tries a rejoin; a
      walkable target is reached and the cursor moves on by exactly one. */
  function FollowStep(f: Follower, g: Graph, astarPresent: bool, reg: Registry, env: Surroundings): (r: (Step, Follower))
    requires WellFormed(g)
    requires f.path.Some? && Valid(f)
    ensures r.0 == Finished <==> f.index == |f.path.value|
    ensures r.0 == Advanced <==> f.index < |f.path.value| && f.path.value[f.index] in g && g[f.path.value[f.index]].walkable
    ensures r.0 == Advanced ==> r.1 == f.(index := f.index + 1)
    ensures r.0 == Finished ==> r.1 == StopMovement(f)
    ensures r.0 == Blocked ==> r.1 == TryRejoin(StopMovement(f), g, astarPresent, reg, env).1
    ensures Valid(r.1)
  {
    var p := f.path.value;
    if f.index >= |p| then (Finished, StopMovement(f))
    else if p[f.index] !in g || !g[p[f.index]].walkable then
      (Blocked, TryRejoin(StopMovement(f), g, astarPresent, reg, env).1)
    else (Advanced, f.(index := f.index + 1))
  }

  /** A run of uninterrupted follow steps, one graph per step, that ends at
      the first step that does not advance. It returns the follower and
      how many nodes it passed. */
  function Walk(f: Follower, gs: seq<Graph>): (r: (Follower, nat))
    requires f.path.Some? && Valid(f)
    ensures r.1 <= |gs| && f.index + r.1 <= |f.path.value|
    ensures r.0 == f.(index := f.index + r.1)
    ensures forall i | 0 <= i < r.1 :: f.path.value[f.index + i] in gs[i] && gs[i][f.path.value[f.index + i]].walkable
    ensures r.1 < |gs| && f.index + r.1 < |f.path.value| ==>
              !(f.path.value[f.index + r.1] in gs[r.1] && gs[r.1][f.path.value[f.index + r.1]].walkable)
    decreases |gs|
  {
    var p := f.path.value;
    if gs == [] || f.index >= |p| || p[f.index] !in gs[0] || !gs[0][p[f.index]].walkable then (f, 0)
    else
      var rest := Walk(f.(index := f.index + 1), gs[1..]);
      (rest.0, rest.1 + 1)
  }

  /** GetPathProgress: 0 without a route, otherwise the share of the route passed. */
  function GetPathProgress(f: Follower): (r: real)
    ensures f.path.None? || f.path.value == [] ==> r == 0.0
    ensures Valid(f) ==> 0.0 <= r <= 1.0
    ensures Valid(f) && f.path.Some? && f.path.value != [] ==> (r == 1.0 <==> f.index == |f.path.value|)
  {
    if f.path.None? || f.path.value == [] then 0.0
    else f.index as real / |f.path.value| as real
  }

  /** Every advancing step raises the progress. */
  lemma AdvancingRaisesProgress(f: Follower, g: Graph, astarPresent: bool, reg: Registry, env: Surroundings)
    requires WellFormed(g) && f.path.Some? && Valid(f)
    requires FollowStep(f, g, astarPresent, reg, env).0 == Advanced
    ensures GetPathProgress(FollowStep(f, g, astarPresent, reg, env).1) > GetPathProgress(f)
  {
    var n := |f.path.value| as real;
    assert f.index as real / n < (f.index + 1) as real / n;
  }

  /** The distance of each route node from the unit; every node takes part. */
  function PathDistances(path: seq<Coord>, dist: Coord -> real): (r: seq<Option<real>>)
    ensures |r| == |path|
    ensures forall i | 0 <= i < |path| :: r[i] == Some(dist(path[i]))
  {
    seq(|path|, i requires 0 <= i < |path| => Some(dist(path[i])))
  }

  /** FindNearestNodeOnPath: null for an empty route, otherwise the first
      route node of least distance from the unit. */
  function FindNearestNodeOnPath(path: seq<Coord>, dist: Coord -> real): (r: Option<Coord>)
    ensures r.None? <==> path == []
    ensures r.Some? ==> exists k: nat :: FirstMin(PathDistances(path, dist), k) && r.value == path[k]
  {
    var k := ArgMin(PathDistances(path, dist));
    if k.None? then
      None
    else Some(path[k.value])
  }

  /** IndexOf of the nearest node finds the very position the scan chose:
      an earlier copy of that node would be as near, so the strict
      comparison would have kept the earlier one. */
  lemma NearestIndexIsItsPosition(path: seq<Coord>, dist: Coord -> real, k: nat)
    requires FirstMin(PathDistances(path, dist), k)
    ensures IndexOf(path, path[k]) == k
  {
    var j := IndexOf(path, path[k]);
    assert path[k] in path;
  }

  /** MovementComponent.OnTriggerMove. Without Astar, a start node or a goal
      node nothing happens. Otherwise the route comes from the cache-aware
      GetPath; when there is one, the follower is given its suffix from the
      route node nearest the unit; when there is none, nothing is assigned. */
  function OnTriggerMove(f: Follower, g: Graph, cache: PathCache.Cache, astarPresent: bool,
                         start: Option<Coord>, goal: Option<Coord>, dist: Coord -> real): (r: (Follower, PathCache.Cache))
    requires WellFormed(g) && PathCache.CacheInv(g, cache)
    ensures PathCache.CacheInv(g, r.1)
    ensures !astarPresent || start.None? || goal.None? ==> r == (f, cache)
    ensures astarPresent && start.Some? && goal.Some? ==> r.1 == PathCache.GetPath(g, cache, start.value, goal.value).1
    ensures astarPresent && start.Some? && goal.Some? && !Reachable(g, start.value, goal.value) ==> r.0 == f
    ensures astarPresent && start.Some? && goal.Some? && Reachable(g, start.value, goal.value) ==>
              var p := PathCache.GetPath(g, cache, start.value, goal.value).0.value;
              && r.0.following && r.0.index == 0 && r.0.hasMovement
              && (exists k: nat :: FirstMin(PathDistances(p, dist), k) && r.0.path == Some(p[k..]))
              && IsPath(g, r.0.path.value, r.0.path.value[0], goal.value)
  {
    if !astarPresent || start.None? || goal.None? then (f, cache)
    else
      var got := PathCache.GetPath(g, cache, start.value, goal.value);
      if got.0.None? || got.0.value == [] then (f, got.1)
      else
        var p := got.0.value;
        var nearest := FindNearestNodeOnPath(p, dist);
        var k: nat :| FirstMin(PathDistances(p, dist), k) && nearest.value == p[k];
        NearestIndexIsItsPosition(p, dist, k);
        var startIndex := IndexOf(p, nearest.value);
        SuffixIsPath(g, p, start.value, goal.value, startIndex);
        (SetPath(f, Some(p[startIndex..]), true), got.1)
  }

  /** A suffix of a route is a route from its own first node. */
  lemma SuffixIsPath(g: Graph, p: seq<Coord>, s: Coord, t: Coord, k: nat)
    requires IsPath(g, p, s, t) && k < |p|
    ensures IsPath(g, p[k..], p[k], t)
  {
    assert forall i | 0 <= i < |p| - k :: p[k..][i] == p[k + i];
  }

  /** RequestPathUpdate: stop, try to rejoin from the unit's position, and
      only when that fails restart from the spawn through the
      MovementComponent (when the follower knows one). The cache is touched
      only by the restart. Whatever route ends up running was a walkable
      route of the current graph when it was installed. */
  function RequestPathUpdate(f: Follower, g: Graph, cache: PathCache.Cache, astarPresent: bool, reg: Registry,
                             env: Surroundings, start: Option<Coord>, goal: Option<Coord>): (r: (Follower, PathCache.Cache))
    requires WellFormed(g) && PathCache.CacheInv(g, cache)
    ensures PathCache.CacheInv(g, r.1)
    ensures TryRejoin(StopMovement(f), g, astarPresent, reg, env).0 ==>
              r == (TryRejoin(StopMovement(f), g, astarPresent, reg, env).1, cache)
    ensures !TryRejoin(StopMovement(f), g, astarPresent, reg, env).0 && !f.hasMovement ==> r == (StopMovement(f), cache)
    ensures !TryRejoin(StopMovement(f), g, astarPresent, reg, env).0 && f.hasMovement ==>
              r == OnTriggerMove(StopMovement(f), g, cache, astarPresent, start, goal, env.dist)
    ensures r.0.following ==> r.0.index == 0 && r.0.path.Some? && IsRoute(g, r.0.path.value)
  {
    var stopped := StopMovement(f);
    var rejoin := TryRejoin(stopped, g, astarPresent, reg, env);
    if rejoin.0 then (rejoin.1, cache)
    else if f.hasMovement then OnTriggerMove(stopped, g, cache, astarPresent, start, goal, env.dist)
    else (stopped, cache)
  }

  /** Astar's notification after a recalculation: every registered
      follower, in the snapshot's order, handles one RequestPathUpdate; the
      cache threads through the restarts. Each follower's inputs come from
      `env`, `start` and `goal`. */
  function NotifyAll(fs: map<PathCache.FollowerId, Follower>, ids: seq<PathCache.FollowerId>, g: Graph, cache: PathCache.Cache,
                     reg: Registry, env: PathCache.FollowerId -> Surroundings,
                     start: PathCache.FollowerId -> Option<Coord>, goal: PathCache.FollowerId -> Option<Coord>): (r: (map<PathCache.FollowerId, Follower>, PathCache.Cache))
    requires WellFormed(g) && PathCache.CacheInv(g, cache)
    requires forall i | 0 <= i < |ids| :: ids[i] in fs
    ensures PathCache.CacheInv(g, r.1)
    ensures r.0.Keys == fs.Keys
    ensures forall id | id in fs && id !in ids :: r.0[id] == fs[id]
    ensures forall id | id in ids && r.0[id].following :: r.0[id].index == 0 && r.0[id].path.Some? && IsRoute(g, r.0[id].path.value)
    decreases |ids|
  {
    if ids == [] then (fs, cache)
    else
      var id := ids[0];
      var u := RequestPathUpdate(fs[id], g, cache, true, reg, env(id), start(id), goal(id));
      var rest := NotifyAll(fs[id := u.0], ids[1..], g, u.1, reg, env, start, goal);
      assert forall x :: x in ids <==> x == id || x in ids[1..];
      if id in ids[1..] then rest
      else
        assert rest.0[id] == u.0;
        rest
  }
}

=== FILE: upgrades.dfy ===
/** Tower upgrades, selling and kill statistics (TowerUpgradeData.cs,
    TowerUpgradeComponent.cs, TowerDamageTracker.cs). Tower prefabs are
    opaque identifiers; the currency manager and the grid are passed in. */
module Upgrades {
  import opened Wrappers
  import opened Coords
  import opened Selection
  import Grid
  import Currency
  import Int32

  datatype RequirementType = PlayerLevel | TowerKills | RoundNumber
  datatype Requirement = Requirement(kind: RequirementType, value: int)

  /** An UpgradeOption; `target` is None when no upgraded tower is assigned. */
  datatype UpgradeOption = UpgradeOption(target: Option<nat>, cost: int, requirements: seq<Requirement>)

  datatype UpgradeData = UpgradeData(baseBuildCost: int, options: seq<UpgradeOption>, canSell: bool, sellPercent: int)

  /** The player's progress a requirement is compared against. */
  datatype Progress = Progress(level: int, kills: int, round: int)

  /** A single requirement is met when the matching counter reaches its threshold. */
  predicate Met(req: Requirement, p: Progress) {
    match req.kind
    case PlayerLevel => p.level >= req.value
    case TowerKills => p.kills >= req.value
    case RoundNumber => p.round >= req.value
  }

  /** The foreach over requirements, returning false at the first one not met. */
  function CheckRequirements(reqs: seq<Requirement>, p: Progress): (r: bool)
    decreases |reqs|
  {
    if reqs == [] then true
    else if !Met(reqs[0], p) then false
    else CheckRequirements(reqs[1..], p)
  }

  /** The early-exit scan agrees with "every requirement is met". */
  lemma {:induction false} CheckRequirementsMeansAllMet(reqs: seq<Requirement>, p: Progress)
    ensures CheckRequirements(reqs, p) <==> forall i | 0 <= i < |reqs| :: Met(reqs[i], p)
    decreases |reqs|
  {
    if reqs != [] {
      CheckRequirementsMeansAllMet(reqs[1..], p);
      assert forall i | 0 < i < |reqs| :: reqs[i] == reqs[1..][i - 1];
    }
  }

  /** IsUpgradeAvailable: enough gold, then every requirement met. */
  function IsUpgradeAvailable(o: UpgradeOption, gold: int, p: Progress): (r: bool)
    ensures r <==> gold >= o.cost && forall i | 0 <= i < |o.requirements| :: Met(o.requirements[i], p)
  {
    CheckRequirementsMeansAllMet(o.requirements, p);
    if gold < o.cost then false else CheckRequirements(o.requirements, p)
  }

  /** Availability does not depend on the order of the requirements. */
  lemma AvailabilityIgnoresOrder(o: UpgradeOption, reqs: seq<Requirement>, gold: int, p: Progress)
    requires multiset(reqs) == multiset(o.requirements)
    ensures IsUpgradeAvailable(o.(requirements := reqs), gold, p) == IsUpgradeAvailable(o, gold, p)
  {
    AllMetTransfers(reqs, o.requirements, p);
    AllMetTransfers(o.requirements, reqs, p);
  }

  lemma AllMetTransfers(a: seq<Requirement>, b: seq<Requirement>, p: Progress)
    requires multiset(a) == multiset(b)
    ensures (forall j | 0 <= j < |b| :: Met(b[j], p)) ==> forall i | 0 <= i < |a| :: Met(a[i], p)
  {
    forall i | 0 <= i < |a| && (forall j | 0 <= j < |b| :: Met(b[j], p)) ensures Met(a[i], p) {
      assert a[i] in multiset(a);
      assert a[i] in b;
      var j :| 0 <= j < |b| && b[j] == a[i];
    }
  }

  /** Mathf.RoundToInt on an exact value: nearest integer, halves to even. */
  function RoundHalfEven(x: real): (r: int)
    ensures x - 0.5 <= r as real <= x + 0.5
    ensures x - x.Floor as real != 0.5 ==> (r as real - x < 0.5 && x - r as real < 0.5)
    ensures x - x.Floor as real == 0.5 ==> r % 2 == 0
  {
    var f := x.Floor;
    var frac := x - f as real;
    if frac < 0.5 then f
    else if frac > 0.5 then f + 1
    else if f % 2 == 0 then f else f + 1
  }

  /** GetSellValue: nothing when selling is disabled, otherwise the rounded
      percentage of the base build cost. */
  function GetSellValue(d: UpgradeData): (r: int)
    ensures !d.canSell ==> r == 0
    ensures d.canSell ==> r == RoundHalfEven(SellAmount(d))
  {
    if !d.canSell then 0 else RoundHalfEven(SellAmount(d))
  }

  /** The unrounded refund: the percentage of the base build cost. */
  function SellAmount(d: UpgradeData): real {
    d.baseBuildCost as real * (d.sellPercent as real / 100.0)
  }

  /** Rounding a value that lies between two integers stays between them. */
  lemma RoundStaysBetween(x: real, lo: int, hi: int)
    requires lo as real <= x <= hi as real
    ensures lo <= RoundHalfEven(x) <= hi
  {
  }

  /** With a percentage in 0..100 and a non-negative cost, a sale refunds
      between nothing and the full build cost. */
  lemma SellValueBounded(d: UpgradeData)
    requires 0 <= d.sellPercent <= 100 && d.baseBuildCost >= 0
    ensures 0 <= GetSellValue(d) <= d.baseBuildCost
  {
    if d.canSell {
      SellAmountBounded(d);
      RoundStaysBetween(SellAmount(d), 0, d.baseBuildCost);
    }
  }

  /** The unrounded sell amount is a fraction in [0, 1] of the build cost. */
  lemma SellAmountBounded(d: UpgradeData)
    requires 0 <= d.sellPercent <= 100 && d.baseBuildCost >= 0
    ensures 0.0 <= SellAmount(d) <= d.baseBuildCost as real
  {
    var b, f := d.baseBuildCost as real, d.sellPercent as real / 100.0;
    assert 0.0 <= f <= 1.0;
    assert b - b * f == b * (1.0 - f);
  }

  /** A tower's upgrade component: its statistics and the cell it stands on. */
  datatype Tower = Tower(killCount: int, totalDamage: int, cell: Coord)

  /** The options passing the availability test, in their original order. */
  function Available(options: seq<UpgradeOption>, gold: int, p: Progress): (r: seq<UpgradeOption>)
    ensures |r| <= |options|
    ensures forall o :: o in r <==> o in options && IsUpgradeAvailable(o, gold, p)
    decreases |options|
  {
    if options == [] then []
    else
      var rest := Available(options[1..], gold, p);
      assert forall o :: o in options <==> o == options[0] || o in options[1..];
      if IsUpgradeAvailable(options[0], gold, p) then [options[0]] + rest else rest
  }

  /** The availability test as a filter condition. */
  function AvailableTo(gold: int, p: Progress): UpgradeOption -> bool {
    (o: UpgradeOption) => IsUpgradeAvailable(o, gold, p)
  }

  /** The available options are the options passing the availability test, each kept
      once at its own position and in the original order, and no other. */
  lemma {:induction false} AvailableKeepsOrder(options: seq<UpgradeOption>, gold: int, p: Progress)
    ensures exists idx :: OrderedFilter(Available(options, gold, p), options, AvailableTo(gold, p), idx)
    decreases |options|
  {
    var keep := AvailableTo(gold, p);
    if options == [] {
      assert Available(options, gold, p) == [];
      assert OrderedFilter([], options, keep, []);
    } else {
      var rest := Available(options[1..], gold, p);
      AvailableKeepsOrder(options[1..], gold, p);
      var idx :| OrderedFilter(rest, options[1..], keep, idx);
      var idx' := FilterStep(options, keep, rest, idx);
      assert keep(options[0]) <==> IsUpgradeAvailable(options[0], gold, p);
      assert OrderedFilter(Available(options, gold, p), options, keep, idx');
    }
  }

  /** GetAvailableUpgrades: the tower's kill count is passed, but the player
      level and round are always 0. */
  function GetAvailableUpgrades(data: Option<UpgradeData>, gold: int, t: Tower): (r: seq<UpgradeOption>)
    ensures data.None? || |data.value.options| == 0 ==> r == []
    ensures data.Some? ==> forall o :: o in r <==> o in data.value.options && IsUpgradeAvailable(o, gold, Progress(0, t.killCount, 0))
  {
    if data.None? || |data.value.options| == 0 then []
    else Available(data.value.options, gold, Progress(0, t.killCount, 0))
  }

  /** A tower is offered its data's options that pass the test at level 0,
      its own kill count and round 0, in the data's order. */
  lemma GetAvailableUpgradesKeepsOrder(data: Option<UpgradeData>, gold: int, t: Tower)
    requires data.Some?
    ensures exists idx :: OrderedFilter(GetAvailableUpgrades(data, gold, t), data.value.options,
                                        AvailableTo(gold, Progress(0, t.killCount, 0)), idx)
  {
    var q := Progress(0, t.killCount, 0);
    AvailableKeepsOrder(data.value.options, gold, q);
    var idx :| OrderedFilter(Available(data.value.options, gold, q), data.value.options, AvailableTo(gold, q), idx);
    if data.value.options == [] {
      assert GetAvailableUpgrades(data, gold, t) == [];
      assert OrderedFilter(GetAvailableUpgrades(data, gold, t), data.value.options, AvailableTo(gold, q), []);
    } else {
      assert GetAvailableUpgrades(data, gold, t) == Available(data.value.options, gold, q);
      assert OrderedFilter(GetAvailableUpgrades(data, gold, t), data.value.options, AvailableTo(gold, q), idx);
    }
  }

  /** Because level and round are fixed at 0, an option with a positive
      PlayerLevel or RoundNumber requirement is never offered. */
  lemma PositiveLevelOrRoundExcludes(data: Option<UpgradeData>, gold: int, t: Tower, o: UpgradeOption, i: nat)
    requires i < |o.requirements| && o.requirements[i].value > 0
    requires o.requirements[i].kind == PlayerLevel || o.requirements[i].kind == RoundNumber
    ensures o !in GetAvailableUpgrades(data, gold, t)
  {
    assert !Met(o.requirements[i], Progress(0, t.killCount, 0));
  }

  /** The outcome of UpgradeTo: success, the balance, the grid cells and the
      replacement tower's statistics (None when nothing was built, or when
      the new prefab has no upgrade component). */
  datatype Upgraded = Upgraded(ok: bool, balance: int, cells: Option<Grid.Cells>, newTower: Option<Tower>)

  /** UpgradeTo: checks only that an option and a target exist and that the
      cost can be spent (not the requirements); then frees and re-occupies
      the cell and copies the statistics to the new tower. */
  function UpgradeTo(o: Option<UpgradeOption>, balance: int, cells: Option<Grid.Cells>, t: Tower, newHasComponent: bool): (r: Upgraded)
    ensures o.None? || o.value.target.None? ==> r == Upgraded(false, balance, cells, None)
    ensures o.Some? && o.value.target.Some? && balance < o.value.cost ==> r == Upgraded(false, balance, cells, None)
    ensures r.ok <==> o.Some? && o.value.target.Some? && balance >= o.value.cost
    ensures r.ok ==> r.balance == Currency.TrySpend(balance, o.value.cost).1
    ensures r.ok && Int32.InInt32(balance - o.value.cost) ==> r.balance == balance - o.value.cost
    ensures r.ok && cells.Some? ==>
              (r.cells.Some? && r.cells.value.Keys == cells.value.Keys
               && (t.cell in cells.value ==> Grid.IsCellOccupied(r.cells.value, t.cell))
               && forall d | d in cells.value && d != t.cell :: r.cells.value[d] == cells.value[d])
    ensures cells.None? ==> r.cells.None?
    ensures r.ok && newHasComponent ==>
              (r.newTower.Some? && r.newTower.value.killCount == t.killCount
               && r.newTower.value.totalDamage == t.totalDamage && r.newTower.value.cell == t.cell)
    ensures r.ok && !newHasComponent ==> r.newTower.None?
  {
    if o.None? || o.value.target.None? then Upgraded(false, balance, cells, None)
    else
      var spent := Currency.TrySpend(balance, o.value.cost);
      if !spent.0 then Upgraded(false, balance, cells, None)
      else
        var freed := if cells.Some? then Some(Grid.SetCellOccupied(cells.value, t.cell, false)) else None;
        var taken := if freed.Some? then Some(Grid.SetCellOccupied(freed.value, t.cell, true)) else None;
        Upgraded(true, spent.1, taken, if newHasComponent then Some(t) else None)
  }

  /** The outcome of SellTower: success, the balance and the grid cells. */
  datatype Sold = Sold(ok: bool, balance: int, cells: Option<Grid.Cells>)

  /** SellTower: refused without data or when selling is disabled; otherwise
      refunds the sell value and frees the cell. */
  function SellTower(data: Option<UpgradeData>, balance: int, cells: Option<Grid.Cells>, t: Tower): (r: Sold)
    ensures r.ok <==> data.Some? && data.value.canSell
    ensures !r.ok ==> r == Sold(false, balance, cells)
    ensures r.ok ==> r.balance == Currency.Add(balance, GetSellValue(data.value))
    ensures r.ok && Int32.InInt32(balance + GetSellValue(data.value)) ==> r.balance == balance + GetSellValue(data.value)
    ensures r.ok && cells.Some? ==>
              (r.cells.Some? && r.cells.value.Keys == cells.value.Keys
               && !Grid.IsCellOccupied(r.cells.value, t.cell)
               && forall d | d in cells.value && d != t.cell :: r.cells.value[d] == cells.value[d])
    ensures cells.None? ==> r.cells.None?
  {
    if data.None? || !data.value.canSell then Sold(false, balance, cells)
    else
      var cells' := if cells.Some? then Some(Grid.SetCellOccupied(cells.value, t.cell, false)) else None;
      Sold(true, Currency.Add(balance, GetSellValue(data.value)), cells')
  }

  /** TowerUpgradeComponent.OnEnemyKilled: one more kill, the damage added. */
  function OnEnemyKilled(t: Tower, damageDealt: int): (r: Tower)
    ensures r.killCount == t.killCount + 1
    ensures r.totalDamage == t.totalDamage + damageDealt
    ensures r.cell == t.cell
  {
    t.(killCount := t.killCount + 1, totalDamage := t.totalDamage + damageDealt)
  }

  /** TowerDamageTracker.OnEnemyKilled: forwards to the linked component, if any. */
  function TrackKill(linked: Option<Tower>, damageDealt: int): (r: Option<Tower>)
    ensures linked.None? ==> r.None?
    ensures linked.Some? ==>
              (r.Some? && r.value.killCount == linked.value.killCount + 1
               && r.value.totalDamage == linked.value.totalDamage + damageDealt)
  {
    if linked.Some? then Some(OnEnemyKilled(linked.value, damageDealt)) else linked
  }

  /** TowerDamageTracker.OnDamageDealt: damage only, never a kill. */
  function TrackDamage(linked: Option<Tower>, damageAmount: int): (r: Option<Tower>)
    ensures linked.None? ==> r.None?
    ensures linked.Some? ==>
              (r.Some? && r.value.killCount == linked.value.killCount
               && r.value.totalDamage == linked.value.totalDamage + damageAmount)
  {
    if linked.Some? then Some(linked.value.(totalDamage := linked.value.totalDamage + damageAmount)) else linked
  }

  /** One tracker event: a kill with its damage, or plain damage. */
  datatype Event = Kill(damage: int) | Damage(amount: int)

  function Track(linked: Option<Tower>, events: seq<Event>): Option<Tower>
    decreases |events|
  {
    if events == [] then linked
    else
      var next := match events[0]
        case Kill(d) => TrackKill(linked, d)
        case Damage(a) => TrackDamage(linked, a);
      Track(next, events[1..])
  }

  /** Kill counts never go down through the tracker: after any event
      sequence the count has grown by exactly the number of kills. */
  function Kills(events: seq<Event>): (n: nat)
    ensures n <= |events|
    decreases |events|
  {
    if events == [] then 0 else (if events[0].Kill? then 1 else 0) + Kills(events[1..])
  }

  lemma {:induction false} TrackCountsKills(linked: Option<Tower>, events: seq<Event>)
    ensures linked.None? ==> Track(linked, events).None?
    ensures linked.Some? ==>
              (Track(linked, events).Some?
               && Track(linked, events).value.killCount == linked.value.killCount + Kills(events)
               && Track(linked, events).value.killCount >= linked.value.killCount)
    decreases |events|
  {
    if events != [] {
      var next := match events[0]
        case Kill(d) => TrackKill(linked, d)
        case Damage(a) => TrackDamage(linked, a);
      TrackCountsKills(next, events[1..]);
    }
  }
}

=== FILE: wrappers.dfy ===
/** Failure-carrying values shared by the whole model: `Option` stands for a
    reference that may be null, `Result` for an operation that may throw. */
module Wrappers {

  datatype Option<+T> = None | Some(value: T) {

    /** The value, or `default` when absent (C#'s `??`). */
    function GetOr(default: T): T {
      match this
      case Some(v) => v
      case None => default
    }
  }

  datatype Result<+R, +E> = Success(value: R) | Failure(error: E)
}
